=== FILE: README.md ===
# ss-media-tools, modelled in Dafny

ss-media-tools is a self-media assistant. It has seven parts:

- **AI facade.** Generates text through one of several vendor clients (OpenAI-compatible, Baidu ERNIE, Alibaba DashScope, DeepSeek). It picks the configuration row to use, counts each use and its tokens, and writes a log entry per call.
- **Streaming.** Generation can also run as a stream of chunks: deltas, then one terminal chunk or one error chunk.
- **Publisher.** Formats a draft for Weibo or WeChat, checks it, and publishes it. It writes one publish record per attempt. Posts with a future time are queued for a scheduled job.
- **Hotspot crawler.** Reads the trending lists of Weibo, Zhihu and Toutiao, scores and tags each entry, and stores the entries without duplicates inside a 24-hour window. From the stored topics it reports the hottest topics and the trending keywords.
- **HTTP layer.** Frames streams as server-sent events, maps generation results to responses, keeps draft word counts, pages the publish records and computes publish statistics.
- **Analytics.** Performance bands, engagement rates, report summaries and content opportunities.
- **Maintenance script.** Makes a DeepSeek configuration the only default.

The model is functional. Database tables are sequences of rows in row order, and `.first()` is the first matching row in that order. Python dictionaries whose insertion order matters are association lists; a repeated key overwrites its entry in place. Clocks are integer timestamps. Vendor replies, JSON decoding, word segmentation and date formatting are passed in as values or function parameters.

Modules: `Wrappers` (Option, Result, vendor replies), `Seqs` (slices with Python semantics, filters, association lists, counting), `Text` (strip, split/join, digits), `Sorting` (a stable sort, largest first, with stability proved), `Config`, `Models`, `Streams`, `Providers`, `Facade`, `DefaultSwitch`, `Publisher`, `Scheduler`, `Hotspots`, `HotspotStore`, `HttpLayer`, `Analytics`.

## Model

| member | source | states |
|---|---|---|
| Config.GetPlatformConfig | config.py:90-122 | Exactly weibo, wechat, xiaohongshu and douyin are known, each with its display name, length limit and media support (140, 20000, 1000, 55); any other platform has no entry |
| Config.GetAiModelConfig | config.py:58-88 | Exactly openai, baidu, dashscope and tencent have catalogue entries; each entry's display name, key variable, model list, token limit (4000 for OpenAI, 2000 otherwise) and streaming support are pinned; deepseek has none |
| Config.MaxLengthOf | config.py:90-115 | The length limit formatting uses: the platform's own when it is known, 1000 otherwise; never below 55 |
| Models.NewConfig | models.py:16-34 | A new configuration row starts active, not default, with 2000 tokens, temperature 0.7 and zero usage |
| Models.NewDraft | models.py:36-58 | A new draft starts in status `draft`, version 1, not AI-generated, with a word count of 0 |
| Models.NewPublishRecord | models.py:60-82 | A new publish record starts `pending`, with no post id, no error and zero view, like, comment and share counts |
| Models.InitDb | models.py:145-175 | An empty table gains exactly the seed row "默认DeepSeek模型" (deepseek-chat, 4000 tokens, temperature 0.7, no key, active, default, unused) and so one default; a non-empty table is left alone; at most one default stays at most one |
| Models.NextId | models.py:20 | The id sqlite gives a new row (configuration, topic or publish record) is positive and larger than every id already in its table |
| Models.ClearDefaults | ai_models.py:609-613 | Clearing the defaults changes nothing but the default flags; a row stays default exactly when it was default and has the kept id, and no row becomes default |
| Models.ClearDefaultsAtMostOne | ai_models.py:609-613 | With unique ids, clearing the defaults leaves at most one default, and none when no id is kept |
| Models.DefaultCountOfFlags | ai_models.py:609-613 | A table whose only default row is at position k counts exactly one default |
| Models.DefaultCountMono | ai_models.py:630-635 | Clearing flags never raises the number of defaults |
| Streams.Reconstruction | ai_models.py:96-116 | In every well-formed stream that accumulates from the empty text, the terminal chunk's full text is the concatenation of the delta fragments before it |
| Streams.DeltaPrefixText | ai_models.py:402-433 | Over a prefix of deltas, the running text is the concatenation of their fragments |
| Providers.OpenAIGenerate | ai_models.py:47-79 | A call fails exactly when the client raises, with the exception's text; otherwise it returns the reply's content and total tokens |
| Providers.OpenAIChunks | ai_models.py:81-119 | The chunks read from the fragments form a well-shaped stream accumulating from the text so far, one chunk at most per fragment plus the end |
| Providers.OpenAIChunksEnd | ai_models.py:96-119 | Empty fragments produce no chunk; the stream ends with a usage-free terminal chunk, or with the error of an interruption |
| Providers.OpenAIStream | ai_models.py:81-119 | The OpenAI stream is well shaped and accumulating; a raised call is a single error chunk |
| Providers.SimulatedStreamShape | ai_models.py:195-227 | A simulated stream of text c has one one-character delta per character of c whose full texts are the prefixes of c, then a terminal chunk with c and the usage |
| Providers.SimulatedStream | ai_models.py:271-303 | A simulated stream is well shaped and accumulating; a failed generation is a single error chunk carrying its message |
| Providers.CharChunksAt | ai_models.py:205-223 | Chunk i of the character stream is the i-th character with the text up to it; the last chunk holds the whole text and the usage |
| Providers.BaiduGenerate | ai_models.py:157-189 | Without an access token the call fails with "未获取到访问令牌"; it succeeds exactly with a token and a reply holding a result; a missing or empty model name reports ernie-bot-turbo and a set one is reported as given; the error is the vendor's error_msg, or "未知错误" |
| Providers.BaiduStream | ai_models.py:191-227 | The Baidu stream is well shaped and accumulating, and without a token it is the token error alone |
| Providers.BaiduWithoutTokenFails | ai_models.py:137-160 | When the token exchange raises or returns no token, the connection test fails and the stream is the token error alone |
| Providers.DashScopeGenerate | ai_models.py:238-265 | Only status 200 succeeds, with the reply's text, usage and the configured model; another status fails with the vendor's message |
| Providers.DashScopeStream | ai_models.py:267-303 | The DashScope stream is well shaped and accumulating; a non-200 status is the vendor's message as the single error chunk |
| Providers.DeepSeekGenerate | ai_models.py:318-370 | Succeeds exactly on status 200 with a decodable body; missing usage figures count as 0; another status fails with "HTTP status: text" |
| Providers.ReadKindsShape | ai_models.py:403-433 | Reading the classified lines gives a well-shaped stream accumulating from the text so far |
| Providers.ReadKindsDropsSkip | ai_models.py:404-425 | A line classified as skipped has no effect on the stream read |
| Providers.ReadKindsStops | ai_models.py:407-409 | Nothing after a stop line affects the stream, including a later interruption |
| Providers.ReadKindsFinishes | ai_models.py:403-433 | Without a line that fails, the stream ends with a usage-free terminal chunk |
| Providers.DeepSeekStream | ai_models.py:372-436 | The DeepSeek stream is well shaped and accumulating; a non-200 status is a single "HTTP status: text" error chunk |
| Providers.DeepSeekIgnoresOtherLines | ai_models.py:404-406 | An empty line, or one not starting with `data: `, can be removed without changing the stream |
| Providers.DeepSeekSkipsUndecodable | ai_models.py:411-425 | A data line that does not decode, or carries no content, can be removed without changing the stream |
| Providers.DeepSeekDropsSkipped | ai_models.py:404-425 | Any skipped line can be removed without changing the stream |
| Providers.DeepSeekStopsAtDone | ai_models.py:407-409 | The lines after `data: [DONE]` never reach the stream |
| Providers.DeepSeekFinishes | ai_models.py:403-433 | When no line carries non-text content, the stream always ends with a terminal chunk without usage |
| Providers.OpenAIConnectionTest | ai_models.py:121-132 | The OpenAI connection test passes exactly when the probe call does not raise |
| Providers.BaiduConnectionTest | ai_models.py:229-232 | The Baidu connection test passes exactly when a non-empty token was obtained and the reply holds a result |
| Providers.DashScopeConnectionTest | ai_models.py:305-308 | The DashScope connection test passes exactly when the vendor answers with status 200 |
| Providers.DeepSeekConnectionTest | ai_models.py:438-441 | The DeepSeek connection test passes exactly on status 200 with a decodable body |
| Facade.KindOf | ai_models.py:449-454 | Exactly openai, baidu, dashscope and deepseek have a client class, and only deepseek maps to the DeepSeek client |
| Facade.TencentHasNoClient | config.py:80-86 | tencent is in the catalogue but has no client, so a tencent row never yields a model |
| Facade.FirstSelected | ai_models.py:458-468 | The position of the first row the query selects, with no selected row before it |
| Facade.GetModel | ai_models.py:456-477 | Resolution picks the first active row with the id (a truthy id) or the first active default row; it fails when no row is selected or the first selected row's provider has no client |
| Facade.SeededDefaultResolves | models.py:153-166 | On a freshly initialised database, asking without an id resolves to the seeded DeepSeek row |
| Facade.InactiveNeverResolves | ai_models.py:458-462 | An id whose rows are all inactive never resolves |
| Facade.GenerateContent | ai_models.py:479-514 | Without a model: the no-model failure, and nothing written. Otherwise: the client's result; only the chosen row changes, and only its counters; one more use and its tokens on success; exactly one log entry appended, INFO exactly on success |
| Facade.StreamContent | ai_models.py:516-590 | Without a model the stream is the no-model error alone and nothing is written; otherwise the client's chunks are forwarded with their accounting |
| Facade.Forward | ai_models.py:527-572 | What is forwarded is a prefix of the client's chunks that stops right after the first error; only the chosen row may change and the log only grows |
| Facade.ForwardWellShaped | ai_models.py:527-572 | A well-shaped stream is forwarded whole. A terminal chunk adds one use, its tokens and one INFO log with the content length. An error chunk changes no row and adds one ERROR log |
| Facade.AccountingAfterYield | ai_models.py:545-555 | A consumer that stops after receiving the terminal chunk leaves the tables untouched, while an error is logged before it is handed over |
| Facade.DefaultRequest | ai_models.py:596-606 | A configuration request defaults to 2000 tokens, temperature 0.7 and not default |
| Facade.AddConfig | ai_models.py:596-618 | A taken name is refused and nothing changes. Otherwise one row is appended with a fresh id, active and unused. A default request clears every other default, leaving exactly one. Unique ids and names, and at most one default, are kept |
| Facade.FindById | ai_models.py:622 | The first row with the id, or none exactly when no row has it |
| Facade.UpdateConfig | ai_models.py:620-639 | An unknown id is not found and a name used by another row is refused; otherwise the set fields are written. Setting default leaves exactly one default; unique ids and names, and at most one default, are kept |
| Facade.UpdatedRowsEffect | ai_models.py:626-635 | The updated row takes each set field and keeps its id, provider and counters; other rows change only by losing their default flag, and only when default is being set |
| Facade.UpdateDefaultCount | ai_models.py:630-635 | After setting default on a row, exactly one row is default |
| Facade.ListConfigs | ai_models.py:592-594 | The listed configurations are exactly the active ones, in row order |
| Facade.Reported | ai_models.py:655-658 | Usage statistics cover the rows with the id when it is truthy, and every row otherwise |
| Facade.GetUsageStats | ai_models.py:653-681 | One statistics row per reported configuration, in order, with totals equal to the sums of their use and token counts |
| Facade.GenerationRaisesTotals | ai_models.py:491-495 | A generation raises the table's total uses by one and total tokens by the reported tokens when it succeeds, and by nothing when it fails |
| Facade.DefaultDeepSeekExample | models.py:153-166 | On a fresh database, a default generation returning 12 tokens leaves the seeded row with one use, 12 tokens and one INFO log |
| DefaultSwitch.FirstDeepSeek | update_default_model.py:26-28 | The first DeepSeek row, or none exactly when there is no DeepSeek row |
| DefaultSwitch.UpdateDefaultModel | update_default_model.py:9-87 | A missing database file or a taken name reports failure and changes nothing. With a DeepSeek row, only that row's id stays default and nothing else changes. Without one, every flag is cleared and a default DeepSeek row (deepseek-chat, 4000 tokens) is appended. A success leaves exactly one default |
| DefaultSwitch.SwitchThenResolve | update_default_model.py:22-55 | After a successful switch, default resolution finds the DeepSeek client, provided the chosen row is active |
| DefaultSwitch.ResolvesToDefault | ai_models.py:463-468 | The first active default row, when it is DeepSeek, is what default resolution returns |
| Publisher.PublisherFor | publisher.py:199-202 | Only weibo and wechat have a publisher |
| Publisher.Truncate | publisher.py:39-41 | Text within the limit is unchanged; longer text keeps its first limit-3 characters followed by "..." |
| Publisher.TruncateFits | publisher.py:39-41 | Truncated text never exceeds a limit of at least 3 |
| Publisher.TruncateIdempotent | publisher.py:39-41 | Truncating twice is truncating once |
| Publisher.FormatContent | publisher.py:33-48 | Formatting raises exactly when the content is None. Otherwise it keeps the title and truncates the text to the platform's limit, so the text always fits, and text that already fits is unchanged |
| Publisher.FirstContained | publisher.py:66-72 | The first listed word the text contains, or none exactly when it contains none |
| Publisher.WeiboCheck | publisher.py:54-74 | Weibo text passes exactly when it is within 140 characters and contains no sensitive word; otherwise the error names the length, or the first sensitive word found |
| Publisher.WeChatCheck | publisher.py:129-143 | A WeChat post passes exactly with a non-empty title of at most 50 characters and at least 100 characters of text; each failure has its own message, checked in that order |
| Publisher.Publish | publisher.py:76-123 | Publishing formats first: None content is rejected with the formatting error. It publishes exactly when the formatted post passes the platform check, and is otherwise rejected with that check's error |
| Publisher.WeiboNeverOverLimit | publisher.py:76-89 | Because it formats first, Weibo publishing never fails for length; a rejection is for None content or a sensitive word |
| Publisher.FindDraft | publisher.py:230 | The first draft with the id, or none exactly when no draft has it |
| Publisher.FindAccount | publisher.py:246-249 | The first active account of the platform, or none exactly when there is none |
| Publisher.PlatformOutcome | publisher.py:246-304 | Without an account: refused "未找到…平台的有效账号"; without a publisher: refused "不支持的平台："; with a future time: queued; otherwise published or rejected |
| Publisher.PublishOne | publisher.py:243-307 | One platform's step gives that platform's outcome. A refusal changes nothing; any other outcome appends exactly one record. Drafts and the accounts' identities are unchanged |
| Publisher.PublishOneRecord | publisher.py:264-300 | A record is written exactly when the platform has an account and a publisher. It carries the draft's title and content; a queued post is scheduled for its time with no post id or error; otherwise the status, post id and error are the publication's |
| Publisher.PublishLoopResults | publisher.py:243-315 | The results hold one entry per requested platform, with that platform's outcome, even when a platform is repeated; other keys keep their value |
| Publisher.PublishLoopRecords | publisher.py:243-307 | After the old records, the loop appends one record per requested entry with an account and a publisher (repeats included), in request order; the record at each position holds that platform's status, post id and error |
| Publisher.CountSucceeded | publisher.py:331 | The number of successful platforms is positive exactly when some platform succeeded |
| Publisher.PublishContent | publisher.py:227-338 | A missing draft is reported and nothing changes. Otherwise: one result per distinct requested platform with its outcome; earlier records kept; then one new record per attempt, in request order, each holding its platform's status, post id and error |
| Publisher.PublishNowSchedulesNothing | publisher.py:264-287 | Publishing without a publish time writes no scheduled record |
| Publisher.PublishSuccessIffSome | publisher.py:330-338 | Publishing reports success exactly when some requested platform was published or queued |
| Publisher.CheckPlatformContent | publisher.py:351-368 | Without an account the check reports "未配置…账号"; with one, it is the platform's own check on the unformatted text |
| Publisher.Optimization | publisher.py:388-397 | A passing check means "fits"; a length error advises shortening to the platform's limit; an error saying something must not be empty ("不能为空") advises adding content; any other error advises adjusting to the platform's rules |
| Publisher.GetPlatformSuggestions | publisher.py:370-401 | There is one suggestion for weibo and one for wechat; each reports the text length and is valid exactly when that platform's check passes |
| Publisher.SuggestionFitsIffValid | publisher.py:388-397 | A suggestion says the content fits exactly when it is valid |
| Publisher.SuggestShortenWeibo | publisher.py:388-397 | Over-long text with a Weibo account is advised to be shortened to 140 characters |
| Publisher.OverLimitAdvice | publisher.py:59-63 | The over-limit error of the Weibo check triggers the shortening advice |
| Publisher.SuggestAddContentWeChat | publisher.py:388-393 | A WeChat post without a title is advised to add content |
| Publisher.SuggestAdjustWithoutAccount | publisher.py:388-395 | Without a Weibo account the advice is the generic adjustment |
| Scheduler.DueIndices | publisher.py:417-420 | The due records are exactly the scheduled ones whose time has come, in row order |
| Scheduler.NothingDue | publisher.py:417-420 | A table with no due record has no due positions |
| Scheduler.RunOne | publisher.py:422-445 | Handling one due record settles it with the outcome of publishing its draft now. Other existing records are untouched; records it adds are never scheduled; drafts and accounts keep their identity |
| Scheduler.Finished | publisher.py:438-441 | A handled record takes its status, post id and error from the platform's result |
| Scheduler.CheckAndExecute | publisher.py:412-448 | Every due record is settled: failed with "草稿不存在" without a draft, otherwise with its platform's outcome. Every other record is untouched. The count returned is the number due, and a second run at the same time finds nothing due |
| Hotspots.HotScore | hotspot_crawler.py:52-57 | The score is at most 150, non-negative for non-negative engagement, at most 50 from rank 50 on, and at most 98 without engagement |
| Hotspots.HotScoreMonotone | hotspot_crawler.py:52-57 | A better rank and more engagement never lower the score |
| Hotspots.HotScoreOfRank | hotspot_crawler.py:55 | Without engagement, ranks 0 to 50 score 100 minus twice the rank |
| Hotspots.AnalyzeSentiment | hotspot_crawler.py:59-72 | Text is positive exactly when it contains more listed positive than negative words, negative exactly in the opposite case, neutral otherwise |
| Hotspots.NeutralWithoutListedWords | hotspot_crawler.py:59-72 | Text containing no listed word is neutral |
| Hotspots.PositiveWithoutNegativeWords | hotspot_crawler.py:59-72 | Text with a positive word and no negative word is positive |
| Hotspots.KeywordList | hotspot_crawler.py:43-47 | The keywords are distinct alphanumeric words of at least two characters from the segmentation, at most max_keywords of them |
| Hotspots.KeepableOnlyOrder | hotspot_crawler.py:45 | Keeping only the keepable words preserves the order of first occurrences |
| Hotspots.DedupeOrder | hotspot_crawler.py:47 | `dict.fromkeys` lists each word once, in the order of first occurrences |
| Hotspots.KeywordListOrder | hotspot_crawler.py:43-47 | The keywords follow their first occurrences in the segmentation; a keepable word is left out only when the limit is filled by words occurring before it |
| Hotspots.KeywordListComplete | hotspot_crawler.py:43-47 | When the limit is not reached, every keepable word appears among the keywords |
| Hotspots.ExtractKeywordsSplit | hotspot_crawler.py:39-50 | Splitting the comma-joined keyword text at commas gives back the keyword list |
| Hotspots.Listing | hotspot_crawler.py:96-120 | Each listed entry carries the rank of the item it was built from, ranks increase, and items that fail to build are skipped |
| Hotspots.ListingComplete | hotspot_crawler.py:96-120 | Every item that builds is listed |
| Hotspots.WeiboBuild | hotspot_crawler.py:96-120 | A Weibo item becomes an entry exactly when its stripped word is non-empty; the entry has that title, its rank and the score of its rank and count |
| Hotspots.WeiboHotspots | hotspot_crawler.py:82-129 | The Weibo listing is empty without a usable reply. Otherwise it holds at most 50 Weibo entries with titles, ranked 1 to 50 in increasing order |
| Hotspots.WeiboListsEveryTitled | hotspot_crawler.py:96-120 | Every titled item among the first 50 is listed at its rank |
| Hotspots.HotScoreOf | hotspot_crawler.py:52-57 | Scoring a number is the hot score; scoring a string raises |
| Hotspots.ZhihuHotspotsAsWritten | hotspot_crawler.py:139-193 | The Zhihu crawler as written, with its 50-entry bound; that it is in fact empty is Hotspots.ZhihuAsWrittenIsEmpty |
| Hotspots.ZhihuAsWrittenIsEmpty | hotspot_crawler.py:167 | As written, the Zhihu crawler returns nothing for any reply |
| Hotspots.ZhihuBuild | hotspot_crawler.py:157-181 | Corrected: a Zhihu item becomes an entry exactly when its stripped title is non-empty, scored by rank with engagement 0, with a description of at most 200 characters |
| Hotspots.ZhihuHotspots | hotspot_crawler.py:139-193 | Corrected: at most 50 Zhihu entries ranked 1 to 50, each scored by its rank |
| Hotspots.ZhihuListsEveryTitled | hotspot_crawler.py:157-188 | Corrected: every titled item among the first 50 is listed at its rank |
| Hotspots.ToutiaoHotspots | hotspot_crawler.py:202-231 | Toutiao yields its five fixed topics, ranked 1 to 5, with engagement 1000 minus 100 per rank, scores 98 down to 90, all positive |
| Hotspots.Crawl | hotspot_crawler.py:239-243 | A registered crawler returns at most 50 entries, all for its own platform. Zhihu runs the corrected crawler (see Findings) |
| HotspotStore.FindRecent | hotspot_crawler.py:305-309 | The first row with the platform and title created inside the window, or none exactly when there is none |
| HotspotStore.SaveOne | hotspot_crawler.py:302-332 | A hotspot matching a row that was present before the batch refreshes that row's score, rank, engagement and update time. Otherwise a new row is appended. No other row changes, and no row changes identity |
| HotspotStore.SaveAll | hotspot_crawler.py:302-336 | The batch appends one row per unmatched hotspot and refreshes only matched rows; rows keep their identity |
| HotspotStore.SaveAllHolds | hotspot_crawler.py:302-336 | After the batch, every hotspot has a row with its platform and title that is recent or was just written |
| HotspotStore.SaveHotspots | hotspot_crawler.py:298-345 | A failed commit saves nothing and changes nothing. A successful one reports every hotspot saved, appends one row per unmatched hotspot, and leaves every hotspot with a row |
| HotspotStore.SaveAgainInsertsNothing | hotspot_crawler.py:302-332 | Saving the same batch again inside the window inserts no row |
| HotspotStore.CrawlNames | hotspot_crawler.py:257-281 | Every unsupported name adds one error. Every supported name adds one log and at most 50 to the total. The reported platforms are exactly the supported names |
| HotspotStore.CrawlNamesTotal | hotspot_crawler.py:268-275 | The loop adds the sum of the saved counts to the total |
| HotspotStore.CrawlNamesErrors | hotspot_crawler.py:257-260 | The loop appends "不支持的平台: " and the name for each unsupported name, in order |
| HotspotStore.CrawlNamesOutput | hotspot_crawler.py:264-278 | The loop leaves the rows of saving each crawled platform in turn, and one log per supported name with its crawled and saved counts, in order |
| HotspotStore.CrawlNamesEntries | hotspot_crawler.py:270-274 | Each supported name's entry holds its crawled count, its saved count and success; a repeated name reports the same counts; other entries are kept |
| HotspotStore.CrawlCountsSaved | hotspot_crawler.py:265-268 | The saved count reported for a platform is what `save_hotspots` returns for its crawled hotspots |
| HotspotStore.CrawlAll | hotspot_crawler.py:245-296 | The crawl always reports success. It records one error per unsupported name, in order. Each supported name's entry holds the number crawled and the number saved (all of them, or 0 when the commit fails) with success; the total is the sum of the saved counts; the rows are those after saving each platform in turn; one log per supported name with its counts. Zhihu's counts are those of the corrected crawler |
| HotspotStore.CrawlAllDefault | hotspot_crawler.py:247-248 | Without a list, weibo, zhihu and toutiao are crawled with no error |
| HotspotStore.RecentOnly | hotspot_crawler.py:375-377 | The recent topics are exactly those created inside the window |
| HotspotStore.HotTopics | hotspot_crawler.py:367-390 | Exactly `limit` recent topics, or all of them when fewer, hottest first; each recent row appears at most as often as it is stored, so none is repeated |
| HotspotStore.HotTopicsHottest | hotspot_crawler.py:387-390 | A recent topic is left out only when `limit` topics at least as hot were returned |
| HotspotStore.TallyGet | hotspot_crawler.py:401-408 | The tally of a keyword is its number of mentions and the sum of their topics' scores, and absent exactly when it is never mentioned |
| HotspotStore.CandidatesMeaning | hotspot_crawler.py:412-420 | Every candidate keyword has at least two characters and two mentions, with its true count, total score and average |
| HotspotStore.TrendingKeywords | hotspot_crawler.py:392-425 | Exactly `limit` keywords, or every candidate when fewer, by total score descending, each with its true mention count, total and average; no keyword appears twice, as the tally's dict keys are distinct |
| HotspotStore.TrendingHottest | hotspot_crawler.py:422-425 | A keyword mentioned twice or more is left out only when `limit` keywords with at least its total score were listed |
| HotspotStore.TrendingComplete | hotspot_crawler.py:392-425 | When the limit is not reached, every keyword mentioned at least twice is reported |
| HttpLayer.UnframeEvent | main.py:264-265 | The payload can be read back from an event |
| HttpLayer.GenerateStream | main.py:252-284 | One event per facade chunk, each carrying the chunk's encoding, then `[DONE]` last |
| HttpLayer.UnifiedStream | main.py:314-345 | Error chunks become error payloads. An exception while iterating adds one error event. `[DONE]` is always last |
| HttpLayer.UnifiedStreamWithoutModel | main.py:377-410 | Without a model, the unified stream is one error event and `[DONE]` |
| HttpLayer.GenerateEndpoint | main.py:231-250 | The endpoint answers 200 exactly when generation succeeded, and otherwise 400 with the error text |
| HttpLayer.GenerateEndpointWithoutModel | main.py:241-242 | Without a usable model the endpoint answers 400 with the no-model message |
| HttpLayer.OneShot | main.py:286-312 | The one-shot endpoints always report success; a failed generation shows only as missing content and empty usage |
| HttpLayer.OneShotHidesFailures | main.py:347-375 | A generation the generate endpoint refuses is reported as a success with no content |
| HttpLayer.CreateDraft | main.py:446-468 | A created draft's word count is its content's length, with status draft and version 1 |
| HttpLayer.UpdateDraft | main.py:495-516 | An unknown id is not found and nothing changes. Otherwise only that draft changes: the title, which the request model requires, is always written; each of content, outline, tags, category and platform type takes the sent value when set and keeps its own otherwise, and the word count is recomputed from the resulting content |
| HttpLayer.UpdateDraftIdempotent | main.py:495-516 | Sending the same update twice changes nothing the second time |
| HttpLayer.PublishRecords | publisher.py:340-349 | Exactly the records passing the truthy filters on draft id and platform, newest first |
| HttpLayer.ListPublishRecords | main.py:635-668 | The total is the number of matching records; the page is their `[skip:skip+limit]` slice |
| HttpLayer.PageSelected | main.py:647-648 | A page holds only matching records, at most `limit` of them |
| HttpLayer.PagesTile | main.py:647-648 | Two consecutive pages together are the double-size page: no record is skipped or repeated |
| HttpLayer.PlatformStats | main.py:679-697 | One entry per platform seen, with its total, success and failure counts, and its success rate: successes over total times 100, between 0 and 100 |
| HttpLayer.PlatformStatsOrder | main.py:679-689 | The platforms are listed in the order of their first appearance among the records, as the dict's insertion order gives |
| HttpLayer.PlatformTotalsCoverRecords | main.py:679-686 | The per-platform totals add up to the number of records |
| HttpLayer.SuccessRate | main.py:690 | The rate is between 0 and 100 when successes are within the total, 0 with no success, 100 when all succeed |
| HttpLayer.DailyStats | main.py:699-711 | One entry per day of the last week that has records, in strictly ascending date order, each with that day's record count; no such day is missing |
| Analytics.CategorizePerformance | analytics.py:626-635 | A score of 80 or more is excellent, 60 to 80 good, 40 to 60 average, below 40 poor |
| Analytics.BandMonotone | analytics.py:626-635 | A higher score never falls in a lower band |
| Analytics.EngagementRate | analytics.py:617-623 | No views give 0; otherwise the rate times the views is the engagement times 100 |
| Analytics.EngagementRateFull | analytics.py:617-623 | Engagement equal to the views is a 100 percent rate |
| Analytics.GenerateSummary | analytics.py:571-613 | The headline figures come from the report's non-empty sections, defaulting to 0. Each insight appears exactly when its threshold is crossed, with no duplicates |
| Analytics.InsightsInOrder | analytics.py:598-609 | The insights come in the order of their checks: the success insight, then AI use, then hotspots |
| Analytics.SuccessInsightsExclusive | analytics.py:600-603 | A report is never both high-success and low-success |
| Analytics.EmptyReportSummary | analytics.py:571-613 | An empty report yields zero figures and the single low-success insight |
| Analytics.ContentSuggestion | analytics.py:379-399 | The suggestion starts with the sentiment's text; with a category it continues with "。" and that category's tip, empty for an unknown category |
| Analytics.SuggestionQuotesTitle | analytics.py:381-385 | A suggestion for a topic of known sentiment names the topic's title |
| Analytics.OpportunityKeywords | analytics.py:370 | At most the first five comma-separated keywords, none for an empty text |
| Analytics.ContentOpportunities | analytics.py:356-377 | At most ten opportunities ranked from 1, in descending hotness; the i-th is built from the i-th of the ten hottest topics, which are a sub-multiset of the input, so a topic is used at most as often as it occurs there |
| Analytics.OpportunitiesAreHottest | analytics.py:361 | No topic hotter than the tenth opportunity is left out |
| Analytics.ContentPerformance | analytics.py:26-157 | With no record in the window, the zeroed structure. With records, it raises exactly when days is 0; otherwise it reports the posts in the window and success and failure rates that sum to at most 100 |
| Analytics.PerformanceFigures | analytics.py:139-146 | With records in the window and days set, the report holds the number of records, the percentages of successes and failures among them, the posts per day and their per-platform table |
| Analytics.PerformanceCoversPlatforms | analytics.py:77-86 | Every record in the window is counted under its platform |
| Sorting.SortDesc | publisher.py:349 | The records sorted, largest key first, as a permutation of the input |
| Sorting.SortDescStable | analytics.py:361 | Elements with equal keys keep their input order, as Python's stable `sorted` does with `reverse=True` |
| Sorting.Top | hotspot_crawler.py:423-425 | The first n of the descending sort, each an input element, and a sub-multiset of the input |
| Seqs.Slice | main.py:648 | Python's slice: the clamped range of the list, empty when the bounds cross |
| Seqs.SlicePages | main.py:648 | Adjacent slices join into the slice spanning both |
| Text.SplitJoin | hotspot_crawler.py:48 | Joining parts free of the separator and splitting again gives the parts back |
| Text.JoinSplit | analytics.py:370 | Splitting and joining again gives the text back: the split here inverts the `','.join(keywords)` of hotspot_crawler.py:48 |

## Left out

- Vendor HTTP calls, the Baidu token exchange's network request, the DeepSeek line decoder and the sleep between simulated chunks are not modelled. Replies are inputs: a value, or `Raised` with the exception text.
- Response times and wall-clock durations in the log entries are not modelled, because they come from the clock.
- SQLAlchemy sessions, commits, rollbacks and concurrent requests are not modelled. A commit failure in `save_hotspots` is a boolean input. Every other write is assumed to commit.
- Generator laziness is modelled only for the accounting a consumer can observe (`Facade.AccountingAfterYield`). A stream abandoned in the middle is not modelled.
- Word segmentation (jieba), JSON encoding, ISO date parsing and `strftime` are function parameters. Datetimes are integer timestamps. The `utcnow`/`now` mix in the hotspot window is a single `cutoff` input.
- Hotspots.WeiboItem: a JSON `null` is read as a missing key. For `num`, Python's `.get('num', 0)` gives `None`, `None / 1000` raises and the item is skipped; the model scores it as engagement 0. For `word`, both readings skip the item.
- Request validation by the pydantic request models is not modelled. A body an endpoint rejects with 422, such as a draft update without a title, has no counterpart: the model's request types hold only accepted bodies.
- `round()` to one or two decimals and float arithmetic are not modelled: rates and scores are exact reals.
- Hotspots.HotScore: the result is not rounded to two decimals.
- HttpLayer.SuccessRate: the rate is not rounded to one decimal.
- Analytics.EngagementRate: the rate is not rounded to two decimals.
- Analytics.ContentPerformance: the per-platform table holds the posts, successes, failures and success rate per platform, computed as in `get_publish_stats`. The per-platform engagement averages, the best-hours table and `_analyze_content_patterns` are left out: they are float statistics over optional counters.
- HotspotStore.HotTopics: the optional platform and category filters of `get_hot_topics` are not modelled; only the time window and the limit are.
- Hotspots.Crawl: the "zhihu" entry runs the corrected `ZhihuHotspots`. The program registers the crawler as written, which lists nothing (`Hotspots.ZhihuAsWrittenIsEmpty`), so in the program Zhihu is crawled with 0 entries.
- HotspotStore.CrawlAll: for "zhihu", the crawled and saved counts, the total, the rows and the log come from the corrected crawler. The program reports 0 crawled and 0 saved for Zhihu, adds nothing to `total_count` and inserts no row.
- HotspotStore.CrawlAll: the failure branch (hotspot_crawler.py:283-294) is not modelled, because each crawler catches its own exceptions. The one-second pause between platforms is not modelled.
- `test_config` (ai_models.py:641-651) is not modelled. It calls `TestConnection` on a live probe, which is outside the model.
- `get_platform_accounts`, `add_platform_account`, `list_drafts`, `get_draft`, `delete_draft`, `list_platforms` and `cleanup_old_data` are not modelled. They are plain queries and deletes with no logic beyond the filters.
- `get_content_recommendations`, `AIUsageAnalyzer` and `generate_comprehensive_report` of analytics.py are not modelled. Only `_generate_summary` over their results is.
- `PromptTemplates` and the prompt text of the comprehensive and rewrite endpoints are not modelled, because they are string formatting only.
- app.py, start.py and the tests are not modelled: they are start-up code and scripts.
- The catch-all exception branch of `publish_content` (publisher.py:309-326) is not modelled. None of the modelled steps raises, because each publisher catches its own formatting error.
- SQL `ORDER BY` ties are not modelled as nondeterministic: equal keys keep row order, as a stable sort.
- The DeepSeek stream always emits a usage-free terminal chunk after its read loop, even when no `[DONE]` line arrives (ai_models.py:427-433). The model keeps that.
- Text.IsAlnumChar: accepts ASCII letters and digits and the CJK unified ideographs only. Python's `str.isalnum` also accepts other Unicode letters and digits, such as full-width forms, kana, Hangul and accented Latin letters. Keyword filtering differs for words made of those characters.

## Findings

| source | as written | input that shows it | evidently intended | confidence | as-written member | corrected member |
|---|---|---|---|---|---|---|
| hotspot_crawler.py:167 | The Zhihu crawler passes `item.get('detail_text', '')`, a string, as the engagement. `engagement / 1000` then raises TypeError, so the item is skipped | Any reply whose `data` holds an entry with a non-empty `target.title` | A numeric engagement of 0, matching the `engagement_count` of 0 stored with the entry | not executed | Hotspots.ZhihuAsWrittenIsEmpty | Hotspots.ZhihuListsEveryTitled |

=== FILE: analytics.dfy ===
/**
 * The classification helpers of the analytics module: performance bands, the engagement rate,
 * the insights of a report summary, the ranking of content opportunities with their
 * suggestion texts, and the publish-record part of the content performance analysis.
 */
module Analytics {
  import opened Wrappers
  import opened Models
  import Seqs
  import Text
  import Sorting
  import HttpLayer

  /* ---------------- Bands and rates ---------------- */

  datatype Band = Excellent | Good | Average | Poor

  /** The position of a band on the scale, `Poor` lowest. */
  function Level(b: Band): nat {
    match b
    case Poor => 0
    case Average => 1
    case Good => 2
    case Excellent => 3
  }

  /** `categorize_performance`: the band a score falls in. */
  function CategorizePerformance(score: real): (b: Band)
    ensures b == Excellent <==> score >= 80.0
    ensures b == Good <==> 60.0 <= score < 80.0
    ensures b == Average <==> 40.0 <= score < 60.0
    ensures b == Poor <==> score < 40.0
  {
    if score >= 80.0 then Excellent
    else if score >= 60.0 then Good
    else if score >= 40.0 then Average
    else Poor
  }

  /** A higher score never falls in a lower band. */
  lemma BandMonotone(a: real, b: real)
    requires a <= b
    ensures Level(CategorizePerformance(a)) <= Level(CategorizePerformance(b))
  {
  }

  /**
   * `calculate_engagement_rate`: likes, comments and shares per hundred views, 0 when there
   * are no views (without the rounding to two decimals).
   */
  function EngagementRate(views: int, likes: int, comments: int, shares: int): (r: real)
    ensures views == 0 ==> r == 0.0
    ensures views != 0 ==> r * views as real == (likes + comments + shares) as real * 100.0
    ensures views > 0 && likes >= 0 && comments >= 0 && shares >= 0 ==> r >= 0.0
  {
    if views == 0 then 0.0
    else (likes + comments + shares) as real / views as real * 100.0
  }

  /** The rate is the share of engagement when engagement is counted in views. */
  lemma EngagementRateFull(views: int)
    requires views > 0
    ensures EngagementRate(views, views, 0, 0) == 100.0
  {
  }

  /* ---------------- Report summary ---------------- */

  /**
   * The sections of a comprehensive report as `_generate_summary` reads them: a section is
   * `None` when it is missing or empty (falsy), and a key inside it is `None` when absent.
   */
  datatype ContentSection = ContentSection(totalPosts: Option<int>, successRate: Option<real>)
  datatype Report = Report(content: Option<ContentSection>, aiRequests: Option<Option<int>>, hotspots: Option<Option<int>>)

  datatype Insight = HighSuccess | LowSuccess | HeavyAiUse | RichHotspots

  /** The text each insight is shown with. */
  function InsightText(i: Insight): string {
    match i
    case HighSuccess => "内容发布成功率较高，运营状况良好"
    case LowSuccess => "内容发布成功率偏低，需要优化发布策略"
    case HeavyAiUse => "AI使用频率较高，建议关注成本控制"
    case RichHotspots => "热点数据丰富，有助于内容创作决策"
  }

  datatype Summary = Summary(totalPosts: int, successRate: real, totalAiRequests: int, totalHotspots: int, insights: seq<Insight>)

  /** `_generate_summary`: the headline figures of a report and the insights they trigger. */
  function GenerateSummary(report: Report): (s: Summary)
    ensures report.content.None? ==> s.totalPosts == 0 && s.successRate == 0.0
    ensures report.content.Some? ==>
      s.totalPosts == report.content.value.totalPosts.GetOr(0) && s.successRate == report.content.value.successRate.GetOr(0.0)
    ensures s.totalAiRequests == (if report.aiRequests.Some? then report.aiRequests.value.GetOr(0) else 0)
    ensures s.totalHotspots == (if report.hotspots.Some? then report.hotspots.value.GetOr(0) else 0)
    ensures HighSuccess in s.insights <==> s.successRate > 80.0
    ensures LowSuccess in s.insights <==> s.successRate < 50.0
    ensures HeavyAiUse in s.insights <==> s.totalAiRequests > 100
    ensures RichHotspots in s.insights <==> s.totalHotspots > 50
    ensures forall i, j :: 0 <= i < j < |s.insights| ==> s.insights[i] != s.insights[j]
  {
    var posts := if report.content.Some? then report.content.value.totalPosts.GetOr(0) else 0;
    var rate := if report.content.Some? then report.content.value.successRate.GetOr(0.0) else 0.0;
    var ai := if report.aiRequests.Some? then report.aiRequests.value.GetOr(0) else 0;
    var hot := if report.hotspots.Some? then report.hotspots.value.GetOr(0) else 0;
    var insights :=
      (if rate > 80.0 then [HighSuccess] else if rate < 50.0 then [LowSuccess] else [])
      + (if ai > 100 then [HeavyAiUse] else [])
      + (if hot > 50 then [RichHotspots] else []);
    Summary(posts, rate, ai, hot, insights)
  }

  /** Where each insight is appended: the success check first, then AI use, then hotspots. */
  function InsightStep(i: Insight): nat {
    match i
    case HighSuccess => 0
    case LowSuccess => 0
    case HeavyAiUse => 1
    case RichHotspots => 2
  }

  /** The insights come in the order of the checks that append them. */
  lemma InsightsInOrder(report: Report)
    ensures var ins := GenerateSummary(report).insights;
      forall i, j :: 0 <= i < j < |ins| ==> InsightStep(ins[i]) < InsightStep(ins[j])
  {
  }

  /** The success insights exclude each other. */
  lemma SuccessInsightsExclusive(report: Report)
    ensures !(HighSuccess in GenerateSummary(report).insights && LowSuccess in GenerateSummary(report).insights)
  {
  }

  /** A report whose sections all failed still yields one insight: that the success rate is low. */
  lemma EmptyReportSummary()
    ensures GenerateSummary(Report(None, None, None)) == Summary(0, 0.0, 0, 0, [LowSuccess])
  {
  }

  /* ---------------- Content opportunities ---------------- */

  /** The opening of a suggestion, by the topic's sentiment. */
  function BaseSuggestion(title: string, sentiment: Option<Sentiment>): string {
    match sentiment
    case Some(Positive) => "可以从正面角度解读'" + title + "'，分享相关的成功经验或积极影响"
    case Some(Negative) => "可以分析'" + title + "'背后的问题，提供解决方案或预防措施"
    case Some(Neutral) => "可以客观分析'" + title + "'的多个方面，提供深度解读"
    case None => "可以从多个角度分析这个话题"
  }

  /** The tip for a category, empty for a category without one. */
  function CategoryTip(category: string): (r: string)
    ensures category !in KnownCategories ==> r == ""
    ensures category in KnownCategories ==> r != ""
  {
    if category == "科技" then "重点关注技术发展趋势和应用场景"
    else if category == "教育" then "结合学习方法和教育理念"
    else if category == "娱乐" then "注意娱乐性和话题性的平衡"
    else if category == "健康" then "提供科学可靠的健康知识"
    else if category == "综合" then "可以从多个维度进行分析"
    else ""
  }

  const KnownCategories: seq<string> := ["科技", "教育", "娱乐", "健康", "综合"]

  /**
   * `_generate_content_suggestion`: the sentiment's text, followed by `。` and the category tip
   * when the topic has a category (the tip may be empty).
   */
  function ContentSuggestion(t: HotTopic): (r: string)
    ensures t.category == "" ==> r == BaseSuggestion(t.title, t.sentiment)
    ensures t.category != "" ==> r == BaseSuggestion(t.title, t.sentiment) + "。" + CategoryTip(t.category)
    ensures |BaseSuggestion(t.title, t.sentiment)| <= |r| && r[..|BaseSuggestion(t.title, t.sentiment)|] == BaseSuggestion(t.title, t.sentiment)
  {
    var base := BaseSuggestion(t.title, t.sentiment);
    if t.category != "" then
      var r := base + "。" + CategoryTip(t.category);
      assert r[..|base|] == base;
      r
    else base
  }

  /** A suggestion for a topic of known sentiment names the topic's title. */
  lemma SuggestionQuotesTitle(t: HotTopic)
    requires t.sentiment.Some?
    ensures Text.Contains(ContentSuggestion(t), t.title)
  {
    var base := BaseSuggestion(t.title, t.sentiment);
    var r := ContentSuggestion(t);
    var k := match t.sentiment.value
      case Positive => |"可以从正面角度解读'"|
      case Negative => |"可以分析'"|
      case Neutral => |"可以客观分析'"|;
    assert base[k..k + |t.title|] == t.title;
    assert r[k..k + |t.title|] == base[k..k + |t.title|];
    Text.ContainsAt(r, t.title, k);
  }

  datatype Opportunity = Opportunity(
    rank: nat, topic: string, platform: string, hotScore: real, category: string,
    keywords: seq<string>, sentiment: Option<Sentiment>, createdAt: int, suggestion: string)

  /** `topic.keywords.split(",")[:5] if topic.keywords else []`. */
  function OpportunityKeywords(keywords: string): (r: seq<string>)
    ensures |r| <= 5
    ensures keywords == "" ==> r == []
    ensures keywords != "" ==> r == Seqs.Take(Text.Split(keywords, ','), 5)
  {
    if keywords == "" then [] else Seqs.Take(Text.Split(keywords, ','), 5)
  }

  function OpportunityOf(t: HotTopic, rank: nat): (o: Opportunity) {
    Opportunity(rank, t.title, t.platform, t.hotScore, t.category, OpportunityKeywords(t.keywords),
                t.sentiment, t.createdAt, ContentSuggestion(t))
  }

  function HotScoreKey(t: HotTopic): real {
    t.hotScore
  }

  /** The ten hottest topics, hottest first. */
  function TopTopics(topics: seq<HotTopic>): (r: seq<HotTopic>)
    ensures |r| == if |topics| < 10 then |topics| else 10
    ensures Sorting.SortedDesc(r, HotScoreKey)
    ensures forall i :: 0 <= i < |r| ==> r[i] in topics
    ensures multiset(r) <= multiset(topics)
  {
    Sorting.Top(topics, HotScoreKey, 10)
  }

  /** `_identify_content_opportunities`: the ten hottest topics, ranked from 1. */
  function ContentOpportunities(topics: seq<HotTopic>): (r: seq<Opportunity>)
    ensures |r| == if |topics| < 10 then |topics| else 10
    ensures forall i :: 0 <= i < |r| ==> r[i].rank == i + 1 && |r[i].keywords| <= 5
    ensures forall i, j :: 0 <= i < j < |r| ==> r[i].hotScore >= r[j].hotScore
    ensures forall i :: 0 <= i < |r| ==> OfSomeTopic(r[i], topics, i + 1)
    ensures forall i :: 0 <= i < |r| ==> r[i] == OpportunityOf(TopTopics(topics)[i], i + 1)
  {
    var top := TopTopics(topics);
    var r := Ranked(top);
    RankedFacts(topics, top, r);
    r
  }

  /** The opportunity for each topic of `top`, ranked from 1 in order. */
  function Ranked(top: seq<HotTopic>): (r: seq<Opportunity>)
    ensures |r| == |top| && forall i :: 0 <= i < |r| ==> r[i] == OpportunityOf(top[i], i + 1)
  {
    seq(|top|, i requires 0 <= i < |top| => OpportunityOf(top[i], i + 1))
  }

  /** `o` is the opportunity listed for one of the topics at `rank`. */
  ghost predicate OfSomeTopic(o: Opportunity, topics: seq<HotTopic>, rank: nat) {
    exists t :: t in topics && o == OpportunityOf(t, rank)
  }

  lemma RankedFacts(topics: seq<HotTopic>, top: seq<HotTopic>, r: seq<Opportunity>)
    requires Sorting.SortedDesc(top, HotScoreKey) && forall i :: 0 <= i < |top| ==> top[i] in topics
    requires |r| == |top| && forall i :: 0 <= i < |r| ==> r[i] == OpportunityOf(top[i], i + 1)
    ensures forall i :: 0 <= i < |r| ==> r[i].rank == i + 1 && |r[i].keywords| <= 5
    ensures forall i, j :: 0 <= i < j < |r| ==> r[i].hotScore >= r[j].hotScore
    ensures forall i :: 0 <= i < |r| ==> OfSomeTopic(r[i], topics, i + 1)
  {
    forall i, j | 0 <= i < j < |r| ensures r[i].hotScore >= r[j].hotScore {
      assert HotScoreKey(top[i]) >= HotScoreKey(top[j]);
    }
    forall i | 0 <= i < |r| ensures OfSomeTopic(r[i], topics, i + 1) {
      assert top[i] in topics;
    }
  }

  /** No topic left out of the opportunities is hotter than the last one listed. */
  lemma OpportunitiesAreHottest(topics: seq<HotTopic>, t: HotTopic)
    requires t in topics && |topics| >= 10
    requires t.hotScore > ContentOpportunities(topics)[9].hotScore
    ensures exists i :: 0 <= i < 10 && ContentOpportunities(topics)[i].topic == t.title
                     && ContentOpportunities(topics)[i].hotScore == t.hotScore
  {
    var sorted := Sorting.SortDesc(topics, HotScoreKey);
    assert t in multiset(sorted);
    var j :| 0 <= j < |sorted| && sorted[j] == t;
    var top := TopTopics(topics);
    assert top == sorted[..10];
    assert ContentOpportunities(topics)[9] == OpportunityOf(top[9], 10);
    assert j < 10;
    assert ContentOpportunities(topics)[j] == OpportunityOf(top[j], j + 1);
  }

  /* ---------------- Content performance ---------------- */

  datatype Performance = Performance(
    totalPosts: nat, successRate: real, failureRate: real, avgDailyPosts: real,
    platforms: seq<HttpLayer.PlatformStat>)

  /** The zeroed structure returned when no record falls in the window. */
  const NoPosts := Performance(0, 0.0, 0.0, 0.0, [])

  /** The records `analyze_content_performance` considers: created in the window, on the platform if one is given. */
  predicate InWindow(r: PublishRecord, start: int, end: int, platform: Option<string>) {
    start <= r.createdAt <= end && (platform.None? || platform.value == "" || r.platform == platform.value)
  }

  function Window(start: int, end: int, platform: Option<string>): PublishRecord -> bool {
    (r: PublishRecord) => InWindow(r, start, end, platform)
  }

  /** `len([r for r in records if r.status == s])`. */
  function StatusTotal(records: seq<PublishRecord>, s: PublishStatus): (n: nat)
    ensures n <= |records|
  {
    |Seqs.Filter(records, (r: PublishRecord) => r.status == s)|
  }

  /** `part / total * 100`. */
  function Percent(part: nat, total: nat): real
    requires total > 0
  {
    part as real / total as real * 100.0
  }

  /** Two disjoint shares of a total add up to at most a hundred percent. */
  lemma RatesBounded(a: nat, b: nat, total: nat)
    requires total > 0 && a + b <= total
    ensures 0.0 <= Percent(a, total) && 0.0 <= Percent(b, total) && Percent(a, total) + Percent(b, total) <= 100.0
  {
    assert Percent(a, total) + Percent(b, total) == (a + b) as real / total as real * 100.0;
    assert (a + b) as real / total as real <= 1.0;
  }

  /** Successes and failures together are at most all records. */
  lemma {:induction false} StatusTotalsBounded(records: seq<PublishRecord>)
    ensures StatusTotal(records, Succeeded) + StatusTotal(records, PublishStatus.Failed) <= |records|
  {
    if |records| > 0 {
      StatusTotalsBounded(records[1..]);
    }
  }

  /**
   * The publish-record part of `analyze_content_performance` over `days` days ending at `end`
   * (without the rounding): the zeroed structure when no record is in the window; otherwise the
   * success and failure rates and the per-platform counts. With records in the window and
   * `days` zero, the average of daily posts divides by zero and the call raises.
   */
  function ContentPerformance(records: seq<PublishRecord>, days: int, end: int, platform: Option<string>): (r: Result<Performance>)
    ensures Seqs.Filter(records, Window(end - days, end, platform)) == [] ==> r == Ok(NoPosts)
    ensures r.Raises? <==> days == 0 && Seqs.Filter(records, Window(end - days, end, platform)) != []
    ensures r.Ok? ==>
      0.0 <= r.value.successRate && 0.0 <= r.value.failureRate && r.value.successRate + r.value.failureRate <= 100.0
    ensures r.Ok? ==> r.value.totalPosts == |Seqs.Filter(records, Window(end - days, end, platform))|
    ensures r.Ok? ==> forall i :: 0 <= i < |r.value.platforms| ==>
      r.value.platforms[i].success + r.value.platforms[i].failed <= r.value.platforms[i].total
  {
    var selected := Seqs.Filter(records, Window(end - days, end, platform));
    if selected == [] then Ok(NoPosts)
    else if days == 0 then Raises("division by zero")
    else Ok(Figures(selected, days))
  }

  /** The figures of a non-empty selection over a non-zero number of days. */
  function Figures(selected: seq<PublishRecord>, days: int): (p: Performance)
    requires selected != [] && days != 0
    ensures p.totalPosts == |selected|
    ensures 0.0 <= p.successRate && 0.0 <= p.failureRate && p.successRate + p.failureRate <= 100.0
    ensures forall i :: 0 <= i < |p.platforms| ==> p.platforms[i].success + p.platforms[i].failed <= p.platforms[i].total
  {
    var total := |selected|;
    var success := StatusTotal(selected, Succeeded);
    var failed := StatusTotal(selected, PublishStatus.Failed);
    StatusTotalsBounded(selected);
    RatesBounded(success, failed, total);
    Performance(total, Percent(success, total), Percent(failed, total),
                total as real / days as real, HttpLayer.PlatformStats(selected))
  }

  /**
   * With records in the window, the figures are those of the window's records: the shares of
   * successes and failures in percent, the posts per day, and the per-platform table.
   */
  lemma PerformanceFigures(records: seq<PublishRecord>, days: int, end: int, platform: Option<string>)
    requires Seqs.Filter(records, Window(end - days, end, platform)) != [] && days != 0
    ensures var selected := Seqs.Filter(records, Window(end - days, end, platform));
      var r := ContentPerformance(records, days, end, platform);
      && r.Ok?
      && r.value.totalPosts == |selected|
      && r.value.successRate == Percent(StatusTotal(selected, Succeeded), |selected|)
      && r.value.failureRate == Percent(StatusTotal(selected, PublishStatus.Failed), |selected|)
      && r.value.avgDailyPosts == |selected| as real / days as real
      && r.value.platforms == HttpLayer.PlatformStats(selected)
  {
  }

  /** Every record in the window is counted under its platform. */
  lemma PerformanceCoversPlatforms(records: seq<PublishRecord>, days: int, end: int, platform: Option<string>, k: nat)
    requires ContentPerformance(records, days, end, platform).Ok?
    requires k < |records| && InWindow(records[k], end - days, end, platform)
    ensures var ps := ContentPerformance(records, days, end, platform).value.platforms;
      exists i :: 0 <= i < |ps| && ps[i].platform == records[k].platform
  {
    var selected := Seqs.Filter(records, Window(end - days, end, platform));
    assert Window(end - days, end, platform)(records[k]);
    assert records[k] in selected;
    var j :| 0 <= j < |selected| && selected[j] == records[k];
    assert selected != [];
    assert ContentPerformance(records, days, end, platform).value.platforms == HttpLayer.PlatformStats(selected);
  }
}

=== FILE: config.dfy ===
/**
 * The static lookup tables of the application: the publishing platforms with their length
 * limits and media support, and the catalogue of AI providers.
 */
module Config {
  import opened Wrappers
  import Seqs

  datatype PlatformInfo = PlatformInfo(name: string, maxLength: nat, supportImages: bool, supportVideo: bool)

  datatype ProviderInfo = ProviderInfo(
    name: string, apiKeyField: string, models: seq<string>, maxTokens: nat, supportFunctions: bool)

  /** The platform table, in its declaration order. */
  const PlatformTable: seq<(string, PlatformInfo)> := [
    ("weibo", PlatformInfo("微博", 140, true, true)),
    ("wechat", PlatformInfo("微信公众号", 20000, true, false)),
    ("xiaohongshu", PlatformInfo("小红书", 1000, true, true)),
    ("douyin", PlatformInfo("抖音", 55, false, true))
  ]

  /** The provider catalogue, in its declaration order. It has no entry for deepseek. */
  const ProviderTable: seq<(string, ProviderInfo)> := [
    ("openai", ProviderInfo("OpenAI GPT", "OPENAI_API_KEY", ["gpt-3.5-turbo", "gpt-4", "gpt-4-turbo-preview"], 4000, true)),
    ("baidu", ProviderInfo("百度文心一言", "BAIDU_API_KEY", ["ernie-bot", "ernie-bot-turbo"], 2000, false)),
    ("dashscope", ProviderInfo("阿里通义千问", "DASHSCOPE_API_KEY", ["qwen-turbo", "qwen-plus", "qwen-max"], 2000, true)),
    ("tencent", ProviderInfo("腾讯混元", "TENCENT_SECRET_ID", ["hunyuan-lite", "hunyuan-standard", "hunyuan-pro"], 2000, false))
  ]

  /** The length limit a publisher falls back to for a platform missing from the table. */
  const DefaultMaxLength: nat := 1000

  /** `get_platform_config`: the table entry, or `None` for the empty dict `{}`. */
  function GetPlatformConfig(platform: string): (r: Option<PlatformInfo>)
    ensures r.Some? <==> platform in {"weibo", "wechat", "xiaohongshu", "douyin"}
    ensures platform == "weibo" ==> r == Some(PlatformInfo("微博", 140, true, true))
    ensures platform == "wechat" ==> r == Some(PlatformInfo("微信公众号", 20000, true, false))
    ensures platform == "xiaohongshu" ==> r == Some(PlatformInfo("小红书", 1000, true, true))
    ensures platform == "douyin" ==> r == Some(PlatformInfo("抖音", 55, false, true))
  {
    Seqs.Get(PlatformTable, platform)
  }

  /** `get_ai_model_config`: the catalogue entry, or `None` for `{}`. */
  function GetAiModelConfig(provider: string): (r: Option<ProviderInfo>)
    ensures r.Some? <==> provider in {"openai", "baidu", "dashscope", "tencent"}
    ensures provider == "openai" ==> r == Some(ProviderInfo("OpenAI GPT", "OPENAI_API_KEY",
      ["gpt-3.5-turbo", "gpt-4", "gpt-4-turbo-preview"], 4000, true))
    ensures provider == "baidu" ==> r == Some(ProviderInfo("百度文心一言", "BAIDU_API_KEY",
      ["ernie-bot", "ernie-bot-turbo"], 2000, false))
    ensures provider == "dashscope" ==> r == Some(ProviderInfo("阿里通义千问", "DASHSCOPE_API_KEY",
      ["qwen-turbo", "qwen-plus", "qwen-max"], 2000, true))
    ensures provider == "tencent" ==> r == Some(ProviderInfo("腾讯混元", "TENCENT_SECRET_ID",
      ["hunyuan-lite", "hunyuan-standard", "hunyuan-pro"], 2000, false))
  {
    Seqs.Get(ProviderTable, provider)
  }

  /** `PLATFORM_CONFIGS.get(platform, {}).get('max_length', 1000)`. */
  function MaxLengthOf(platform: string): (n: nat)
    ensures n >= 55
    ensures GetPlatformConfig(platform).Some? ==> n == GetPlatformConfig(platform).value.maxLength
    ensures GetPlatformConfig(platform).None? ==> n == DefaultMaxLength
  {
    match GetPlatformConfig(platform)
    case Some(info) => info.maxLength
    case None => DefaultMaxLength
  }
}

=== FILE: default_switch.dfy ===
/**
 * The maintenance script that makes a DeepSeek configuration the default: every default flag
 * is cleared, then the first DeepSeek row becomes default, or a new default DeepSeek row is
 * inserted when there is none. The changes are committed together, or not at all.
 */
module DefaultSwitch {
  import opened Wrappers
  import opened Models
  import Facade

  const SwitchName := "默认DeepSeek模型"

  /** The first row whose provider is `deepseek` (`fetchone` in row order). */
  function FirstDeepSeek(store: ConfigStore): (r: Option<nat>)
    ensures r.Some? ==> r.value < |store| && store[r.value].provider == "deepseek"
    ensures r.Some? ==> forall j :: 0 <= j < r.value ==> store[j].provider != "deepseek"
    ensures r.None? <==> forall j :: 0 <= j < |store| ==> store[j].provider != "deepseek"
  {
    if |store| == 0 then None
    else if store[0].provider == "deepseek" then Some(0)
    else
      var r := FirstDeepSeek(store[1..]);
      if r.None? then None else Some(r.value + 1)
  }

  /** The row the script inserts when the table has no DeepSeek configuration. */
  function SwitchConfig(id: int): (c: AIModelConfig)
    ensures c.provider == "deepseek" && c.modelName == Some("deepseek-chat") && c.maxTokens == 4000
    ensures c.isDefault && c.isActive && c.usageCount == 0 && c.totalTokens == 0
    ensures c.apiKey.None? && c.apiSecret.None?
  {
    AIModelConfig(id, SwitchName, "deepseek", None, None, Some("deepseek-chat"), 4000, 0.7, true, true, 0, 0)
  }

  /**
   * `update_default_model`: `(False, unchanged)` when the database file is missing or the
   * insert violates the unique name; otherwise `(True, switched table)`.
   */
  function UpdateDefaultModel(dbExists: bool, store: ConfigStore): (r: (bool, ConfigStore))
    ensures !r.0 ==> r.1 == store
    ensures !dbExists ==> !r.0
    ensures dbExists && FirstDeepSeek(store).Some? ==>
      var k := FirstDeepSeek(store).value;
      && r.0 && |r.1| == |store|
      && (forall i :: 0 <= i < |store| ==> r.1[i].(isDefault := store[i].isDefault) == store[i])
      && (forall i :: 0 <= i < |store| ==> (r.1[i].isDefault <==> store[i].id == store[k].id))
    ensures dbExists && FirstDeepSeek(store).None? ==>
      && (r.0 <==> !NameTaken(store, SwitchName))
      && (r.0 ==> |r.1| == |store| + 1 && r.1[|store|] == SwitchConfig(NextId(ConfigIds(store))))
      && (r.0 ==> forall i :: 0 <= i < |store| ==> r.1[i] == store[i].(isDefault := false))
    ensures r.0 && UniqueIds(store) ==> DefaultCount(r.1) == 1
    ensures UniqueIds(store) ==> UniqueIds(r.1)
  {
    if !dbExists then (false, store)
    else
      match FirstDeepSeek(store)
      case Some(k) =>
        SwitchedCount(store, store[k].id, k);
        (true, Switched(store, store[k].id))
      case None =>
        if NameTaken(store, SwitchName) then (false, store)
        else
          var r := ClearDefaults(store, None) + [SwitchConfig(NextId(ConfigIds(store)))];
          assert forall i :: 0 <= i < |store| ==> ConfigIds(store)[i] == store[i].id;
          DefaultCountOfFlags(r, |store|);
          (true, r)
  }

  /** Every flag cleared, then set on the rows with the given id. */
  function Switched(store: ConfigStore, id: int): (r: ConfigStore)
    ensures |r| == |store|
    ensures forall i :: 0 <= i < |store| ==> r[i] == store[i].(isDefault := store[i].id == id)
  {
    seq(|store|, i requires 0 <= i < |store| => store[i].(isDefault := store[i].id == id))
  }

  /** With unique ids, switching to the id of row `k` leaves exactly one default. */
  lemma SwitchedCount(store: ConfigStore, id: int, k: nat)
    requires k < |store| && store[k].id == id
    ensures UniqueIds(store) ==> DefaultCount(Switched(store, id)) == 1
  {
    if UniqueIds(store) {
      DefaultCountOfFlags(Switched(store, id), k);
    }
  }

  /**
   * After a successful switch, default resolution finds a DeepSeek client, provided the
   * DeepSeek row made default is active (the script does not touch `is_active`).
   */
  lemma SwitchThenResolve(store: ConfigStore)
    requires UniqueIds(store)
    requires FirstDeepSeek(store).Some? ==> store[FirstDeepSeek(store).value].isActive
    ensures var r := UpdateDefaultModel(true, store);
      r.0 ==> Facade.GetModel(r.1, None).Some? && Facade.GetModel(r.1, None).value.kind == Facade.DeepSeekClient
  {
    var r := UpdateDefaultModel(true, store);
    if r.0 {
      if FirstDeepSeek(store).Some? {
        var k := FirstDeepSeek(store).value;
        forall j | 0 <= j < k ensures !r.1[j].isDefault {
          assert store[j].id != store[k].id;
        }
        assert r.1[k] == store[k].(isDefault := true);
        ResolvesToDefault(r.1, k);
      } else {
        assert r.1[|store|] == SwitchConfig(NextId(ConfigIds(store)));
        ResolvesToDefault(r.1, |store|);
      }
    }
  }

  /** Default resolution picks the first active default row, here a DeepSeek one. */
  lemma ResolvesToDefault(s: ConfigStore, k: nat)
    requires k < |s| && s[k].isActive && s[k].isDefault && s[k].provider == "deepseek"
    requires forall j :: 0 <= j < k ==> !s[j].isDefault
    ensures Facade.GetModel(s, None) == Some(Facade.Resolved(k, Facade.DeepSeekClient))
  {
    assert Facade.Selects(s, None, k);
    var first := Facade.FirstSelected(s, None, 0);
    assert first == Some(k);
  }
}

=== FILE: facade.dfy ===
/**
 * The generation facade (`AIModelManager`): resolving a configuration to a provider client,
 * the usage accounting and system log of blocking and streaming generation, the
 * configuration maintenance operations, and the usage statistics.
 *
 * The database is a `Ledger` value: the configuration table and the system log. The
 * client's answer is a parameter: `call(kind, config)` is what the resolved client's
 * `generate_text` returns, and a stream is the chunk sequence its `generate_text_stream`
 * yields (see module Providers for how each client builds it).
 */
module Facade {
  import opened Wrappers
  import opened Models
  import opened Streams
  import Config
  import Seqs

  /** The provider clients of the registry. */
  datatype ClientKind = OpenAIClient | BaiduClient | DashScopeClient | DeepSeekClient

  /** The registry: the four providers with a client class; any other provider has none. */
  function KindOf(provider: string): (k: Option<ClientKind>)
    ensures k.Some? <==> provider in {"openai", "baidu", "dashscope", "deepseek"}
    ensures k == Some(DeepSeekClient) <==> provider == "deepseek"
  {
    if provider == "openai" then Some(OpenAIClient)
    else if provider == "baidu" then Some(BaiduClient)
    else if provider == "dashscope" then Some(DashScopeClient)
    else if provider == "deepseek" then Some(DeepSeekClient)
    else None
  }

  /** `tencent` is in the provider catalogue but has no client. */
  lemma TencentHasNoClient()
    ensures Config.GetAiModelConfig("tencent").Some? && KindOf("tencent").None?
  {
  }

  /** Python truthiness of an optional configuration id: `None` and `0` are both falsy. */
  predicate Truthy(configId: Option<int>) {
    configId.Some? && configId.value != 0
  }

  /**
   * The filter of `get_model`: an active configuration with the requested id when the id is
   * truthy, otherwise an active default configuration.
   */
  predicate Selects(store: ConfigStore, configId: Option<int>, i: int)
    requires 0 <= i < |store|
  {
    store[i].isActive && (if Truthy(configId) then store[i].id == configId.value else store[i].isDefault)
  }

  /** The first selected position at or after `from` (`.first()` in row order). */
  function FirstSelected(store: ConfigStore, configId: Option<int>, from: nat): (r: Option<nat>)
    requires from <= |store|
    ensures r.Some? ==> from <= r.value < |store| && Selects(store, configId, r.value)
    ensures r.Some? ==> forall j :: from <= j < r.value ==> !Selects(store, configId, j)
    ensures r.None? ==> forall j :: from <= j < |store| ==> !Selects(store, configId, j)
    decreases |store| - from
  {
    if from == |store| then None
    else if Selects(store, configId, from) then Some(from)
    else FirstSelected(store, configId, from + 1)
  }

  /** A resolved model: the position of its configuration and its client. */
  datatype Resolved = Resolved(index: nat, kind: ClientKind)

  /**
   * `get_model`: the first selected configuration, if its provider has a client. A first
   * match without a client gives `None` even when a later match would have one.
   */
  function GetModel(store: ConfigStore, configId: Option<int>): (r: Option<Resolved>)
    ensures r.Some? ==> r.value.index < |store| && Selects(store, configId, r.value.index)
    ensures r.Some? ==> forall j :: 0 <= j < r.value.index ==> !Selects(store, configId, j)
    ensures r.Some? ==> KindOf(store[r.value.index].provider) == Some(r.value.kind)
    ensures r.None? <==>
      (forall j :: 0 <= j < |store| ==> !Selects(store, configId, j))
      || KindOf(store[FirstSelected(store, configId, 0).value].provider).None?
  {
    match FirstSelected(store, configId, 0)
    case None => None
    case Some(i) =>
      match KindOf(store[i].provider)
      case None => None
      case Some(kind) => Some(Resolved(i, kind))
  }

  /** After seeding an empty table, the default (id `None` or `0`) resolves to the seed. */
  lemma SeededDefaultResolves(configId: Option<int>)
    requires !Truthy(configId)
    ensures GetModel(InitDb([]), configId) == Some(Resolved(0, DeepSeekClient))
  {
  }

  /** A request for an inactive configuration, or an unknown id, resolves to nothing. */
  lemma InactiveNeverResolves(store: ConfigStore, id: int)
    requires id != 0
    requires forall j :: 0 <= j < |store| && store[j].id == id ==> !store[j].isActive
    ensures GetModel(store, Some(id)).None?
  {
  }

  // ---------------------------------------------------------------- ledger

  datatype Level = InfoLevel | ErrorLevel

  /** One `system_logs` row written by the facade (`response_time` is not modelled). */
  datatype LogEntry = LogEntry(
    level: Level,
    source: string,
    message: string,
    configId: int,
    promptLength: nat,
    success: Option<bool>,
    error: Option<string>,
    contentLength: Option<nat>,
    usage: Option<Usage>)

  /** The part of the database the facade writes. */
  datatype Ledger = Ledger(configs: ConfigStore, logs: seq<LogEntry>)

  const LogModule := "ai_models"
  const NoModelError := "未找到可用的AI模型"

  /** The tokens a usage record adds to `total_tokens`: its `total_tokens` key, if present. */
  function TokensOf(usage: Option<Usage>): int {
    if usage.Some? && usage.value.totalTokens.Some? then usage.value.totalTokens.value else 0
  }

  /** One more use, and the reported tokens. */
  function Bump(c: AIModelConfig, usage: Option<Usage>): AIModelConfig {
    c.(usageCount := c.usageCount + 1, totalTokens := c.totalTokens + TokensOf(usage))
  }

  /** Only the counters of a configuration may differ. */
  predicate SameButCounters(a: AIModelConfig, b: AIModelConfig) {
    a.(usageCount := 0, totalTokens := 0) == b.(usageCount := 0, totalTokens := 0)
  }

  /** The configuration at `k` replaced, everything else untouched. */
  predicate OnlyAt(before: ConfigStore, after: ConfigStore, k: nat) {
    && |after| == |before|
    && forall j :: 0 <= j < |before| && j != k ==> after[j] == before[j]
  }

  // ---------------------------------------------------------------- blocking generation

  /** The log entry of one blocking generation. */
  function GenerationLog(c: AIModelConfig, prompt: string, result: GenerationResult): LogEntry {
    LogEntry(
      if result.Generated? then InfoLevel else ErrorLevel,
      LogModule,
      "AI内容生成 - 模型: " + c.name,
      c.id,
      |prompt|,
      Some(result.Generated?),
      if result.Failed? then Some(result.error) else None,
      None,
      if result.Generated? then Some(result.usage) else None)
  }

  /**
   * `generate_content`. Without a model: the failure, and nothing written. Otherwise the
   * client's result; on success one more use and the reported tokens; one log entry either way.
   */
  function GenerateContent(ledger: Ledger, configId: Option<int>, prompt: string,
                           call: (ClientKind, AIModelConfig) -> GenerationResult): (r: (GenerationResult, Ledger))
    ensures GetModel(ledger.configs, configId).None? ==> r == (GenerationResult.Failed(NoModelError), ledger)
    ensures GetModel(ledger.configs, configId).Some? ==>
      var m := GetModel(ledger.configs, configId).value;
      var before := ledger.configs[m.index];
      && r.0 == call(m.kind, before)
      && OnlyAt(ledger.configs, r.1.configs, m.index)
      && SameButCounters(r.1.configs[m.index], before)
      && r.1.configs[m.index].usageCount == before.usageCount + (if r.0.Generated? then 1 else 0)
      && r.1.configs[m.index].totalTokens == before.totalTokens + (if r.0.Generated? then TokensOf(Some(r.0.usage)) else 0)
      && |r.1.logs| == |ledger.logs| + 1
      && r.1.logs[..|ledger.logs|] == ledger.logs
      && (r.1.logs[|ledger.logs|].level == InfoLevel <==> r.0.Generated?)
      && r.1.logs[|ledger.logs|].configId == before.id
      && r.1.logs[|ledger.logs|].promptLength == |prompt|
  {
    match GetModel(ledger.configs, configId)
    case None => (GenerationResult.Failed(NoModelError), ledger)
    case Some(m) =>
      var c := ledger.configs[m.index];
      var result := call(m.kind, c);
      var c' := if result.Generated? then Bump(c, Some(result.usage)) else c;
      var logs := ledger.logs + [GenerationLog(c', prompt, result)];
      assert logs[..|ledger.logs|] == ledger.logs;
      (result, Ledger(ledger.configs[m.index := c'], logs))
  }

  // ---------------------------------------------------------------- streaming generation

  /** The ERROR entry written, before it is forwarded, for an error chunk. */
  function StreamErrorLog(c: AIModelConfig, prompt: string, error: string): LogEntry {
    LogEntry(ErrorLevel, LogModule, "AI流式生成失败 - 模型: " + c.name, c.id, |prompt|,
             None, Some(error), None, None)
  }

  /** The INFO entry written, after it is forwarded, for a terminal chunk. */
  function StreamDoneLog(c: AIModelConfig, prompt: string, full: string, usage: Option<Usage>): LogEntry {
    LogEntry(InfoLevel, LogModule, "AI流式生成完成 - 模型: " + c.name, c.id, |prompt|,
             Some(true), None, Some(|full|), usage)
  }

  /** What the facade writes before forwarding chunk `ch`: the log of an error chunk. */
  function BeforeYield(ledger: Ledger, k: nat, prompt: string, ch: Chunk): (r: Ledger)
    requires k < |ledger.configs|
    ensures r.configs == ledger.configs
  {
    match ch
    case Error(e) => ledger.(logs := ledger.logs + [StreamErrorLog(ledger.configs[k], prompt, e)])
    case _ => ledger
  }

  /** What the facade writes when resumed after forwarding `ch`: the accounting of a terminal chunk. */
  function AfterYield(ledger: Ledger, k: nat, prompt: string, ch: Chunk): (r: Ledger)
    requires k < |ledger.configs|
    ensures |r.configs| == |ledger.configs|
  {
    match ch
    case Finished(full, usage) =>
      var c' := Bump(ledger.configs[k], usage);
      Ledger(ledger.configs[k := c'], ledger.logs + [StreamDoneLog(c', prompt, full, usage)])
    case _ => ledger
  }

  /**
   * The forwarding loop of `generate_content_stream`, consumed to the end: every chunk is
   * forwarded unchanged, and the first error chunk ends the stream.
   */
  function Forward(ledger: Ledger, k: nat, prompt: string, chunks: seq<Chunk>): (r: (seq<Chunk>, Ledger))
    requires k < |ledger.configs|
    ensures |r.0| <= |chunks| && r.0 == chunks[..|r.0|]
    ensures forall i :: 0 <= i < |r.0| - 1 ==> !r.0[i].Error?
    ensures |r.0| < |chunks| ==> |r.0| > 0 && r.0[|r.0| - 1].Error?
    ensures |r.1.configs| == |ledger.configs|
    ensures forall j :: 0 <= j < |ledger.configs| && j != k ==> r.1.configs[j] == ledger.configs[j]
    ensures |r.1.logs| >= |ledger.logs| && r.1.logs[..|ledger.logs|] == ledger.logs
    decreases |chunks|
  {
    if |chunks| == 0 then ([], ledger)
    else
      var ch := chunks[0];
      if ch.Error? then
        var l := BeforeYield(ledger, k, prompt, ch);
        assert l.logs[..|ledger.logs|] == ledger.logs;
        ([ch], l)
      else
        var rest := Forward(AfterYield(ledger, k, prompt, ch), k, prompt, chunks[1..]);
        var l := AfterYield(ledger, k, prompt, ch);
        assert l.logs[..|ledger.logs|] == ledger.logs;
        assert rest.1.logs[..|ledger.logs|] == l.logs[..|ledger.logs|];
        assert [ch] + rest.0 == chunks[..|rest.0| + 1] by {
          assert chunks == [ch] + chunks[1..];
        }
        ([ch] + rest.0, rest.1)
  }

  /** `generate_content_stream`, consumed to the end. */
  function StreamContent(ledger: Ledger, configId: Option<int>, prompt: string, chunks: seq<Chunk>): (r: (seq<Chunk>, Ledger))
    ensures GetModel(ledger.configs, configId).None? ==> r == ([Error(NoModelError)], ledger)
    ensures GetModel(ledger.configs, configId).Some? ==>
      r == Forward(ledger, GetModel(ledger.configs, configId).value.index, prompt, chunks)
  {
    match GetModel(ledger.configs, configId)
    case None => ([Error(NoModelError)], ledger)
    case Some(m) => Forward(ledger, m.index, prompt, chunks)
  }

  /**
   * For a well-shaped client stream the facade forwards every chunk, and the only writes are
   * those of the last chunk: for a terminal chunk one more use, its reported tokens and one
   * INFO entry with the length of the full text; for an error chunk one ERROR entry.
   */
  lemma {:induction false} ForwardWellShaped(ledger: Ledger, k: nat, prompt: string, s: seq<Chunk>)
    requires k < |ledger.configs| && WellShaped(s)
    ensures var r := Forward(ledger, k, prompt, s);
      var last := s[|s| - 1];
      var before := ledger.configs[k];
      && r.0 == s
      && (last.Finished? ==>
            && OnlyAt(ledger.configs, r.1.configs, k)
            && SameButCounters(r.1.configs[k], before)
            && r.1.configs[k].usageCount == before.usageCount + 1
            && r.1.configs[k].totalTokens == before.totalTokens + TokensOf(last.usage)
            && r.1.logs == ledger.logs + [StreamDoneLog(r.1.configs[k], prompt, last.full, last.usage)]
            && r.1.logs[|ledger.logs|].level == InfoLevel
            && r.1.logs[|ledger.logs|].contentLength == Some(|last.full|))
      && (last.Error? ==>
            && r.1.configs == ledger.configs
            && r.1.logs == ledger.logs + [StreamErrorLog(before, prompt, last.error)]
            && r.1.logs[|ledger.logs|].level == ErrorLevel)
  {
    if |s| > 1 {
      assert s[0].Delta?;
      var tail := s[1..];
      assert forall i :: 0 <= i < |tail| - 1 ==> tail[i] == s[i + 1];
      ForwardWellShaped(ledger, k, prompt, tail);
    }
  }

  /**
   * The ledger as the consumer sees it right after receiving `n` chunks, before asking for the
   * next: the writes for the chunks before, plus the error log of an error chunk, which is
   * written before it is forwarded.
   */
  function Received(ledger: Ledger, k: nat, prompt: string, chunks: seq<Chunk>, n: nat): (r: Ledger)
    requires k < |ledger.configs| && n <= |chunks|
    ensures |r.configs| == |ledger.configs|
    decreases n
  {
    if n == 0 then ledger
    else if chunks[0].Error? then BeforeYield(ledger, k, prompt, chunks[0])
    else if n == 1 then ledger
    else Received(AfterYield(ledger, k, prompt, chunks[0]), k, prompt, chunks[1..], n - 1)
  }

  /**
   * The terminal accounting runs only when the consumer asks for more after the terminal
   * chunk: a consumer that stops on receiving it leaves counters and log untouched, whereas
   * an error has been logged by the time the consumer receives it.
   */
  lemma {:induction false} AccountingAfterYield(ledger: Ledger, k: nat, prompt: string, s: seq<Chunk>)
    requires k < |ledger.configs| && WellShaped(s)
    ensures s[|s| - 1].Finished? ==> Received(ledger, k, prompt, s, |s|) == ledger
    ensures s[|s| - 1].Error? ==> Received(ledger, k, prompt, s, |s|) == Forward(ledger, k, prompt, s).1
  {
    if |s| > 1 {
      var tail := s[1..];
      assert forall i :: 0 <= i < |tail| - 1 ==> tail[i] == s[i + 1];
      AccountingAfterYield(ledger, k, prompt, tail);
    }
  }

  // ---------------------------------------------------------------- configuration maintenance

  /** The body of `POST /api/ai-models`, with its defaults. */
  datatype ConfigRequest = ConfigRequest(
    name: string, provider: string, apiKey: string, apiSecret: Option<string>, modelName: Option<string>,
    maxTokens: int, temperature: real, isDefault: bool)

  function DefaultRequest(name: string, provider: string, apiKey: string): (q: ConfigRequest)
    ensures q.maxTokens == 2000 && q.temperature == 0.7 && !q.isDefault
  {
    ConfigRequest(name, provider, apiKey, None, None, 2000, 0.7, false)
  }

  /** The outcome of `add_config`: the new row, or the unique-name violation at commit. */
  datatype AddOutcome = Added(config: AIModelConfig) | AddNameTaken

  /**
   * `add_config`. A new active row with zero counters; a default one first clears every other
   * default. A name already in use makes the commit fail and nothing changes.
   */
  function AddConfig(store: ConfigStore, q: ConfigRequest): (r: (AddOutcome, ConfigStore))
    ensures NameTaken(store, q.name) <==> r.0.AddNameTaken?
    ensures r.0.AddNameTaken? ==> r.1 == store
    ensures r.0.Added? ==>
      var c := r.0.config;
      && |r.1| == |store| + 1 && r.1[|store|] == c
      && c.name == q.name && c.provider == q.provider && c.apiKey == Some(q.apiKey)
      && c.maxTokens == q.maxTokens && c.isActive && c.isDefault == q.isDefault
      && c.usageCount == 0 && c.totalTokens == 0
      && (forall i :: 0 <= i < |store| ==> store[i].id != c.id)
      && (forall i :: 0 <= i < |store| ==> r.1[i].(isDefault := store[i].isDefault) == store[i])
      && (q.isDefault ==> forall i :: 0 <= i < |store| ==> !r.1[i].isDefault)
      && (!q.isDefault ==> r.1[..|store|] == store)
    ensures q.isDefault && r.0.Added? ==> DefaultCount(r.1) == 1
    ensures AtMostOneDefault(store) ==> AtMostOneDefault(r.1)
    ensures UniqueIds(store) ==> UniqueIds(r.1)
    ensures UniqueNames(store) ==> UniqueNames(r.1)
  {
    if NameTaken(store, q.name) then (AddNameTaken, store)
    else
      var c := NewConfig(NextId(ConfigIds(store)), q.name, q.provider, Some(q.apiKey))
        .(apiSecret := q.apiSecret, modelName := q.modelName, maxTokens := q.maxTokens,
          temperature := q.temperature, isDefault := q.isDefault);
      var base := if q.isDefault then ClearDefaults(store, None) else store;
      var r := base + [c];
      assert r[..|store|] == base;
      assert forall i :: 0 <= i < |store| ==> ConfigIds(store)[i] == store[i].id;
      if q.isDefault then
        DefaultCountOfFlags(r, |store|);
        (Added(c), r)
      else
        assert DefaultCount(r) == DefaultCount(store) by {
          assert r[..|r| - 1] == store;
        }
        (Added(c), r)
  }

  /** The first position holding `id` (`.first()` in row order). */
  function FindById(store: ConfigStore, id: int): (r: Option<nat>)
    ensures r.Some? ==> r.value < |store| && store[r.value].id == id
    ensures r.Some? ==> forall j :: 0 <= j < r.value ==> store[j].id != id
    ensures r.None? <==> forall j :: 0 <= j < |store| ==> store[j].id != id
  {
    if |store| == 0 then None
    else if store[0].id == id then Some(0)
    else
      var r := FindById(store[1..], id);
      if r.None? then None else Some(r.value + 1)
  }

  /**
   * The fields the update body may set. `None` leaves a field unchanged; for the nullable
   * columns `Some(None)` sets NULL.
   */
  datatype ConfigUpdate = ConfigUpdate(
    name: Option<string>,
    apiKey: Option<Option<string>>,
    apiSecret: Option<Option<string>>,
    modelName: Option<Option<string>>,
    maxTokens: Option<int>,
    temperature: Option<real>,
    isActive: Option<bool>,
    isDefault: Option<bool>)

  /** The `setattr` loop: every provided field replaced. */
  function ApplyUpdate(c: AIModelConfig, u: ConfigUpdate): AIModelConfig {
    c.(name := u.name.GetOr(c.name),
       apiKey := u.apiKey.GetOr(c.apiKey),
       apiSecret := u.apiSecret.GetOr(c.apiSecret),
       modelName := u.modelName.GetOr(c.modelName),
       maxTokens := u.maxTokens.GetOr(c.maxTokens),
       temperature := u.temperature.GetOr(c.temperature),
       isActive := u.isActive.GetOr(c.isActive),
       isDefault := u.isDefault.GetOr(c.isDefault))
  }

  /** Whether another row than `i` already uses `name`. */
  predicate NameTakenByOther(store: ConfigStore, i: nat, name: string) {
    exists j :: 0 <= j < |store| && j != i && store[j].name == name
  }

  datatype UpdateOutcome = NotFound | UpdateNameTaken | Updated(config: AIModelConfig)

  /**
   * `update_config`. An unknown id gives `None` and no change; a name used by another row
   * makes the commit fail. Otherwise the provided fields are set, and a truthy `is_default`
   * clears the flag of every row with another id.
   */
  function UpdateConfig(store: ConfigStore, configId: int, u: ConfigUpdate): (r: (UpdateOutcome, ConfigStore))
    ensures FindById(store, configId).None? ==> r == (NotFound, store)
    ensures r.0.UpdateNameTaken? ==> r.1 == store
    ensures FindById(store, configId).Some? ==>
      var i := FindById(store, configId).value;
      && (r.0.UpdateNameTaken? <==> u.name.Some? && NameTakenByOther(store, i, u.name.value))
      && (r.0.Updated? ==> r.1 == UpdatedRows(store, i, configId, u) && r.0.config == r.1[i])
    ensures UniqueIds(store) && u.isDefault == Some(true) && r.0.Updated? ==> DefaultCount(r.1) == 1
    ensures UniqueIds(store) && AtMostOneDefault(store) ==> AtMostOneDefault(r.1)
    ensures UniqueIds(store) ==> UniqueIds(r.1)
    ensures UniqueNames(store) ==> UniqueNames(r.1)
  {
    match FindById(store, configId)
    case None => (NotFound, store)
    case Some(i) =>
      if u.name.Some? && NameTakenByOther(store, i, u.name.value) then (UpdateNameTaken, store)
      else
        var c := ApplyUpdate(store[i], u);
        var r := UpdatedRows(store, i, configId, u);
        UpdateDefaultCount(store, i, configId, u);
        UpdatedRowsUnique(store, i, configId, u);
        (Updated(c), r)
  }

  /** The rows an update leaves: the flags cleared if it sets the default, then row `i` updated. */
  function UpdatedRows(store: ConfigStore, i: nat, configId: int, u: ConfigUpdate): ConfigStore
    requires i < |store|
  {
    (if u.isDefault == Some(true) then ClearDefaults(store, Some(configId)) else store)[i := ApplyUpdate(store[i], u)]
  }

  /**
   * What an update changes: row `i` gets the provided fields and keeps its id and counters;
   * every other row keeps everything but its default flag, which a truthy `is_default`
   * clears unless the row shares the id.
   */
  lemma UpdatedRowsEffect(store: ConfigStore, i: nat, configId: int, u: ConfigUpdate)
    requires i < |store|
    ensures var r := UpdatedRows(store, i, configId, u);
      && |r| == |store|
      && r[i].name == u.name.GetOr(store[i].name)
      && r[i].apiKey == u.apiKey.GetOr(store[i].apiKey)
      && r[i].maxTokens == u.maxTokens.GetOr(store[i].maxTokens)
      && r[i].temperature == u.temperature.GetOr(store[i].temperature)
      && r[i].isActive == u.isActive.GetOr(store[i].isActive)
      && r[i].isDefault == u.isDefault.GetOr(store[i].isDefault)
      && r[i].id == store[i].id && r[i].provider == store[i].provider
      && r[i].usageCount == store[i].usageCount && r[i].totalTokens == store[i].totalTokens
      && (forall j :: 0 <= j < |store| && j != i ==> r[j].(isDefault := store[j].isDefault) == store[j])
      && (u.isDefault == Some(true) ==>
            forall j :: 0 <= j < |store| && j != i ==> (r[j].isDefault <==> store[j].isDefault && store[j].id == configId))
      && (u.isDefault != Some(true) ==> forall j :: 0 <= j < |store| && j != i ==> r[j] == store[j])
  {
  }

  /** An update that sets the default leaves exactly one; any other keeps at most one. */
  lemma UpdateDefaultCount(store: ConfigStore, i: nat, configId: int, u: ConfigUpdate)
    requires i < |store| && store[i].id == configId
    ensures UniqueIds(store) && u.isDefault == Some(true) ==> DefaultCount(UpdatedRows(store, i, configId, u)) == 1
    ensures UniqueIds(store) && AtMostOneDefault(store) ==> AtMostOneDefault(UpdatedRows(store, i, configId, u))
  {
    var r := UpdatedRows(store, i, configId, u);
    if UniqueIds(store) {
      if u.isDefault == Some(true) {
        DefaultCountOfFlags(r, i);
      } else if AtMostOneDefault(store) {
        DefaultCountMono(store, r);
      }
    }
  }

  /** An update that takes no other row's name keeps ids and names unique. */
  lemma UpdatedRowsUnique(store: ConfigStore, i: nat, configId: int, u: ConfigUpdate)
    requires i < |store| && store[i].id == configId
    requires !(u.name.Some? && NameTakenByOther(store, i, u.name.value))
    ensures UniqueIds(store) ==> UniqueIds(UpdatedRows(store, i, configId, u))
    ensures UniqueNames(store) ==> UniqueNames(UpdatedRows(store, i, configId, u))
  {
    UpdatedRowsEffect(store, i, configId, u);
  }

  // ---------------------------------------------------------------- listing and statistics

  /** `list_configs`: the active configurations, in row order. */
  function ListConfigs(store: ConfigStore): (r: ConfigStore)
    ensures |r| <= |store|
    ensures forall c :: c in r <==> c in store && c.isActive
    ensures r == Seqs.Filter(store, (c: AIModelConfig) => c.isActive)
  {
    if |store| == 0 then []
    else
      var rest := ListConfigs(store[1..]);
      assert forall c :: c in store <==> c == store[0] || c in store[1..];
      if store[0].isActive then [store[0]] + rest else rest
  }

  /** One row of the usage statistics. */
  datatype StatRow = StatRow(
    id: int, name: string, provider: string, usageCount: int, totalTokens: int, isActive: bool, isDefault: bool)

  function RowOf(c: AIModelConfig): StatRow {
    StatRow(c.id, c.name, c.provider, c.usageCount, c.totalTokens, c.isActive, c.isDefault)
  }

  datatype UsageStats = UsageStats(configs: seq<StatRow>, totalUsage: int, totalTokens: int)

  /** Sum of the use counts of a table. */
  function TotalUsage(store: ConfigStore): int {
    if |store| == 0 then 0 else TotalUsage(store[..|store| - 1]) + store[|store| - 1].usageCount
  }

  /** Sum of the token counts of a table. */
  function TotalTokens(store: ConfigStore): int {
    if |store| == 0 then 0 else TotalTokens(store[..|store| - 1]) + store[|store| - 1].totalTokens
  }

  /** The rows `get_usage_stats` reports: the ones with the id when it is truthy, else all. */
  function Reported(store: ConfigStore, configId: Option<int>): (r: ConfigStore)
    ensures !Truthy(configId) ==> r == store
    ensures Truthy(configId) ==> forall c :: c in r <==> c in store && c.id == configId.value
  {
    if !Truthy(configId) then store
    else if |store| == 0 then []
    else
      var rest := Reported(store[..|store| - 1], configId);
      assert forall c :: c in store <==> c == store[|store| - 1] || c in store[..|store| - 1];
      if store[|store| - 1].id == configId.value then rest + [store[|store| - 1]] else rest
  }

  /** `get_usage_stats`: one row per reported configuration, and the sums of their counters. */
  method GetUsageStats(store: ConfigStore, configId: Option<int>) returns (r: UsageStats)
    ensures |r.configs| == |Reported(store, configId)|
    ensures forall i :: 0 <= i < |r.configs| ==> r.configs[i] == RowOf(Reported(store, configId)[i])
    ensures r.totalUsage == TotalUsage(Reported(store, configId))
    ensures r.totalTokens == TotalTokens(Reported(store, configId))
  {
    var configs := Reported(store, configId);
    var rows: seq<StatRow> := [];
    var usage := 0;
    var tokens := 0;
    var i := 0;
    while i < |configs|
      invariant 0 <= i <= |configs|
      invariant |rows| == i
      invariant forall j :: 0 <= j < i ==> rows[j] == RowOf(configs[j])
      invariant usage == TotalUsage(configs[..i])
      invariant tokens == TotalTokens(configs[..i])
    {
      assert configs[..i + 1][..i] == configs[..i];
      rows := rows + [RowOf(configs[i])];
      usage := usage + configs[i].usageCount;
      tokens := tokens + configs[i].totalTokens;
      i := i + 1;
    }
    assert configs[..i] == configs;
    r := UsageStats(rows, usage, tokens);
  }

  /** Replacing one row changes the sums by the difference of its counters. */
  lemma {:induction false} TotalsUpdate(store: ConfigStore, k: nat, c: AIModelConfig)
    requires k < |store|
    ensures TotalUsage(store[k := c]) == TotalUsage(store) - store[k].usageCount + c.usageCount
    ensures TotalTokens(store[k := c]) == TotalTokens(store) - store[k].totalTokens + c.totalTokens
  {
    var n := |store| - 1;
    var s' := store[k := c];
    if k < n {
      assert s'[..n] == store[..n][k := c];
      TotalsUpdate(store[..n], k, c);
    } else {
      assert s'[..n] == store[..n];
    }
  }

  /**
   * A successful blocking generation raises the reported total of uses by one and the total
   * of tokens by the reported usage; a failed one changes neither.
   */
  lemma GenerationRaisesTotals(ledger: Ledger, configId: Option<int>, prompt: string,
                               call: (ClientKind, AIModelConfig) -> GenerationResult)
    ensures var r := GenerateContent(ledger, configId, prompt, call);
      && TotalUsage(r.1.configs) == TotalUsage(ledger.configs) + (if r.0.Generated? then 1 else 0)
      && TotalTokens(r.1.configs) == TotalTokens(ledger.configs) + (if r.0.Generated? then TokensOf(Some(r.0.usage)) else 0)
  {
    var r := GenerateContent(ledger, configId, prompt, call);
    if GetModel(ledger.configs, configId).Some? {
      var k := GetModel(ledger.configs, configId).value.index;
      assert r.1.configs == ledger.configs[k := r.1.configs[k]];
      TotalsUpdate(ledger.configs, k, r.1.configs[k]);
    }
  }

  /**
   * The worked example: the default DeepSeek model answers "OK" using 12 tokens, so the
   * facade returns it, counts one use and 12 tokens, and logs one INFO entry.
   */
  lemma DefaultDeepSeekExample(call: (ClientKind, AIModelConfig) -> GenerationResult)
    requires call(DeepSeekClient, SeedConfig()) == Generated("OK", Usage(Some(5), Some(7), Some(12)), Some("deepseek-chat"))
    ensures var r := GenerateContent(Ledger(InitDb([]), []), None, "hi", call);
      && r.0.Generated? && r.0.content == "OK"
      && r.1.configs[0].usageCount == 1 && r.1.configs[0].totalTokens == 12
      && |r.1.logs| == 1 && r.1.logs[0].level == InfoLevel
  {
  }
}

=== FILE: hotspot_store.dfy ===
/**
 * `HotspotCrawlerManager`: saving crawled hotspots into the `hot_topics` table (refreshing a
 * recent row of the same platform and title instead of inserting a duplicate), crawling a
 * list of platforms, and aggregating the keywords of recent topics into trending keywords.
 * The 24-hour window is given as a `cutoff` timestamp; `now` stamps the rows written.
 */
module HotspotStore {
  import opened Wrappers
  import opened Models
  import Text
  import Seqs
  import Sorting
  import Hotspots

  type TopicStore = seq<HotTopic>

  /* ---------------- Saving ---------------- */

  /** A row the duplicate check matches: same platform and title, created at or after `cutoff`. */
  predicate Recent(row: HotTopic, platform: string, title: string, cutoff: int) {
    row.platform == platform && row.title == title && row.createdAt >= cutoff
  }

  /** The position of the first matching row at or after `from`, as `.first()` returns it. */
  function FindRecent(rows: TopicStore, platform: string, title: string, cutoff: int, from: nat): (r: Option<nat>)
    requires from <= |rows|
    ensures r.Some? ==> from <= r.value < |rows| && Recent(rows[r.value], platform, title, cutoff)
    ensures r.Some? ==> forall j :: from <= j < r.value ==> !Recent(rows[j], platform, title, cutoff)
    ensures r.None? ==> forall j :: from <= j < |rows| ==> !Recent(rows[j], platform, title, cutoff)
    decreases |rows| - from
  {
    if from == |rows| then None
    else if Recent(rows[from], platform, title, cutoff) then Some(from)
    else FindRecent(rows, platform, title, cutoff, from + 1)
  }

  function Match(rows: TopicStore, h: Hotspots.Hotspot, cutoff: int): Option<nat> {
    FindRecent(rows, h.platform, h.title, cutoff, 0)
  }

  /** `b` is `a` with at most its score, rank, engagement and update time changed. */
  predicate SameTopic(a: HotTopic, b: HotTopic) {
    b == a.(hotScore := b.hotScore, rankPosition := b.rankPosition, engagementCount := b.engagementCount,
            updatedAt := b.updatedAt)
  }

  /** The rows of `pre` are still at the front of `cur`, with the same identity. */
  predicate Keyed(pre: TopicStore, cur: TopicStore) {
    |pre| <= |cur| && forall j :: 0 <= j < |pre| ==> SameTopic(pre[j], cur[j])
  }

  /** The ids of the topic rows, in row order. */
  function TopicIds(rows: TopicStore): seq<int> {
    seq(|rows|, i requires 0 <= i < |rows| => rows[i].id)
  }

  /** The row inserted for a hotspot with no recent match. */
  function NewTopic(id: int, h: Hotspots.Hotspot, now: int): HotTopic {
    HotTopic(id, h.platform, h.title, h.description, h.keywords, h.hotScore, h.rankPosition,
             h.category, Some(h.sentiment), h.engagementCount, now, now)
  }

  /**
   * One iteration of `save_hotspots`. The duplicate check sees only the rows committed
   * before the batch (`pre`): the session does not flush the rows added earlier in it.
   */
  function SaveOne(pre: TopicStore, cur: TopicStore, h: Hotspots.Hotspot, cutoff: int, now: int): (r: TopicStore)
    requires Keyed(pre, cur)
    ensures |r| == |cur| + (if Match(pre, h, cutoff).None? then 1 else 0)
    ensures forall j :: 0 <= j < |cur| ==> SameTopic(cur[j], r[j])
    ensures forall j :: 0 <= j < |cur| && Match(pre, h, cutoff) != Some(j) ==> r[j] == cur[j]
    ensures Match(pre, h, cutoff).Some? ==>
      var k := Match(pre, h, cutoff).value;
      r[k].hotScore == h.hotScore && r[k].rankPosition == h.rankPosition
      && r[k].engagementCount == h.engagementCount && r[k].updatedAt == now
    ensures Match(pre, h, cutoff).None? ==> r[|cur|] == NewTopic(r[|cur|].id, h, now) && r[|cur|].id >= 1
  {
    match Match(pre, h, cutoff)
    case Some(k) =>
      cur[k := cur[k].(hotScore := h.hotScore, rankPosition := h.rankPosition,
                       engagementCount := h.engagementCount, updatedAt := now)]
    case None =>
      cur + [NewTopic(NextId(TopicIds(cur)), h, now)]
  }

  /** How many hotspots of the batch have no recent match among the rows of `pre`. */
  function Unmatched(pre: TopicStore, items: seq<Hotspots.Hotspot>, cutoff: int): (n: nat)
    ensures n <= |items|
  {
    if |items| == 0 then 0
    else (if Match(pre, items[0], cutoff).None? then 1 else 0) + Unmatched(pre, items[1..], cutoff)
  }

  /** Some hotspot of the batch matches the row at position `j` of `pre`. */
  predicate Touched(pre: TopicStore, items: seq<Hotspots.Hotspot>, cutoff: int, j: nat) {
    exists i :: 0 <= i < |items| && Match(pre, items[i], cutoff) == Some(j)
  }

  /** A row for the hotspot's platform and title that counts as recent once `now >= cutoff`. */
  predicate Holds(rows: TopicStore, h: Hotspots.Hotspot, cutoff: int, now: int) {
    exists j :: 0 <= j < |rows| && rows[j].platform == h.platform && rows[j].title == h.title
                && (rows[j].createdAt >= cutoff || rows[j].createdAt == now)
  }

  /** The loop of `save_hotspots`, from the rows `cur` reached so far. */
  function SaveAll(pre: TopicStore, cur: TopicStore, items: seq<Hotspots.Hotspot>, cutoff: int, now: int): (r: TopicStore)
    requires Keyed(pre, cur)
    ensures Keyed(pre, r)
    ensures |r| == |cur| + Unmatched(pre, items, cutoff)
    ensures forall j :: 0 <= j < |cur| ==> SameTopic(cur[j], r[j])
    ensures forall j :: 0 <= j < |cur| && !Touched(pre, items, cutoff, j) ==> r[j] == cur[j]
    decreases |items|
  {
    if |items| == 0 then cur
    else
      var next := SaveOne(pre, cur, items[0], cutoff, now);
      var r := SaveAll(pre, next, items[1..], cutoff, now);
      assert forall j :: 0 <= j < |cur| && !Touched(pre, items, cutoff, j) ==>
        Match(pre, items[0], cutoff) != Some(j) && !Touched(pre, items[1..], cutoff, j)
      by {
        forall j, i | 0 <= j < |cur| && !Touched(pre, items, cutoff, j) && 0 <= i < |items[1..]|
          ensures Match(pre, items[1..][i], cutoff) != Some(j)
        {
          assert items[1..][i] == items[i + 1];
        }
      }
      r
  }

  /** After the loop every hotspot of the batch has a row with its platform and title. */
  lemma {:induction false} SaveAllHolds(pre: TopicStore, cur: TopicStore, items: seq<Hotspots.Hotspot>, cutoff: int, now: int)
    requires Keyed(pre, cur)
    ensures forall i :: 0 <= i < |items| ==> Holds(SaveAll(pre, cur, items, cutoff, now), items[i], cutoff, now)
    decreases |items|
  {
    if |items| > 0 {
      var next := SaveOne(pre, cur, items[0], cutoff, now);
      var r := SaveAll(pre, next, items[1..], cutoff, now);
      SaveAllHolds(pre, next, items[1..], cutoff, now);
      forall i | 1 <= i < |items| ensures Holds(r, items[i], cutoff, now) {
        assert items[1..][i - 1] == items[i];
      }
      var h := items[0];
      match Match(pre, h, cutoff)
      case Some(k) =>
        assert SameTopic(next[k], r[k]);
        assert r[k].platform == h.platform && r[k].title == h.title && r[k].createdAt >= cutoff;
      case None =>
        assert SameTopic(next[|cur|], r[|cur|]);
        assert r[|cur|].platform == h.platform && r[|cur|].title == h.title && r[|cur|].createdAt == now;
    }
  }

  /**
   * `save_hotspots`: refreshes or inserts each hotspot and counts them all; when the commit
   * fails the transaction is rolled back and the count is 0.
   */
  function SaveHotspots(store: TopicStore, items: seq<Hotspots.Hotspot>, cutoff: int, now: int, commitOk: bool): (r: (nat, TopicStore))
    ensures !commitOk ==> r == (0, store)
    ensures commitOk ==> r.0 == |items| && |r.1| == |store| + Unmatched(store, items, cutoff)
    ensures commitOk ==> forall j :: 0 <= j < |store| ==> SameTopic(store[j], r.1[j])
    ensures commitOk ==> forall j :: 0 <= j < |store| && !Touched(store, items, cutoff, j) ==> r.1[j] == store[j]
    ensures commitOk ==> forall i :: 0 <= i < |items| ==> Holds(r.1, items[i], cutoff, now)
  {
    if !commitOk then (0, store)
    else
      SaveAllHolds(store, store, items, cutoff, now);
      (|items|, SaveAll(store, store, items, cutoff, now))
  }

  /** When every hotspot has a recent match, none is left unmatched. */
  lemma {:induction false} UnmatchedNone(pre: TopicStore, items: seq<Hotspots.Hotspot>, cutoff: int)
    requires forall i :: 0 <= i < |items| ==> Match(pre, items[i], cutoff).Some?
    ensures Unmatched(pre, items, cutoff) == 0
    decreases |items|
  {
    if |items| > 0 {
      assert forall i :: 0 <= i < |items[1..]| ==> items[1..][i] == items[i + 1];
      UnmatchedNone(pre, items[1..], cutoff);
    }
  }

  /** Saving the same batch again inside the window inserts nothing new. */
  lemma SaveAgainInsertsNothing(store: TopicStore, items: seq<Hotspots.Hotspot>, cutoff: int, now: int)
    requires cutoff <= now
    ensures var after := SaveHotspots(store, items, cutoff, now, true).1;
      |SaveHotspots(after, items, cutoff, now, true).1| == |after|
  {
    var after := SaveHotspots(store, items, cutoff, now, true).1;
    forall i | 0 <= i < |items| ensures Match(after, items[i], cutoff).Some? {
      assert Holds(after, items[i], cutoff, now);
      var j :| 0 <= j < |after| && after[j].platform == items[i].platform && after[j].title == items[i].title
               && (after[j].createdAt >= cutoff || after[j].createdAt == now);
      assert Recent(after[j], items[i].platform, items[i].title, cutoff);
    }
    UnmatchedNone(after, items, cutoff);
  }

  /* ---------------- Crawling ---------------- */

  /** The per-platform entry of the crawl report. */
  datatype PlatformReport = PlatformReport(crawled: nat, saved: nat, success: bool)

  /** The `hotspot_crawler` log written per crawled platform (always INFO: no crawler raises). */
  datatype CrawlLog = CrawlLog(platform: string, crawled: nat, saved: nat)

  datatype CrawlReport = CrawlReport(
    success: bool,
    platforms: seq<(string, PlatformReport)>,
    totalCount: nat,
    errors: seq<string>)

  /** How many of `names` have no registered crawler. */
  function CountUnsupported(names: seq<string>): (n: nat)
    ensures n <= |names|
  {
    if |names| == 0 then 0
    else (if names[0] in Hotspots.Supported then 0 else 1) + CountUnsupported(names[1..])
  }

  /** The registered names among `names`. */
  function SupportedAmong(names: seq<string>): set<string> {
    set i | 0 <= i < |names| && names[i] in Hotspots.Supported :: names[i]
  }

  /** The registered names among a non-empty list: those after the first, plus the first if registered. */
  lemma SupportedAmongStep(names: seq<string>)
    requires |names| > 0
    ensures SupportedAmong(names) == (if names[0] in Hotspots.Supported then {names[0]} else {}) + SupportedAmong(names[1..])
  {
    assert forall i :: 0 < i < |names| ==> names[i] == names[1..][i - 1];
    assert forall i :: 0 <= i < |names[1..]| ==> names[1..][i] == names[i + 1];
  }

  /**
   * What crawling a registered platform reports: the number of hotspots crawled and the number
   * `save_hotspots` returns for them (all of them, or 0 when the commit fails). Unregistered
   * names are never crawled.
   */
  function CrawlCounts(net: Hotspots.Network, commitOk: string -> bool): (f: string -> (nat, nat))
    ensures forall p :: f(p).1 <= f(p).0 <= 50
  {
    (p: string) =>
      if p in Hotspots.Supported then
        var n := |Hotspots.Crawl(p, net)|;
        (n, if commitOk(p) then n else 0)
      else (0, 0)
  }

  /** The reported saved count is the count `save_hotspots` returns for the crawled hotspots. */
  lemma CrawlCountsSaved(net: Hotspots.Network, commitOk: string -> bool, p: string, store: TopicStore, cutoff: int, now: int)
    requires p in Hotspots.Supported
    ensures CrawlCounts(net, commitOk)(p) ==
      (|Hotspots.Crawl(p, net)|, SaveHotspots(store, Hotspots.Crawl(p, net), cutoff, now, commitOk(p)).0)
  {
  }

  /** The rows after saving the hotspots crawled from a registered platform. */
  function CrawlSave(net: Hotspots.Network, commitOk: string -> bool, cutoff: int, now: int): (string, TopicStore) -> TopicStore {
    (p: string, st: TopicStore) =>
      if p in Hotspots.Supported then SaveHotspots(st, Hotspots.Crawl(p, net), cutoff, now, commitOk(p)).1 else st
  }

  /** The saved counts of the registered names, summed (a repeated name counts each time). */
  function SavedSum(names: seq<string>, counts: string -> (nat, nat)): nat {
    if |names| == 0 then 0
    else (if names[0] in Hotspots.Supported then counts(names[0]).1 else 0) + SavedSum(names[1..], counts)
  }

  /** The rows after saving the registered names in order, each save seeing the rows of the previous ones. */
  function StoreAfter(names: seq<string>, save: (string, TopicStore) -> TopicStore, store: TopicStore): TopicStore {
    if |names| == 0 then store
    else StoreAfter(names[1..], save, if names[0] in Hotspots.Supported then save(names[0], store) else store)
  }

  /** One log per registered name, in order, with its crawled and saved counts. */
  function CrawlLogs(names: seq<string>, counts: string -> (nat, nat)): seq<CrawlLog> {
    if |names| == 0 then []
    else (if names[0] in Hotspots.Supported then [CrawlLog(names[0], counts(names[0]).0, counts(names[0]).1)] else [])
         + CrawlLogs(names[1..], counts)
  }

  /** Concatenation regroups. */
  lemma AppendAssoc<T>(a: seq<T>, b: seq<T>, c: seq<T>)
    ensures (a + b) + c == a + (b + c)
  {
  }

  /** The error `crawl_all_platforms` records for an unregistered name. */
  function UnsupportedError(p: string): string {
    "不支持的平台: " + p
  }

  /** One error per unregistered name, in order. */
  function UnsupportedErrors(names: seq<string>): seq<string> {
    if |names| == 0 then []
    else (if names[0] in Hotspots.Supported then [] else [UnsupportedError(names[0])]) + UnsupportedErrors(names[1..])
  }

  /** The report after one name: an error for an unregistered one, else its entry and saved count. */
  function NextReport(p: string, counts: string -> (nat, nat), acc: CrawlReport): (r: CrawlReport)
    ensures r.success == acc.success
    ensures r.errors == acc.errors + (if p in Hotspots.Supported then [] else [UnsupportedError(p)])
    ensures r.totalCount == acc.totalCount + (if p in Hotspots.Supported then counts(p).1 else 0)
    ensures Seqs.KeySet(r.platforms) == Seqs.KeySet(acc.platforms) + (if p in Hotspots.Supported then {p} else {})
    ensures forall q ::
              Seqs.Get(r.platforms, q) ==
                if p in Hotspots.Supported && q == p then Some(PlatformReport(counts(p).0, counts(p).1, true))
                else Seqs.Get(acc.platforms, q)
  {
    if p !in Hotspots.Supported then acc.(errors := acc.errors + [UnsupportedError(p)])
    else
      var v := PlatformReport(counts(p).0, counts(p).1, true);
      Seqs.PutKeys(acc.platforms, p, v);
      forall q ensures Seqs.Get(Seqs.Put(acc.platforms, p, v), q) == if q == p then Some(v) else Seqs.Get(acc.platforms, q) {
        Seqs.PutGet(acc.platforms, p, v, q);
      }
      acc.(platforms := Seqs.Put(acc.platforms, p, v), totalCount := acc.totalCount + counts(p).1)
  }

  /** The rows after one name: saved when registered, unchanged otherwise. */
  function NextStore(p: string, save: (string, TopicStore) -> TopicStore, store: TopicStore): TopicStore {
    if p in Hotspots.Supported then save(p, store) else store
  }

  /** The logs after one name: one more entry with its counts when registered. */
  function NextLogs(p: string, counts: string -> (nat, nat), logs: seq<CrawlLog>): (r: seq<CrawlLog>)
    ensures r == logs + (if p in Hotspots.Supported then [CrawlLog(p, counts(p).0, counts(p).1)] else [])
  {
    if p in Hotspots.Supported then logs + [CrawlLog(p, counts(p).0, counts(p).1)] else logs
  }

  /**
   * The loop of `crawl_all_platforms` over `names`, from the report `acc` and rows `store`;
   * `counts` gives what a registered platform reports and `save` the rows after saving it.
   */
  function CrawlNames(names: seq<string>, counts: string -> (nat, nat), save: (string, TopicStore) -> TopicStore,
                      acc: CrawlReport, store: TopicStore, logs: seq<CrawlLog>): (r: (CrawlReport, TopicStore, seq<CrawlLog>))
    requires forall p :: counts(p).1 <= 50
    ensures r.0.success == acc.success
    ensures |r.0.errors| == |acc.errors| + CountUnsupported(names)
    ensures r.0.errors[..|acc.errors|] == acc.errors
    ensures acc.totalCount <= r.0.totalCount <= acc.totalCount + 50 * (|names| - CountUnsupported(names))
    ensures |r.2| == |logs| + |names| - CountUnsupported(names)
    ensures Seqs.KeySet(r.0.platforms) == Seqs.KeySet(acc.platforms) + SupportedAmong(names)
    decreases |names|
  {
    if |names| == 0 then
      assert SupportedAmong(names) == {};
      (acc, store, logs)
    else
      var p := names[0];
      SupportedAmongStep(names);
      var acc' := NextReport(p, counts, acc);
      var r := CrawlNames(names[1..], counts, save, acc', NextStore(p, save, store), NextLogs(p, counts, logs));
      assert r.0.errors[..|acc.errors|] == r.0.errors[..|acc'.errors|][..|acc.errors|];
      r
  }

  /** The loop adds the sum of the saved counts to the total. */
  lemma {:induction false} CrawlNamesTotal(names: seq<string>, counts: string -> (nat, nat),
      save: (string, TopicStore) -> TopicStore, acc: CrawlReport, store: TopicStore, logs: seq<CrawlLog>)
    requires forall p :: counts(p).1 <= 50
    ensures CrawlNames(names, counts, save, acc, store, logs).0.totalCount == acc.totalCount + SavedSum(names, counts)
    decreases |names|
  {
    if |names| > 0 {
      var p := names[0];
      CrawlNamesTotal(names[1..], counts, save, NextReport(p, counts, acc), NextStore(p, save, store), NextLogs(p, counts, logs));
    }
  }

  /** The loop appends one error per unregistered name, in order. */
  lemma {:induction false} CrawlNamesErrors(names: seq<string>, counts: string -> (nat, nat),
      save: (string, TopicStore) -> TopicStore, acc: CrawlReport, store: TopicStore, logs: seq<CrawlLog>)
    requires forall p :: counts(p).1 <= 50
    ensures CrawlNames(names, counts, save, acc, store, logs).0.errors == acc.errors + UnsupportedErrors(names)
    decreases |names|
  {
    if |names| > 0 {
      var p := names[0];
      var e := if p in Hotspots.Supported then [] else [UnsupportedError(p)];
      CrawlNamesErrors(names[1..], counts, save, NextReport(p, counts, acc), NextStore(p, save, store), NextLogs(p, counts, logs));
      assert UnsupportedErrors(names) == e + UnsupportedErrors(names[1..]);
      AppendAssoc(acc.errors, e, UnsupportedErrors(names[1..]));
    }
  }

  /** What the loop leaves behind: the rows after every save, in order, and one log per registered name. */
  lemma {:induction false} CrawlNamesOutput(names: seq<string>, counts: string -> (nat, nat),
      save: (string, TopicStore) -> TopicStore, acc: CrawlReport, store: TopicStore, logs: seq<CrawlLog>)
    requires forall p :: counts(p).1 <= 50
    ensures CrawlNames(names, counts, save, acc, store, logs).1 == StoreAfter(names, save, store)
    ensures CrawlNames(names, counts, save, acc, store, logs).2 == logs + CrawlLogs(names, counts)
    decreases |names|
  {
    if |names| > 0 {
      var p := names[0];
      var l := if p in Hotspots.Supported then [CrawlLog(p, counts(p).0, counts(p).1)] else [];
      CrawlNamesOutput(names[1..], counts, save, NextReport(p, counts, acc), NextStore(p, save, store), NextLogs(p, counts, logs));
      assert CrawlLogs(names, counts) == l + CrawlLogs(names[1..], counts);
      AppendAssoc(logs, l, CrawlLogs(names[1..], counts));
    }
  }

  /**
   * The platform entries after the loop: each registered name's entry holds its own counts and
   * success (a repeated name reports the same counts each time), the other entries are kept.
   */
  lemma {:induction false} CrawlNamesEntries(names: seq<string>, counts: string -> (nat, nat),
                                             save: (string, TopicStore) -> TopicStore,
                                             acc: CrawlReport, store: TopicStore, logs: seq<CrawlLog>, q: string)
    requires forall p :: counts(p).1 <= 50
    ensures var r := CrawlNames(names, counts, save, acc, store, logs);
      Seqs.Get(r.0.platforms, q) ==
        if q in SupportedAmong(names) then Some(PlatformReport(counts(q).0, counts(q).1, true))
        else Seqs.Get(acc.platforms, q)
    decreases |names|
  {
    if |names| == 0 {
      assert SupportedAmong(names) == {};
    } else {
      var p := names[0];
      SupportedAmongStep(names);
      CrawlNamesEntries(names[1..], counts, save, NextReport(p, counts, acc), NextStore(p, save, store), NextLogs(p, counts, logs), q);
    }
  }

  /**
   * `crawl_all_platforms`: `None` means every registered platform; an unknown name adds one
   * error and is skipped; each registered name is crawled, saved and logged, its entry holds the
   * crawled and saved counts, and the total is the sum of the saved counts.
   */
  function CrawlAll(platforms: Option<seq<string>>, net: Hotspots.Network, commitOk: string -> bool,
                    cutoff: int, now: int, store: TopicStore): (r: (CrawlReport, TopicStore, seq<CrawlLog>))
    ensures r.0.success
    ensures r.0.errors == UnsupportedErrors(platforms.GetOr(Hotspots.Supported))
    ensures |r.0.errors| == CountUnsupported(platforms.GetOr(Hotspots.Supported))
    ensures Seqs.KeySet(r.0.platforms) == SupportedAmong(platforms.GetOr(Hotspots.Supported))
    ensures forall p :: p in SupportedAmong(platforms.GetOr(Hotspots.Supported)) ==>
      Seqs.Get(r.0.platforms, p) == Some(PlatformReport(CrawlCounts(net, commitOk)(p).0, CrawlCounts(net, commitOk)(p).1, true))
    ensures r.0.totalCount == SavedSum(platforms.GetOr(Hotspots.Supported), CrawlCounts(net, commitOk))
    ensures r.0.totalCount <= 50 * |r.2|
    ensures r.1 == StoreAfter(platforms.GetOr(Hotspots.Supported), CrawlSave(net, commitOk, cutoff, now), store)
    ensures r.2 == CrawlLogs(platforms.GetOr(Hotspots.Supported), CrawlCounts(net, commitOk))
    ensures |r.2| == |platforms.GetOr(Hotspots.Supported)| - |r.0.errors|
  {
    var names := platforms.GetOr(Hotspots.Supported);
    var counts := CrawlCounts(net, commitOk);
    var save := CrawlSave(net, commitOk, cutoff, now);
    var init := CrawlReport(true, [], 0, []);
    CrawlNamesTotal(names, counts, save, init, store, []);
    CrawlNamesErrors(names, counts, save, init, store, []);
    CrawlNamesOutput(names, counts, save, init, store, []);
    forall q ensures Seqs.Get(CrawlNames(names, counts, save, init, store, []).0.platforms, q) ==
        if q in SupportedAmong(names) then Some(PlatformReport(counts(q).0, counts(q).1, true)) else None {
      CrawlNamesEntries(names, counts, save, init, store, [], q);
    }
    CrawlNames(names, counts, save, init, store, [])
  }

  /** By default the three registered platforms are crawled, without errors. */
  lemma CrawlAllDefault(net: Hotspots.Network, commitOk: string -> bool, cutoff: int, now: int, store: TopicStore)
    ensures var r := CrawlAll(None, net, commitOk, cutoff, now, store);
      r.0.errors == [] && Seqs.KeySet(r.0.platforms) == {"weibo", "zhihu", "toutiao"} && |r.2| == 3
  {
    var names := Hotspots.Supported;
    assert CountUnsupported(names[2..]) == 0;
    assert CountUnsupported(names[1..]) == 0;
    assert SupportedAmong(names) == {"weibo", "zhihu", "toutiao"} by {
      assert names[0] == "weibo" && names[1] == "zhihu" && names[2] == "toutiao";
    }
  }

  /* ---------------- Trending keywords ---------------- */

  function ScoreKey(t: HotTopic): real {
    t.hotScore
  }

  /** The rows created at or after `cutoff`, in row order. */
  function RecentOnly(store: TopicStore, cutoff: int): (r: TopicStore)
    ensures forall j :: 0 <= j < |r| ==> r[j].createdAt >= cutoff && r[j] in store
    ensures forall t :: t in store && t.createdAt >= cutoff ==> t in r
  {
    if |store| == 0 then []
    else
      var rest := RecentOnly(store[..|store| - 1], cutoff);
      var t := store[|store| - 1];
      assert store == store[..|store| - 1] + [t];
      if t.createdAt >= cutoff then rest + [t] else rest
  }

  /** `get_hot_topics` without platform or category: recent rows by descending score, at most `limit`. */
  function HotTopics(store: TopicStore, cutoff: int, limit: nat): (r: TopicStore)
    ensures |r| == if limit <= |RecentOnly(store, cutoff)| then limit else |RecentOnly(store, cutoff)|
    ensures forall j :: 0 <= j < |r| ==> r[j].createdAt >= cutoff && r[j] in store
    ensures Sorting.SortedDesc(r, ScoreKey)
    ensures multiset(r) <= multiset(RecentOnly(store, cutoff))
  {
    var r := Sorting.Top(RecentOnly(store, cutoff), ScoreKey, limit);
    assert forall j :: 0 <= j < |r| ==> r[j] in RecentOnly(store, cutoff);
    r
  }

  /** A recent row is left out only when `limit` rows at least as hot were returned. */
  lemma HotTopicsHottest(store: TopicStore, cutoff: int, limit: nat, t: HotTopic)
    requires t in store && t.createdAt >= cutoff && t !in HotTopics(store, cutoff, limit)
    ensures |HotTopics(store, cutoff, limit)| == limit
    ensures forall j :: 0 <= j < limit ==> HotTopics(store, cutoff, limit)[j].hotScore >= t.hotScore
  {
    Sorting.TopHighest(RecentOnly(store, cutoff), ScoreKey, limit, t);
  }

  /** The stripped comma-separated keywords of a topic that are two characters or longer. */
  function LongParts(parts: seq<string>): (r: seq<string>)
    ensures forall k :: 0 <= k < |r| ==> |r[k]| >= 2
  {
    var stripped := seq(|parts|, i requires 0 <= i < |parts| => Text.Strip(parts[i]));
    Seqs.Filter(stripped, (w: string) => |w| >= 2)
  }

  function KeywordsOf(t: HotTopic): (r: seq<string>)
    ensures forall k :: 0 <= k < |r| ==> |r[k]| >= 2
  {
    if t.keywords == "" then [] else LongParts(Text.Split(t.keywords, ','))
  }

  /** Every keyword mention of the topics, in order, paired with its topic's score. */
  function Mentions(topics: seq<HotTopic>): (r: seq<(string, real)>)
    ensures forall k :: 0 <= k < |r| ==> |r[k].0| >= 2
  {
    if |topics| == 0 then []
    else
      var t := topics[|topics| - 1];
      var ks := KeywordsOf(t);
      Mentions(topics[..|topics| - 1]) + seq(|ks|, i requires 0 <= i < |ks| => (ks[i], t.hotScore))
  }

  /** How often `k` is mentioned. */
  function Occurrences(ms: seq<(string, real)>, k: string): (n: nat)
    ensures n > 0 ==> exists i :: 0 <= i < |ms| && ms[i].0 == k
  {
    if |ms| == 0 then 0
    else
      var n := Occurrences(ms[..|ms| - 1], k);
      assert forall i :: 0 <= i < |ms| - 1 ==> ms[..|ms| - 1][i] == ms[i];
      n + (if ms[|ms| - 1].0 == k then 1 else 0)
  }

  /** The summed score of the mentions of `k`. */
  function ScoreSum(ms: seq<(string, real)>, k: string): (r: real)
    ensures Occurrences(ms, k) == 0 ==> r == 0.0
  {
    if |ms| == 0 then 0.0
    else ScoreSum(ms[..|ms| - 1], k) + (if ms[|ms| - 1].0 == k then ms[|ms| - 1].1 else 0.0)
  }

  /** The figures of `k` after one more mention with score `s`. */
  function Bumped(m: seq<(string, (nat, real))>, k: string, s: real): (nat, real) {
    match Seqs.Get(m, k)
    case None => (1, s)
    case Some(v) => (v.0 + 1, v.1 + s)
  }

  /** Counts one more mention of `k` with score `s` in the insertion-ordered tally. */
  function Add(m: seq<(string, (nat, real))>, k: string, s: real): (r: seq<(string, (nat, real))>)
    ensures Seqs.DistinctKeys(m) ==> Seqs.DistinctKeys(r)
  {
    Seqs.PutKeys(m, k, Bumped(m, k, s));
    Seqs.Put(m, k, Bumped(m, k, s))
  }

  /** The `keyword_count` and `keyword_score` dictionaries, kept together. */
  function Tally(ms: seq<(string, real)>): (r: seq<(string, (nat, real))>)
    ensures Seqs.DistinctKeys(r)
  {
    if |ms| == 0 then [] else Add(Tally(ms[..|ms| - 1]), ms[|ms| - 1].0, ms[|ms| - 1].1)
  }

  /** The tally holds, for each mentioned keyword, its number of mentions and their summed score. */
  lemma {:induction false} TallyGet(ms: seq<(string, real)>, k: string)
    ensures Seqs.Get(Tally(ms), k) == if Occurrences(ms, k) == 0 then None else Some((Occurrences(ms, k), ScoreSum(ms, k)))
  {
    if |ms| > 0 {
      var init := ms[..|ms| - 1];
      var m := Tally(init);
      var (k', s) := ms[|ms| - 1];
      TallyGet(init, k);
      TallyGet(init, k');
      assert Tally(ms) == Seqs.Put(m, k', Bumped(m, k', s));
      Seqs.PutGet(m, k', Bumped(m, k', s), k);
      assert Occurrences(ms, k) == Occurrences(init, k) + (if k' == k then 1 else 0);
      assert ScoreSum(ms, k) == ScoreSum(init, k) + (if k' == k then s else 0.0);
    }
  }

  /** One entry of the result of `get_trending_keywords` (without rounding). */
  datatype TrendingKeyword = TrendingKeyword(keyword: string, count: nat, avgScore: real, totalScore: real)

  function TotalKey(t: TrendingKeyword): real {
    t.totalScore
  }

  /** `c` is the entry the tally at position `i` yields, which needs two mentions or more. */
  predicate EntryOf(tally: seq<(string, (nat, real))>, i: nat, c: TrendingKeyword)
    requires i < |tally|
  {
    tally[i].1.0 >= 2 && c == TrendingKeyword(tally[i].0, tally[i].1.0, tally[i].1.1 / tally[i].1.0 as real, tally[i].1.1)
  }

  /** The tally entries mentioned at least twice, as result entries, in tally order. */
  function Candidates(tally: seq<(string, (nat, real))>): (r: seq<TrendingKeyword>)
    ensures |r| <= |tally|
  {
    if |tally| == 0 then []
    else
      var (k, v) := tally[0];
      (if v.0 >= 2 then [TrendingKeyword(k, v.0, v.1 / v.0 as real, v.1)] else []) + Candidates(tally[1..])
  }

  /** Every candidate is the entry of some tally position. */
  lemma {:induction false} CandidatesSound(tally: seq<(string, (nat, real))>, j: nat)
    requires j < |Candidates(tally)|
    ensures exists i :: 0 <= i < |tally| && EntryOf(tally, i, Candidates(tally)[j])
  {
    var v := tally[0].1;
    var rest := Candidates(tally[1..]);
    if v.0 >= 2 && j == 0 {
      assert EntryOf(tally, 0, Candidates(tally)[0]);
    } else {
      var j' := if v.0 >= 2 then j - 1 else j;
      assert Candidates(tally)[j] == rest[j'];
      CandidatesSound(tally[1..], j');
      var i :| 0 <= i < |tally[1..]| && EntryOf(tally[1..], i, rest[j']);
      assert tally[1..][i] == tally[i + 1];
      assert EntryOf(tally, i + 1, rest[j']);
    }
  }

  /** Every tally position with two mentions or more yields a candidate. */
  lemma {:induction false} CandidatesComplete(tally: seq<(string, (nat, real))>, i: nat)
    requires i < |tally| && tally[i].1.0 >= 2
    ensures exists j :: 0 <= j < |Candidates(tally)| && EntryOf(tally, i, Candidates(tally)[j])
  {
    var v := tally[0].1;
    var rest := Candidates(tally[1..]);
    if i == 0 {
      assert EntryOf(tally, 0, Candidates(tally)[0]);
    } else {
      assert tally[1..][i - 1] == tally[i];
      CandidatesComplete(tally[1..], i - 1);
      var j :| 0 <= j < |rest| && EntryOf(tally[1..], i - 1, rest[j]);
      var j' := if v.0 >= 2 then j + 1 else j;
      assert Candidates(tally)[j'] == rest[j];
    }
  }

  /** What a trending entry means in terms of the mentions it was tallied from. */
  predicate Faithful(ms: seq<(string, real)>, c: TrendingKeyword) {
    && |c.keyword| >= 2 && c.count >= 2
    && c.count == Occurrences(ms, c.keyword) && c.totalScore == ScoreSum(ms, c.keyword)
    && c.avgScore == c.totalScore / c.count as real
  }

  /** The mentions `get_trending_keywords` aggregates: those of the 200 hottest recent topics. */
  function RecentMentions(store: TopicStore, cutoff: int): seq<(string, real)> {
    Mentions(HotTopics(store, cutoff, 200))
  }

  /**
   * `get_trending_keywords`: keywords mentioned at least twice among the 200 hottest recent
   * topics, by descending total score, at most `limit` of them.
   */
  function TrendingKeywords(store: TopicStore, cutoff: int, limit: nat): (r: seq<TrendingKeyword>)
    ensures var n := |Candidates(Tally(RecentMentions(store, cutoff)))|; |r| == if limit <= n then limit else n
    ensures Sorting.SortedDesc(r, TotalKey)
    ensures forall j :: 0 <= j < |r| ==> Faithful(RecentMentions(store, cutoff), r[j])
    ensures forall i, j :: 0 <= i < j < |r| ==> r[i].keyword != r[j].keyword
  {
    var ms := RecentMentions(store, cutoff);
    var cands := Candidates(Tally(ms));
    CandidatesMeaning(ms, cands);
    var r := Sorting.Top(cands, TotalKey, limit);
    CandidatesDistinct(Tally(ms));
    Sorting.DistinctUnder(cands, r, KeywordKey);
    r
  }

  function KeywordKey(c: TrendingKeyword): string {
    c.keyword
  }

  /** A tally with distinct keys yields candidates with distinct keywords. */
  lemma {:induction false} CandidatesDistinct(tally: seq<(string, (nat, real))>)
    requires Seqs.DistinctKeys(tally)
    ensures forall i, j :: 0 <= i < j < |Candidates(tally)| ==> Candidates(tally)[i].keyword != Candidates(tally)[j].keyword
  {
    if |tally| > 0 {
      var rest := Candidates(tally[1..]);
      assert forall i :: 0 <= i < |tally| - 1 ==> tally[1..][i] == tally[i + 1];
      CandidatesDistinct(tally[1..]);
      var c := Candidates(tally);
      if tally[0].1.0 >= 2 {
        forall j | 0 <= j < |rest| ensures rest[j].keyword != tally[0].0 {
          CandidatesSound(tally[1..], j);
          var i :| 0 <= i < |tally[1..]| && EntryOf(tally[1..], i, rest[j]);
        }
        forall i, j | 0 <= i < j < |c| ensures c[i].keyword != c[j].keyword {
          assert c[j] == rest[j - 1];
          if i > 0 {
            assert c[i] == rest[i - 1];
          }
        }
      } else {
        assert c == rest;
      }
    }
  }

  /** Each candidate's figures are its keyword's mention count and score sum. */
  lemma CandidatesMeaning(ms: seq<(string, real)>, cands: seq<TrendingKeyword>)
    requires cands == Candidates(Tally(ms))
    requires forall n :: 0 <= n < |ms| ==> |ms[n].0| >= 2
    ensures forall c :: c in cands ==> Faithful(ms, c)
  {
    var tally := Tally(ms);
    forall c | c in cands ensures Faithful(ms, c) {
      var j :| 0 <= j < |cands| && cands[j] == c;
      CandidatesSound(tally, j);
      var i :| 0 <= i < |tally| && EntryOf(tally, i, c);
      Seqs.GetAt(tally, i);
      TallyGet(ms, c.keyword);
      var n :| 0 <= n < |ms| && ms[n].0 == c.keyword;
    }
  }

  /** When the limit leaves room for all candidates, every keyword of two mentions or more is listed. */
  lemma CandidateListed(ms: seq<(string, real)>, limit: nat, k: string)
    requires Occurrences(ms, k) >= 2 && |Candidates(Tally(ms))| <= limit
    ensures exists j :: 0 <= j < |Sorting.Top(Candidates(Tally(ms)), TotalKey, limit)|
                     && Sorting.Top(Candidates(Tally(ms)), TotalKey, limit)[j].keyword == k
  {
    var tally := Tally(ms);
    var cands := Candidates(tally);
    var top := Sorting.Top(cands, TotalKey, limit);
    TallyGet(ms, k);
    var i := Seqs.IndexOfKey(tally, k);
    CandidatesComplete(tally, i);
    var j0 :| 0 <= j0 < |cands| && EntryOf(tally, i, cands[j0]);
    assert top == Sorting.SortDesc(cands, TotalKey);
    assert cands[j0] in multiset(top);
    var j :| 0 <= j < |top| && top[j] == cands[j0];
  }

  /**
   * A keyword mentioned twice or more is left out only when `limit` keywords with at least its
   * total score were listed.
   */
  lemma TrendingHottest(store: TopicStore, cutoff: int, limit: nat, k: string)
    requires Occurrences(RecentMentions(store, cutoff), k) >= 2
    requires forall j :: 0 <= j < |TrendingKeywords(store, cutoff, limit)| ==> TrendingKeywords(store, cutoff, limit)[j].keyword != k
    ensures |TrendingKeywords(store, cutoff, limit)| == limit
    ensures forall j :: 0 <= j < limit ==> TrendingKeywords(store, cutoff, limit)[j].totalScore >= ScoreSum(RecentMentions(store, cutoff), k)
  {
    var ms := RecentMentions(store, cutoff);
    assert TrendingKeywords(store, cutoff, limit) == Sorting.Top(Candidates(Tally(ms)), TotalKey, limit);
    CandidateHottest(ms, limit, k);
  }

  /** A keyword left out of the top candidates has `limit` candidates of at least its total above it. */
  lemma CandidateHottest(ms: seq<(string, real)>, limit: nat, k: string)
    requires Occurrences(ms, k) >= 2
    requires var r := Sorting.Top(Candidates(Tally(ms)), TotalKey, limit);
      forall j :: 0 <= j < |r| ==> r[j].keyword != k
    ensures var r := Sorting.Top(Candidates(Tally(ms)), TotalKey, limit);
      |r| == limit && forall j :: 0 <= j < limit ==> r[j].totalScore >= ScoreSum(ms, k)
  {
    var tally := Tally(ms);
    var cands := Candidates(tally);
    var r := Sorting.Top(cands, TotalKey, limit);
    TallyGet(ms, k);
    var i := Seqs.IndexOfKey(tally, k);
    CandidatesComplete(tally, i);
    var j0 :| 0 <= j0 < |cands| && EntryOf(tally, i, cands[j0]);
    var c := cands[j0];
    assert c.keyword == k && c.totalScore == ScoreSum(ms, k);
    assert c !in r;
    Sorting.TopHighest(cands, TotalKey, limit, c);
  }

  /** When the limit leaves room for all, every keyword mentioned twice or more is trending. */
  lemma TrendingComplete(store: TopicStore, cutoff: int, limit: nat, k: string)
    requires Occurrences(RecentMentions(store, cutoff), k) >= 2
    requires |Candidates(Tally(RecentMentions(store, cutoff)))| <= limit
    ensures exists j :: 0 <= j < |TrendingKeywords(store, cutoff, limit)| && TrendingKeywords(store, cutoff, limit)[j].keyword == k
  {
    var ms := RecentMentions(store, cutoff);
    CandidateListed(ms, limit, k);
    assert TrendingKeywords(store, cutoff, limit) == Sorting.Top(Candidates(Tally(ms)), TotalKey, limit);
  }
}

=== FILE: hotspots.dfy ===
/**
 * The hotspot crawlers: the heat score, the word-list sentiment, the post-processing of a
 * segmented title into keywords, and the lists each platform's crawler builds from the reply
 * it received. Network replies and the word segmenter are inputs.
 */
module Hotspots {
  import opened Wrappers
  import opened Models
  import Text
  import Seqs

  /* ---------------- Scoring ---------------- */

  /**
   * `calculate_hot_score` without the final rounding to two decimals: a rank part that
   * falls by 2 per place down to 0, plus an engagement part of 1 point per thousand,
   * capped at 50.
   */
  function HotScore(rank: int, engagement: int): (r: real)
    ensures rank >= 0 ==> r <= 150.0
    ensures engagement >= 0 ==> r >= 0.0
    ensures rank >= 50 ==> r <= 50.0
    ensures engagement <= 0 && rank >= 1 ==> r <= 98.0
  {
    var rankScore := if 100 - rank * 2 > 0 then 100 - rank * 2 else 0;
    var engagementScore := engagement as real / 1000.0;
    rankScore as real + (if engagementScore < 50.0 then engagementScore else 50.0)
  }

  /** A better (smaller) rank and more engagement never lower the score. */
  lemma HotScoreMonotone(rank1: int, rank2: int, engagement1: int, engagement2: int)
    requires rank1 <= rank2 && engagement2 <= engagement1
    ensures HotScore(rank2, engagement2) <= HotScore(rank1, engagement1)
  {
  }

  /** Without engagement, the first fifty places score 100 - 2 * rank exactly. */
  lemma HotScoreOfRank(rank: int)
    requires 0 <= rank <= 50
    ensures HotScore(rank, 0) == (100 - 2 * rank) as real
  {
  }

  /* ---------------- Sentiment ---------------- */

  const PositiveWords: seq<string> := ["好", "棒", "赞", "优秀", "成功", "胜利", "开心", "快乐", "喜欢", "爱"]
  const NegativeWords: seq<string> := ["坏", "差", "糟", "失败", "难过", "生气", "讨厌", "恨", "问题", "错误"]

  /** How many of `words` occur in `text` as substrings, each counted once. */
  function CountPresent(words: seq<string>, text: string): (n: nat)
    ensures n <= |words|
    ensures n > 0 <==> exists i :: 0 <= i < |words| && Text.Contains(text, words[i])
  {
    if |words| == 0 then 0
    else
      assert forall i :: 0 < i < |words| ==> words[1..][i - 1] == words[i];
      (if Text.Contains(text, words[0]) then 1 else 0) + CountPresent(words[1..], text)
  }

  /**
   * `analyze_sentiment`: positive when more positive than negative words occur, negative
   * when more negative ones do, neutral on a tie.
   */
  function AnalyzeSentiment(text: string): (r: Sentiment)
    ensures r == Positive <==> CountPresent(PositiveWords, text) > CountPresent(NegativeWords, text)
    ensures r == Negative <==> CountPresent(NegativeWords, text) > CountPresent(PositiveWords, text)
  {
    var pos := CountPresent(PositiveWords, text);
    var neg := CountPresent(NegativeWords, text);
    if pos > neg then Positive else if neg > pos then Negative else Neutral
  }

  /** A text holding none of the listed words is neutral. */
  lemma NeutralWithoutListedWords(text: string)
    requires forall i :: 0 <= i < |PositiveWords| ==> !Text.Contains(text, PositiveWords[i])
    requires forall i :: 0 <= i < |NegativeWords| ==> !Text.Contains(text, NegativeWords[i])
    ensures AnalyzeSentiment(text) == Neutral
  {
  }

  /** A text holding a positive word and no negative word is positive. */
  lemma PositiveWithoutNegativeWords(text: string, i: nat)
    requires i < |PositiveWords| && Text.Contains(text, PositiveWords[i])
    requires forall j :: 0 <= j < |NegativeWords| ==> !Text.Contains(text, NegativeWords[j])
    ensures AnalyzeSentiment(text) == Positive
  {
  }

  /* ---------------- Keywords ---------------- */

  /** The words `extract_keywords` keeps: two characters or more, all alphanumeric. */
  predicate Keepable(w: string) {
    |w| >= 2 && Text.IsAlnum(w)
  }

  function KeepableOnly(words: seq<string>): (r: seq<string>)
    ensures forall k :: 0 <= k < |r| ==> Keepable(r[k]) && r[k] in words
    ensures forall w :: w in words && Keepable(w) ==> w in r
    ensures |r| <= |words|
  {
    if |words| == 0 then []
    else
      var rest := KeepableOnly(words[..|words| - 1]);
      var w := words[|words| - 1];
      assert words == words[..|words| - 1] + [w];
      if Keepable(w) then rest + [w] else rest
  }

  /** `list(dict.fromkeys(xs))`: each element once, at the place of its first occurrence. */
  function Dedupe(xs: seq<string>): (r: seq<string>)
    ensures forall i, j :: 0 <= i < j < |r| ==> r[i] != r[j]
    ensures forall x :: x in r <==> x in xs
    ensures |r| <= |xs|
  {
    if |xs| == 0 then []
    else
      var d := Dedupe(xs[..|xs| - 1]);
      var x := xs[|xs| - 1];
      assert xs == xs[..|xs| - 1] + [x];
      if x in d then d else d + [x]
  }

  /** The keywords of a segmented text, before joining: kept, deduplicated, at most `maxKeywords`. */
  function KeywordList(words: seq<string>, maxKeywords: nat): (r: seq<string>)
    ensures |r| <= maxKeywords
    ensures forall k :: 0 <= k < |r| ==> Keepable(r[k]) && r[k] in words
    ensures forall i, j :: 0 <= i < j < |r| ==> r[i] != r[j]
    ensures r == Seqs.Take(Dedupe(KeepableOnly(words)), maxKeywords)
  {
    var d := Dedupe(KeepableOnly(words));
    var r := Seqs.Take(d, maxKeywords);
    assert forall k :: 0 <= k < |r| ==> r[k] == d[k] && r[k] in d;
    r
  }

  /** The kept words appear in the order of their first occurrences among all the words. */
  lemma {:induction false} KeepableOnlyOrder(words: seq<string>, x: string, y: string)
    requires x in KeepableOnly(words) && y in KeepableOnly(words)
    requires Seqs.FirstIndex(KeepableOnly(words), x) < Seqs.FirstIndex(KeepableOnly(words), y)
    ensures Seqs.FirstIndex(words, x) < Seqs.FirstIndex(words, y)
  {
    var n := |words| - 1;
    var init := words[..n];
    var w := words[n];
    var k := KeepableOnly(words);
    var k' := KeepableOnly(init);
    assert words == init + [w];
    assert k == if Keepable(w) then k' + [w] else k';
    assert k'[..|k'|] == k';
    if y in k' {
      assert x in k';
      Seqs.FirstIndexPrefix(k, |k'|, x);
      Seqs.FirstIndexPrefix(k, |k'|, y);
      KeepableOnlyOrder(init, x, y);
      Seqs.FirstIndexPrefix(words, n, x);
      Seqs.FirstIndexPrefix(words, n, y);
    } else {
      assert y == w && y !in init;
      assert x in k';
      Seqs.FirstIndexPrefix(words, n, x);
    }
  }

  /** `dict.fromkeys` keeps each element at the place of its first occurrence. */
  lemma {:induction false} DedupeOrder(xs: seq<string>, i: nat, j: nat)
    requires i < j < |Dedupe(xs)|
    ensures Seqs.FirstIndex(xs, Dedupe(xs)[i]) < Seqs.FirstIndex(xs, Dedupe(xs)[j])
  {
    var n := |xs| - 1;
    var init := xs[..n];
    var d := Dedupe(init);
    var r := Dedupe(xs);
    assert xs == init + [xs[n]];
    assert r == if xs[n] in d then d else d + [xs[n]];
    assert r[i] == d[i] && d[i] in init;
    Seqs.FirstIndexPrefix(xs, n, d[i]);
    if j < |d| {
      assert r[j] == d[j] && d[j] in init;
      DedupeOrder(init, i, j);
      Seqs.FirstIndexPrefix(xs, n, d[j]);
    } else {
      assert r[j] == xs[n] && xs[n] !in init;
    }
  }

  /**
   * The keywords keep the order of their first occurrences in the segmentation, and a keepable
   * word is left out only when the limit is already filled by words that occur before it.
   */
  lemma KeywordListOrder(words: seq<string>, maxKeywords: nat)
    ensures var r := KeywordList(words, maxKeywords);
      && (forall i, j :: 0 <= i < j < |r| ==> Seqs.FirstIndex(words, r[i]) < Seqs.FirstIndex(words, r[j]))
      && (forall w :: w in words && Keepable(w) && w !in r ==>
            |r| == maxKeywords && forall k :: 0 <= k < |r| ==> Seqs.FirstIndex(words, r[k]) < Seqs.FirstIndex(words, w))
  {
    var kept := KeepableOnly(words);
    var d := Dedupe(kept);
    var r := KeywordList(words, maxKeywords);
    assert r == Seqs.Take(d, maxKeywords);
    assert |r| <= |d| && forall k :: 0 <= k < |r| ==> r[k] == d[k];
    forall i, j | 0 <= i < j < |r| ensures Seqs.FirstIndex(words, r[i]) < Seqs.FirstIndex(words, r[j]) {
      DedupeOrder(kept, i, j);
      KeepableOnlyOrder(words, r[i], r[j]);
    }
    forall w | w in words && Keepable(w) && w !in r
      ensures |r| == maxKeywords && forall k :: 0 <= k < |r| ==> Seqs.FirstIndex(words, r[k]) < Seqs.FirstIndex(words, w)
    {
      var m :| 0 <= m < |d| && d[m] == w;
      assert m >= maxKeywords;
      forall k | 0 <= k < |r| ensures Seqs.FirstIndex(words, r[k]) < Seqs.FirstIndex(words, w) {
        DedupeOrder(kept, k, m);
        KeepableOnlyOrder(words, d[k], d[m]);
      }
    }
  }

  /** When there is room for all of them, every keepable word is a keyword. */
  lemma KeywordListComplete(words: seq<string>, maxKeywords: nat, w: string)
    requires |Dedupe(KeepableOnly(words))| <= maxKeywords
    requires w in words && Keepable(w)
    ensures w in KeywordList(words, maxKeywords)
  {
  }

  /**
   * `extract_keywords` after segmentation: `words` is the segmenter's output, or `None` when
   * it raised, which yields the empty text.
   */
  function ExtractKeywords(words: Option<seq<string>>, maxKeywords: nat): (r: string)
    ensures words.None? ==> r == ""
    ensures words.Some? ==> r == Text.Join(KeywordList(words.value, maxKeywords), ',')
  {
    match words
    case None => ""
    case Some(ws) => Text.Join(KeywordList(ws, maxKeywords), ',')
  }

  /** Splitting the keyword text at commas gives back the keyword list. */
  lemma ExtractKeywordsSplit(words: seq<string>, maxKeywords: nat)
    requires |KeywordList(words, maxKeywords)| >= 1
    ensures Text.Split(ExtractKeywords(Some(words), maxKeywords), ',') == KeywordList(words, maxKeywords)
  {
    var parts := KeywordList(words, maxKeywords);
    forall i | 0 <= i < |parts| ensures Text.Free(parts[i], ',') {
      assert Keepable(parts[i]);
    }
    Text.SplitJoin(parts, ',');
  }

  /* ---------------- Listings ---------------- */

  /** One hotspot as a crawler reports it, before it is saved. */
  datatype Hotspot = Hotspot(
    platform: string,
    title: string,
    description: string,
    keywords: string,
    hotScore: real,
    rankPosition: int,
    category: string,
    sentiment: Sentiment,
    engagementCount: int)

  /** A per-item builder that sets the rank it is given (or skips the item). */
  ghost predicate RankKeeping<I(!new)>(build: (I, nat) -> Option<Hotspot>) {
    forall x, p :: build(x, p).Some? ==> build(x, p).value.rankPosition == p
  }

  /**
   * The loop shared by the list-building crawlers: item `i` (counting from `from`) is offered
   * to `build` with rank `i + 1`; skipped items leave a gap in the ranks.
   */
  function Listing<I(!new)>(items: seq<I>, from: nat, build: (I, nat) -> Option<Hotspot>): (r: seq<Hotspot>)
    requires from <= |items| && RankKeeping(build)
    ensures |r| <= |items| - from
    ensures forall k :: 0 <= k < |r| ==>
      && from + 1 <= r[k].rankPosition <= |items|
      && build(items[r[k].rankPosition - 1], r[k].rankPosition) == Some(r[k])
    ensures forall k, l :: 0 <= k < l < |r| ==> r[k].rankPosition < r[l].rankPosition
    decreases |items| - from
  {
    if from == |items| then []
    else
      var rest := Listing(items, from + 1, build);
      match build(items[from], from + 1)
      case None => rest
      case Some(h) => [h] + rest
  }

  /** Every item the builder accepts appears in the listing. */
  lemma {:induction false} ListingComplete<I(!new)>(items: seq<I>, from: nat, build: (I, nat) -> Option<Hotspot>, j: nat)
    requires from <= j < |items| && RankKeeping(build)
    requires build(items[j], j + 1).Some?
    ensures build(items[j], j + 1).value in Listing(items, from, build)
    decreases j - from
  {
    var rest := Listing(items, from + 1, build);
    if from < j {
      ListingComplete(items, from + 1, build, j);
      match build(items[from], from + 1)
      case None => assert Listing(items, from, build) == rest;
      case Some(h) => assert Listing(items, from, build) == [h] + rest;
    } else {
      var h := build(items[from], from + 1).value;
      assert Listing(items, from, build) == [h] + rest;
    }
  }

  /** A builder that accepts nothing lists nothing. */
  lemma {:induction false} ListingEmpty<I(!new)>(items: seq<I>, from: nat, build: (I, nat) -> Option<Hotspot>)
    requires from <= |items| && RankKeeping(build)
    requires forall x, p :: build(x, p).None?
    ensures Listing(items, from, build) == []
    decreases |items| - from
  {
    if from < |items| {
      ListingEmpty(items, from + 1, build);
    }
  }

  /** The word segmenter `jieba.lcut`, which may raise. */
  type Segmenter = string -> Option<seq<string>>

  /**
   * One entry of Weibo's `realtime` list; absent keys are `None`. A JSON `null` is also `None`,
   * which for `num` is scored as 0, whereas Python's `None / 1000` raises and skips the item.
   */
  datatype WeiboItem = WeiboItem(word: Option<string>, num: Option<int>, note: Option<string>, category: Option<string>)

  /**
   * Weibo's reply: `NoReply` for a failed request or a status other than 200; otherwise
   * whether `ok` is 1 and `data` is present, and the `realtime` list (empty when absent).
   */
  datatype WeiboReply = NoReply | WeiboBody(okWithData: bool, realtime: seq<WeiboItem>)

  /** Builds the Weibo hotspot of one entry, skipping entries whose stripped word is empty. */
  function WeiboBuild(item: WeiboItem, rank: nat, segment: Segmenter): (r: Option<Hotspot>)
    ensures r.Some? <==> Text.Strip(item.word.GetOr("")) != ""
    ensures r.Some? ==> r.value.platform == "weibo" && r.value.rankPosition == rank
    ensures r.Some? ==> r.value.title == Text.Strip(item.word.GetOr("")) && r.value.title != ""
    ensures r.Some? ==> r.value.hotScore == HotScore(rank, item.num.GetOr(0))
  {
    var title := Text.Strip(item.word.GetOr(""));
    if title == "" then None
    else
      var engagement := item.num.GetOr(0);
      Some(Hotspot("weibo", title, item.note.GetOr(""), ExtractKeywords(segment(title), 10),
                   HotScore(rank, engagement), rank, item.category.GetOr("综合"),
                   AnalyzeSentiment(title), engagement))
  }

  function WeiboBuilder(segment: Segmenter): (b: (WeiboItem, nat) -> Option<Hotspot>)
    ensures RankKeeping(b)
    ensures forall x, p :: b(x, p) == WeiboBuild(x, p, segment)
  {
    (x: WeiboItem, p: nat) => WeiboBuild(x, p, segment)
  }

  /** `WeiboHotspotCrawler.crawl_hotspots`: the first 50 entries with a non-empty word. */
  function WeiboHotspots(reply: WeiboReply, segment: Segmenter): (r: seq<Hotspot>)
    ensures |r| <= 50
    ensures reply.NoReply? || (reply.WeiboBody? && !reply.okWithData) ==> r == []
    ensures forall k :: 0 <= k < |r| ==>
      r[k].platform == "weibo" && 1 <= r[k].rankPosition <= 50 && r[k].title != ""
    ensures forall k, l :: 0 <= k < l < |r| ==> r[k].rankPosition < r[l].rankPosition
  {
    match reply
    case NoReply => []
    case WeiboBody(ok, realtime) =>
      if !ok then []
      else
        var items := Seqs.Take(realtime, 50);
        WeiboListingFacts(items, segment);
        Listing(items, 0, WeiboBuilder(segment))
  }

  lemma WeiboListingFacts(items: seq<WeiboItem>, segment: Segmenter)
    requires |items| <= 50
    ensures var r := Listing(items, 0, WeiboBuilder(segment));
      forall k :: 0 <= k < |r| ==> r[k].platform == "weibo" && 1 <= r[k].rankPosition <= 50 && r[k].title != ""
  {
    var build := WeiboBuilder(segment);
    var r := Listing(items, 0, build);
    forall k | 0 <= k < |r| ensures r[k].platform == "weibo" && 1 <= r[k].rankPosition <= 50 && r[k].title != "" {
      var p := r[k].rankPosition;
      assert build(items[p - 1], p) == Some(r[k]);
      assert WeiboBuild(items[p - 1], p, segment) == Some(r[k]);
    }
  }

  /** Among the first 50 entries, each with a non-empty stripped word is listed at rank `j + 1`. */
  lemma WeiboListsEveryTitled(realtime: seq<WeiboItem>, segment: Segmenter, j: nat)
    requires j < |realtime| && j < 50
    requires Text.Strip(realtime[j].word.GetOr("")) != ""
    ensures WeiboBuild(realtime[j], j + 1, segment).value in WeiboHotspots(WeiboBody(true, realtime), segment)
  {
    var build := WeiboBuilder(segment);
    var items := Seqs.Take(realtime, 50);
    assert items[j] == realtime[j];
    ListingComplete(items, 0, build, j);
  }

  /** One entry of Zhihu's `data` list: the target's title and excerpt, and `detail_text`. */
  datatype ZhihuItem = ZhihuItem(title: Option<string>, excerpt: Option<string>, detailText: Option<string>)

  datatype ZhihuReply = ZhihuNoReply | ZhihuBody(hasData: bool, data: seq<ZhihuItem>)

  /** An engagement argument as Python receives it: a number, or a string such as `detail_text`. */
  datatype EngagementArg = Number(n: int) | Characters(s: string)

  /** `calculate_hot_score` as Python evaluates it: a string engagement raises on `/ 1000`. */
  function HotScoreOf(rank: int, engagement: EngagementArg): (r: Result<real>)
    ensures engagement.Number? ==> r == Ok(HotScore(rank, engagement.n))
    ensures engagement.Characters? ==> r.Raises?
  {
    match engagement
    case Number(n) => Ok(HotScore(rank, n))
    case Characters(_) => Raises("unsupported operand type(s) for /: 'str' and 'int'")
  }

  /**
   * The Zhihu entry builder as written: it passes `detail_text` (a string, `''` when absent)
   * as the engagement, so every entry with a title raises and is skipped.
   */
  function ZhihuBuildAsWritten(item: ZhihuItem, rank: nat, segment: Segmenter): (r: Option<Hotspot>)
    ensures r.Some? ==> r.value.rankPosition == rank
  {
    var title := Text.Strip(item.title.GetOr(""));
    if title == "" then None
    else
      var excerpt := item.excerpt.GetOr("");
      match HotScoreOf(rank, Characters(item.detailText.GetOr("")))
      case Raises(_) => None
      case Ok(score) =>
        Some(Hotspot("zhihu", title, Seqs.Take(excerpt, 200), ExtractKeywords(segment(title + " " + excerpt), 10),
                     score, rank, "知识", AnalyzeSentiment(title + " " + excerpt), 0))
  }

  function ZhihuBuilderAsWritten(segment: Segmenter): (b: (ZhihuItem, nat) -> Option<Hotspot>)
    ensures RankKeeping(b)
    ensures forall x, p :: b(x, p) == ZhihuBuildAsWritten(x, p, segment)
  {
    (x: ZhihuItem, p: nat) => ZhihuBuildAsWritten(x, p, segment)
  }

  /** `ZhihuHotspotCrawler.crawl_hotspots` as written. */
  function ZhihuHotspotsAsWritten(reply: ZhihuReply, segment: Segmenter): (r: seq<Hotspot>)
    ensures |r| <= 50
  {
    match reply
    case ZhihuNoReply => []
    case ZhihuBody(hasData, data) =>
      if !hasData then [] else Listing(Seqs.Take(data, 50), 0, ZhihuBuilderAsWritten(segment))
  }

  /** As written, the Zhihu crawler never reports anything, whatever the reply. */
  lemma ZhihuAsWrittenIsEmpty(reply: ZhihuReply, segment: Segmenter)
    ensures ZhihuHotspotsAsWritten(reply, segment) == []
  {
    if reply.ZhihuBody? && reply.hasData {
      ListingEmpty(Seqs.Take(reply.data, 50), 0, ZhihuBuilderAsWritten(segment));
    }
  }

  /**
   * The intended Zhihu entry builder: the score uses engagement 0, matching the
   * `engagement_count` of 0 the entry is stored with.
   */
  function ZhihuBuild(item: ZhihuItem, rank: nat, segment: Segmenter): (r: Option<Hotspot>)
    ensures r.Some? <==> Text.Strip(item.title.GetOr("")) != ""
    ensures r.Some? ==> r.value.platform == "zhihu" && r.value.rankPosition == rank
    ensures r.Some? ==> r.value.hotScore == HotScore(rank, 0)
    ensures r.Some? ==> |r.value.description| <= 200 && r.value.engagementCount == 0
  {
    var title := Text.Strip(item.title.GetOr(""));
    if title == "" then None
    else
      var excerpt := item.excerpt.GetOr("");
      Some(Hotspot("zhihu", title, Seqs.Take(excerpt, 200), ExtractKeywords(segment(title + " " + excerpt), 10),
                   HotScore(rank, 0), rank, "知识", AnalyzeSentiment(title + " " + excerpt), 0))
  }

  function ZhihuBuilder(segment: Segmenter): (b: (ZhihuItem, nat) -> Option<Hotspot>)
    ensures RankKeeping(b)
    ensures forall x, p :: b(x, p) == ZhihuBuild(x, p, segment)
  {
    (x: ZhihuItem, p: nat) => ZhihuBuild(x, p, segment)
  }

  /** The corrected Zhihu crawler. */
  function ZhihuHotspots(reply: ZhihuReply, segment: Segmenter): (r: seq<Hotspot>)
    ensures |r| <= 50
    ensures forall k :: 0 <= k < |r| ==>
      r[k].platform == "zhihu" && 1 <= r[k].rankPosition <= 50 && r[k].hotScore == HotScore(r[k].rankPosition, 0)
  {
    match reply
    case ZhihuNoReply => []
    case ZhihuBody(hasData, data) =>
      if !hasData then []
      else
        var build := ZhihuBuilder(segment);
        var items := Seqs.Take(data, 50);
        var r := Listing(items, 0, build);
        assert forall k :: 0 <= k < |r| ==> build(items[r[k].rankPosition - 1], r[k].rankPosition) == Some(r[k]);
        r
  }

  /** Corrected, every titled entry among the first 50 is listed at its rank. */
  lemma ZhihuListsEveryTitled(data: seq<ZhihuItem>, segment: Segmenter, j: nat)
    requires j < |data| && j < 50
    requires Text.Strip(data[j].title.GetOr("")) != ""
    ensures ZhihuBuild(data[j], j + 1, segment).value in ZhihuHotspots(ZhihuBody(true, data), segment)
  {
    var build := ZhihuBuilder(segment);
    var items := Seqs.Take(data, 50);
    assert items[j] == data[j];
    ListingComplete(items, 0, build, j);
  }

  const ToutiaoTopics: seq<string> := ["科技创新推动经济发展", "教育改革新政策发布", "环保技术取得新突破", "文化产业迎来新机遇", "健康生活方式受关注"]

  /** `ToutiaoHotspotCrawler.crawl_hotspots`: five fixed positive topics. */
  function ToutiaoHotspots(segment: Segmenter): (r: seq<Hotspot>)
    ensures |r| == 5
    ensures forall i :: 0 <= i < 5 ==>
      && r[i].title == ToutiaoTopics[i] && r[i].rankPosition == i + 1
      && r[i].engagementCount == 1000 - 100 * i
      && r[i].hotScore == (98 - 2 * i) as real
      && r[i].sentiment == Positive && r[i].platform == "toutiao"
  {
    seq(5, i requires 0 <= i < 5 =>
      var topic := ToutiaoTopics[i];
      Hotspot("toutiao", topic, topic + "相关讨论热度持续上升", ExtractKeywords(segment(topic), 10),
              HotScore(i + 1, 0), i + 1, "综合", Positive, 1000 - i * 100))
  }

  /** What each crawler receives from the network and the segmenter. */
  datatype Network = Network(weibo: WeiboReply, zhihu: ZhihuReply, segment: Segmenter)

  const Supported: seq<string> := ["weibo", "zhihu", "toutiao"]

  /**
   * The crawler registered under `platform`, run against `net`. For "zhihu" this is the corrected
   * `ZhihuHotspots`; the registered crawler as written is `ZhihuHotspotsAsWritten`, which never
   * lists anything (`ZhihuAsWrittenIsEmpty`).
   */
  function Crawl(platform: string, net: Network): (r: seq<Hotspot>)
    requires platform in Supported
    ensures |r| <= 50
    ensures forall k :: 0 <= k < |r| ==> r[k].platform == platform
  {
    if platform == "weibo" then WeiboHotspots(net.weibo, net.segment)
    else if platform == "zhihu" then ZhihuHotspots(net.zhihu, net.segment)
    else ToutiaoHotspots(net.segment)
  }
}

=== FILE: http_layer.dfy ===
/**
 * The logic inside the HTTP endpoints: server-sent-event framing of the generation streams
 * (always closed by a `[DONE]` event), the mapping of generation results to responses, the
 * draft word count, the pagination of publish records and the publish statistics.
 * JSON encoding and the date formatting of timestamps are inputs.
 */
module HttpLayer {
  import opened Wrappers
  import opened Models
  import opened Streams
  import Seqs
  import Sorting
  import Providers
  import Facade
  import Publisher

  /* ---------------- Server-sent events ---------------- */

  /** One event as the stream generators write it. */
  function Event(payload: string): string {
    Providers.DataPrefix + payload + "\n\n"
  }

  /** The payload of a framed event, if `e` is one. */
  function Unframe(e: string): Option<string> {
    if |e| >= 8 && e[..6] == Providers.DataPrefix && e[|e| - 2..] == "\n\n" then Some(e[6..|e| - 2]) else None
  }

  /** Framing loses nothing: the payload can be read back from the event. */
  lemma UnframeEvent(payload: string)
    ensures Unframe(Event(payload)) == Some(payload)
  {
    var e := Event(payload);
    assert e[..6] == Providers.DataPrefix;
    assert e[6..|e| - 2] == payload;
    assert e[|e| - 2..] == "\n\n";
  }

  const Done := Event("[DONE]")

  /** The events of `/api/content/generate/stream`: one per facade chunk, then `[DONE]`. */
  function GenerateStream(chunks: seq<Chunk>, encode: Chunk -> string): (r: seq<string>)
    ensures |r| == |chunks| + 1 && r[|chunks|] == Done
    ensures forall i :: 0 <= i < |chunks| ==> Unframe(r[i]) == Some(encode(chunks[i]))
    ensures (forall i :: 0 <= i < |chunks| ==> encode(chunks[i]) != "[DONE]") ==>
      forall i :: 0 <= i < |chunks| ==> r[i] != Done
  {
    var r := seq(|chunks|, i requires 0 <= i < |chunks| => Event(encode(chunks[i]))) + [Done];
    forall i | 0 <= i < |chunks| ensures Unframe(r[i]) == Some(encode(chunks[i])) {
      UnframeEvent(encode(chunks[i]));
    }
    UnframeEvent("[DONE]");
    r
  }

  /** The payload the comprehensive and rewrite streams write for one chunk. */
  function Unified(c: Chunk, encode: Chunk -> string, encodeError: string -> string): string {
    if c.Error? then encodeError(c.error) else encode(c)
  }

  /**
   * The events of the comprehensive and rewrite streams: an error chunk becomes
   * `{"error": ...}`, an exception raised while iterating (`raised`) one more error event,
   * and `[DONE]` is written last in every case.
   */
  function UnifiedStream(chunks: seq<Chunk>, raised: Option<string>, encode: Chunk -> string,
                         encodeError: string -> string): (r: seq<string>)
    ensures |r| == |chunks| + (if raised.Some? then 1 else 0) + 1
    ensures r[|r| - 1] == Done
    ensures forall i :: 0 <= i < |chunks| ==> Unframe(r[i]) == Some(Unified(chunks[i], encode, encodeError))
    ensures raised.Some? ==> Unframe(r[|chunks|]) == Some(encodeError(raised.value))
  {
    var body := seq(|chunks|, i requires 0 <= i < |chunks| => Event(Unified(chunks[i], encode, encodeError)));
    var tail := if raised.Some? then [Event(encodeError(raised.value))] else [];
    forall i | 0 <= i < |chunks| ensures Unframe(body[i]) == Some(Unified(chunks[i], encode, encodeError)) {
      UnframeEvent(Unified(chunks[i], encode, encodeError));
    }
    if raised.Some? then UnframeEvent(encodeError(raised.value)); body + tail + [Done]
    else body + tail + [Done]
  }

  /** Without a model, the unified stream is one error event and `[DONE]`. */
  lemma UnifiedStreamWithoutModel(ledger: Facade.Ledger, configId: Option<int>, prompt: string, chunks: seq<Chunk>,
                                  encode: Chunk -> string, encodeError: string -> string)
    requires Facade.GetModel(ledger.configs, configId).None?
    ensures UnifiedStream(Facade.StreamContent(ledger, configId, prompt, chunks).0, None, encode, encodeError)
         == [Event(encodeError(Facade.NoModelError)), Done]
  {
  }

  /* ---------------- Endpoint results ---------------- */

  /** An endpoint's answer: an HTTP error with its detail, or a 200 body. */
  datatype Response<T> = HttpError(status: int, detail: string) | Body(body: T)

  datatype GenerateBody = GenerateBody(content: string, usage: Usage, model: Option<string>)

  /** `/api/content/generate`: a failed generation is a 400 carrying the error text. */
  function GenerateEndpoint(result: GenerationResult): (r: Response<GenerateBody>)
    ensures r.Body? <==> result.Generated?
    ensures result.Failed? ==> r == HttpError(400, result.error)
    ensures result.Generated? ==> r.body.content == result.content && r.body.usage == result.usage
  {
    match result
    case Generated(content, usage, model) => Body(GenerateBody(content, usage, model))
    case Failed(error) => HttpError(400, error)
  }

  /** With no usable model the generate endpoint answers 400 with the facade's message. */
  lemma GenerateEndpointWithoutModel(ledger: Facade.Ledger, configId: Option<int>, prompt: string,
                                     call: (Facade.ClientKind, AIModelConfig) -> GenerationResult)
    requires Facade.GetModel(ledger.configs, configId).None?
    ensures GenerateEndpoint(Facade.GenerateContent(ledger, configId, prompt, call).0) == HttpError(400, Facade.NoModelError)
  {
  }

  /** The body of the one-shot comprehensive and rewrite endpoints. */
  datatype OneShotBody = OneShotBody(content: Option<string>, usage: Usage, success: bool)

  /**
   * `/api/content/comprehensive` and `/api/content/rewrite`: `success` is always true; a failed
   * generation shows only as a missing content and an empty usage.
   */
  function OneShot(result: GenerationResult): (r: OneShotBody)
    ensures r.success
    ensures r.content.Some? <==> result.Generated?
    ensures result.Generated? ==> r.content == Some(result.content) && r.usage == result.usage
    ensures result.Failed? ==> r.usage == NoUsage
  {
    match result
    case Generated(content, usage, _) => OneShotBody(Some(content), usage, true)
    case Failed(_) => OneShotBody(None, NoUsage, true)
  }

  /** A generation the generate endpoint refuses with 400 is reported as a success by the one-shot ones. */
  lemma OneShotHidesFailures(result: GenerationResult)
    requires GenerateEndpoint(result).HttpError?
    ensures OneShot(result).success && OneShot(result).content.None?
  {
  }

  /* ---------------- Drafts ---------------- */

  /** `len(content or "")`. */
  function WordCount(content: Option<string>): nat {
    |content.GetOr("")|
  }

  /** The stored word count agrees with the stored content. */
  predicate Counted(d: ContentDraft) {
    d.wordCount == WordCount(d.content)
  }

  datatype DraftRequest = DraftRequest(
    title: string, content: Option<string>, outline: Option<string>, tags: Option<string>,
    category: Option<string>, platformType: Option<string>)

  /** `create_draft`: the row stored for a request, under the id the table assigns. */
  function CreateDraft(id: int, req: DraftRequest): (d: ContentDraft)
    ensures Counted(d)
    ensures d.id == id && d.title == req.title && d.content == req.content
    ensures d.status == "draft" && d.version == 1 && !d.aiGenerated
  {
    NewDraft(id, req.title, req.content, req.outline, req.tags, req.category, req.platformType)
      .(wordCount := WordCount(req.content))
  }

  /**
   * The body of an update (`exclude_unset`): the title is required, as the request model's `title: str`
   * makes it, and each optional field is either unset or set, possibly to null.
   */
  datatype DraftPatch = DraftPatch(
    title: string, content: Option<Option<string>>, outline: Option<Option<string>>,
    tags: Option<Option<string>>, category: Option<Option<string>>, platformType: Option<Option<string>>)

  datatype DraftUpdate = DraftNotFound | DraftUpdated(draft: ContentDraft)

  function Patched(d: ContentDraft, p: DraftPatch): ContentDraft {
    var d1 := d.(title := p.title, content := p.content.GetOr(d.content),
                 outline := p.outline.GetOr(d.outline), tags := p.tags.GetOr(d.tags),
                 category := p.category.GetOr(d.category), platformType := p.platformType.GetOr(d.platformType));
    d1.(wordCount := WordCount(d1.content))
  }

  /**
   * `update_draft`: 404 for an unknown id; otherwise the set fields are written and the word
   * count is recomputed from the resulting content, whether or not the content was set.
   */
  function UpdateDraft(drafts: seq<ContentDraft>, id: int, p: DraftPatch): (r: (DraftUpdate, seq<ContentDraft>))
    ensures r.0.DraftNotFound? <==> forall j :: 0 <= j < |drafts| ==> drafts[j].id != id
    ensures r.0.DraftNotFound? ==> r.1 == drafts
    ensures r.0.DraftUpdated? ==>
      var k := Publisher.FindDraft(drafts, id).value;
      var d := r.0.draft;
      && r.1 == drafts[k := d]
      && Counted(d)
      && d.id == id && d.status == drafts[k].status && d.version == drafts[k].version
      && d.aiGenerated == drafts[k].aiGenerated
      && d.content == (if p.content.Some? then p.content.value else drafts[k].content)
      && d.title == p.title
      && d.outline == (if p.outline.Some? then p.outline.value else drafts[k].outline)
      && d.tags == (if p.tags.Some? then p.tags.value else drafts[k].tags)
      && d.category == (if p.category.Some? then p.category.value else drafts[k].category)
      && d.platformType == (if p.platformType.Some? then p.platformType.value else drafts[k].platformType)
  {
    match Publisher.FindDraft(drafts, id)
    case None => (DraftNotFound, drafts)
    case Some(k) =>
      var d := Patched(drafts[k], p);
      (DraftUpdated(d), drafts[k := d])
  }

  /** Sending the same update twice changes nothing the second time. */
  lemma UpdateDraftIdempotent(drafts: seq<ContentDraft>, id: int, p: DraftPatch)
    ensures var once := UpdateDraft(drafts, id, p);
      UpdateDraft(once.1, id, p) == once
  {
    var once := UpdateDraft(drafts, id, p);
    var found := Publisher.FindDraft(drafts, id);
    if found.Some? {
      var k := found.value;
      var d := Patched(drafts[k], p);
      assert once == (DraftUpdated(d), drafts[k := d]);
      forall j | 0 <= j < k ensures once.1[j].id != id {
        FirstDraftBefore(drafts, id, j);
      }
      FirstDraftUnique(once.1, id, k);
      assert once.1[k] == d;
      assert Patched(d, p) == d;
      assert once.1[k := d] == once.1;
    }
  }

  /** No draft before the first one with `id` has that id. */
  lemma {:induction false} FirstDraftBefore(drafts: seq<ContentDraft>, id: int, j: nat)
    requires Publisher.FindDraft(drafts, id).Some? && j < Publisher.FindDraft(drafts, id).value
    ensures drafts[j].id != id
  {
    if j > 0 {
      assert drafts[1..][j - 1] == drafts[j];
      FirstDraftBefore(drafts[1..], id, j - 1);
    }
  }

  /** The draft at `k` with `id`, with none before it, is the one found. */
  lemma {:induction false} FirstDraftUnique(drafts: seq<ContentDraft>, id: int, k: nat)
    requires k < |drafts| && drafts[k].id == id
    requires forall j :: 0 <= j < k ==> drafts[j].id != id
    ensures Publisher.FindDraft(drafts, id) == Some(k)
  {
    if k > 0 {
      assert forall j :: 0 <= j < k - 1 ==> drafts[1..][j] == drafts[j + 1];
      FirstDraftUnique(drafts[1..], id, k - 1);
    }
  }

  /* ---------------- Publish records ---------------- */

  /** The filter of `get_publish_records`: a falsy `draft_id` (None or 0) or platform (None or "") is ignored. */
  predicate Selected(r: PublishRecord, draftId: Option<int>, platform: Option<string>) {
    && (draftId.None? || draftId.value == 0 || r.draftId == draftId.value)
    && (platform.None? || platform.value == "" || r.platform == platform.value)
  }

  function Selector(draftId: Option<int>, platform: Option<string>): PublishRecord -> bool {
    (r: PublishRecord) => Selected(r, draftId, platform)
  }

  function CreatedKey(r: PublishRecord): real {
    r.createdAt as real
  }

  /** `get_publish_records`: the selected records, newest first. */
  function PublishRecords(records: seq<PublishRecord>, draftId: Option<int>, platform: Option<string>): (r: seq<PublishRecord>)
    ensures Sorting.SortedDesc(r, CreatedKey)
    ensures multiset(r) == multiset(Seqs.Filter(records, Selector(draftId, platform)))
    ensures |r| == |Seqs.Filter(records, Selector(draftId, platform))|
    ensures forall i :: 0 <= i < |r| ==> Selected(r[i], draftId, platform) && r[i] in records
  {
    var filtered := Seqs.Filter(records, Selector(draftId, platform));
    var r := Sorting.SortDesc(filtered, CreatedKey);
    forall i | 0 <= i < |r| ensures Selected(r[i], draftId, platform) && r[i] in records {
      assert r[i] in multiset(r);
      assert r[i] in filtered;
    }
    r
  }

  /**
   * `list_publish_records`: the total before paging, and the page `records[skip:skip + limit]`
   * with Python's slice semantics.
   */
  function ListPublishRecords(records: seq<PublishRecord>, draftId: Option<int>, platform: Option<string>,
                              skip: int, limit: int): (r: (nat, seq<PublishRecord>))
    ensures r.0 == |Seqs.Filter(records, Selector(draftId, platform))|
    ensures r.1 == Seqs.Slice(PublishRecords(records, draftId, platform), skip, skip + limit)
    ensures |r.1| <= r.0
  {
    var all := PublishRecords(records, draftId, platform);
    (|all|, Seqs.Slice(all, skip, skip + limit))
  }

  /** A page holds only selected records, and at most `limit` of them. */
  lemma PageSelected(records: seq<PublishRecord>, draftId: Option<int>, platform: Option<string>, skip: int, limit: int)
    ensures var page := ListPublishRecords(records, draftId, platform, skip, limit).1;
      && (skip >= 0 && limit >= 0 ==> |page| <= limit)
      && forall i :: 0 <= i < |page| ==> Selected(page[i], draftId, platform) && page[i] in records
  {
    var all := PublishRecords(records, draftId, platform);
    PageFromAll(all, Seqs.Slice(all, skip, skip + limit), skip, limit, draftId, platform, records);
  }

  /** A page of selected records holds only selected records, and at most `limit` of them. */
  lemma PageFromAll(all: seq<PublishRecord>, page: seq<PublishRecord>, skip: int, limit: int,
                    draftId: Option<int>, platform: Option<string>, records: seq<PublishRecord>)
    requires page == Seqs.Slice(all, skip, skip + limit)
    requires forall i :: 0 <= i < |all| ==> Selected(all[i], draftId, platform) && all[i] in records
    ensures skip >= 0 && limit >= 0 ==> |page| <= limit
    ensures forall i :: 0 <= i < |page| ==> Selected(page[i], draftId, platform) && page[i] in records
  {
    var lo := Seqs.Bound(|all|, skip);
    var hi := Seqs.Bound(|all|, skip + limit);
    if lo <= hi {
      assert page == all[lo..hi];
      forall i | 0 <= i < |page| ensures Selected(page[i], draftId, platform) && page[i] in records {
        assert page[i] == all[lo + i];
      }
      if skip >= 0 && limit >= 0 {
        assert lo == if skip <= |all| then skip else |all|;
        assert hi == if skip + limit <= |all| then skip + limit else |all|;
      }
    }
  }

  /** Two consecutive pages are the double-size page: paging neither skips nor repeats a record. */
  lemma PagesTile(records: seq<PublishRecord>, draftId: Option<int>, platform: Option<string>, skip: nat, limit: nat)
    ensures ListPublishRecords(records, draftId, platform, skip, limit).1
          + ListPublishRecords(records, draftId, platform, skip + limit, limit).1
         == ListPublishRecords(records, draftId, platform, skip, 2 * limit).1
  {
    Seqs.SlicePages(PublishRecords(records, draftId, platform), skip, limit);
  }

  /* ---------------- Publish statistics ---------------- */

  function PlatformsOf(records: seq<PublishRecord>): (r: seq<string>)
    ensures |r| == |records| && forall i :: 0 <= i < |r| ==> r[i] == records[i].platform
  {
    seq(|records|, i requires 0 <= i < |records| => records[i].platform)
  }

  /** How many records of `platform` there are, all of them or only those with a status. */
  function StatusCount(records: seq<PublishRecord>, platform: string, status: Option<PublishStatus>): nat {
    if |records| == 0 then 0
    else
      var r := records[|records| - 1];
      StatusCount(records[..|records| - 1], platform, status)
        + (if r.platform == platform && (status.None? || r.status == status.value) then 1 else 0)
  }

  /** The tallied platform counts are the numbers of records per platform. */
  lemma {:induction false} PlatformCount(records: seq<PublishRecord>, platform: string)
    ensures Seqs.Count(PlatformsOf(records), platform) == StatusCount(records, platform, None)
  {
    if |records| > 0 {
      var init := records[..|records| - 1];
      assert PlatformsOf(records)[..|records| - 1] == PlatformsOf(init);
      PlatformCount(init, platform);
    }
  }

  /** Successes and failures together never exceed the records of a platform. */
  lemma {:induction false} StatusCountsBounded(records: seq<PublishRecord>, platform: string)
    ensures StatusCount(records, platform, Some(Succeeded)) + StatusCount(records, platform, Some(PublishStatus.Failed))
         <= StatusCount(records, platform, None)
  {
    if |records| > 0 {
      StatusCountsBounded(records[..|records| - 1], platform);
    }
  }

  datatype PlatformStat = PlatformStat(platform: string, total: nat, success: nat, failed: nat, successRate: real)

  /** The success rate in percent, 0 for an empty total (without the rounding to one decimal). */
  function SuccessRate(success: nat, total: nat): (r: real)
    ensures success <= total ==> 0.0 <= r <= 100.0
    ensures total > 0 && success == total ==> r == 100.0
    ensures success == 0 ==> r == 0.0
  {
    if total > 0 then
      assert success <= total ==> success as real / total as real <= 1.0;
      success as real / total as real * 100.0
    else 0.0
  }

  function StatOf(records: seq<PublishRecord>, platform: string, total: nat): PlatformStat {
    var success := StatusCount(records, platform, Some(Succeeded));
    var failed := StatusCount(records, platform, Some(PublishStatus.Failed));
    PlatformStat(platform, total, success, failed, SuccessRate(success, total))
  }

  /** The `platform_stats` of `get_publish_stats`, one entry per platform in order of first appearance. */
  function PlatformStats(records: seq<PublishRecord>): (r: seq<PlatformStat>)
    ensures forall i :: 0 <= i < |r| ==>
      && r[i].total == StatusCount(records, r[i].platform, None) && r[i].total >= 1
      && r[i].success == StatusCount(records, r[i].platform, Some(Succeeded))
      && r[i].failed == StatusCount(records, r[i].platform, Some(PublishStatus.Failed))
      && r[i].success + r[i].failed <= r[i].total
      && r[i].successRate == SuccessRate(r[i].success, r[i].total)
      && 0.0 <= r[i].successRate <= 100.0
    ensures forall i, j :: 0 <= i < j < |r| ==> r[i].platform != r[j].platform
    ensures forall k :: 0 <= k < |records| ==> exists i :: 0 <= i < |r| && r[i].platform == records[k].platform
  {
    var m := Seqs.Counts(PlatformsOf(records));
    var r := seq(|m|, i requires 0 <= i < |m| => StatOf(records, m[i].0, m[i].1));
    forall i | 0 <= i < |r|
      ensures r[i].total == StatusCount(records, r[i].platform, None) && r[i].total >= 1
      ensures r[i].success + r[i].failed <= r[i].total && 0.0 <= r[i].successRate <= 100.0
    {
      Seqs.GetAt(m, i);
      Seqs.CountsGet(PlatformsOf(records), m[i].0);
      PlatformCount(records, m[i].0);
      StatusCountsBounded(records, m[i].0);
    }
    forall k | 0 <= k < |records| ensures exists i :: 0 <= i < |r| && r[i].platform == records[k].platform {
      var p := records[k].platform;
      assert PlatformsOf(records)[k] == p;
      assert Seqs.Count(PlatformsOf(records), p) > 0 by {
        PlatformCount(records, p);
        StatusCountPositive(records, p, k);
      }
      Seqs.CountsGet(PlatformsOf(records), p);
      var i := Seqs.IndexOfKey(m, p);
      assert r[i].platform == p;
    }
    r
  }
  /** The platforms are listed in the order in which they first appear among the records. */
  lemma PlatformStatsOrder(records: seq<PublishRecord>, i: nat, j: nat)
    requires i < j < |PlatformStats(records)|
    ensures var r := PlatformStats(records);
      && r[i].platform in PlatformsOf(records) && r[j].platform in PlatformsOf(records)
      && Seqs.FirstIndex(PlatformsOf(records), r[i].platform) < Seqs.FirstIndex(PlatformsOf(records), r[j].platform)
  {
    var m := Seqs.Counts(PlatformsOf(records));
    assert PlatformStats(records)[i].platform == m[i].0 && PlatformStats(records)[j].platform == m[j].0;
    Seqs.CountsOrder(PlatformsOf(records), i, j);
  }


  lemma {:induction false} StatusCountPositive(records: seq<PublishRecord>, platform: string, k: nat)
    requires k < |records| && records[k].platform == platform
    ensures StatusCount(records, platform, None) > 0
  {
    if k < |records| - 1 {
      StatusCountPositive(records[..|records| - 1], platform, k);
    }
  }

  /** The per-platform totals add up to the number of records. */
  lemma PlatformTotalsCoverRecords(records: seq<PublishRecord>)
    ensures Seqs.Sum(Seqs.Counts(PlatformsOf(records))) == |records|
  {
    Seqs.CountsSum(PlatformsOf(records));
  }

  datatype DailyStat = DailyStat(date: int, count: nat)

  function Since(weekAgo: int): PublishRecord -> bool {
    (r: PublishRecord) => r.createdAt >= weekAgo
  }

  /** The day of each record of the last week, as `dayOf` (the date formatting) gives it. */
  function RecentDays(records: seq<PublishRecord>, weekAgo: int, dayOf: int -> int): (r: seq<int>) {
    var recent := Seqs.Filter(records, Since(weekAgo));
    seq(|recent|, i requires 0 <= i < |recent| => dayOf(recent[i].createdAt))
  }

  function LaterFirst(d: DailyStat): real {
    -(d.date as real)
  }

  /**
   * The `daily_stats` of `get_publish_stats`: the number of records of the last week per day,
   * in ascending date order. Days are numbered so that their order is that of the date texts.
   */
  function DailyStats(records: seq<PublishRecord>, weekAgo: int, dayOf: int -> int): (r: seq<DailyStat>)
    ensures forall i, j :: 0 <= i < j < |r| ==> r[i].date < r[j].date
    ensures forall i :: 0 <= i < |r| ==> r[i].count >= 1 && r[i].count == Seqs.Count(RecentDays(records, weekAgo, dayOf), r[i].date)
    ensures forall d :: d in RecentDays(records, weekAgo, dayOf) ==> exists i :: 0 <= i < |r| && r[i].date == d
  {
    var days := RecentDays(records, weekAgo, dayOf);
    var r := Sorting.SortDesc(DayEntries(days), LaterFirst);
    SortedDayEntries(days, r);
    r
  }

  /** One entry per distinct day, with the number of times the day occurs. */
  function DayEntries(days: seq<int>): seq<DailyStat> {
    var m := Seqs.Counts(days);
    seq(|m|, i requires 0 <= i < |m| => DailyStat(m[i].0, m[i].1))
  }

  /** Each entry counts its day, and every day has an entry. */
  lemma DayEntriesCount(days: seq<int>)
    ensures forall e :: e in DayEntries(days) ==> e.count >= 1 && e.count == Seqs.Count(days, e.date)
    ensures forall d :: d in days ==> exists e :: e in DayEntries(days) && e.date == d
  {
    var m := Seqs.Counts(days);
    var entries := DayEntries(days);
    forall e | e in entries ensures e.count >= 1 && e.count == Seqs.Count(days, e.date) {
      var i :| 0 <= i < |entries| && entries[i] == e;
      Seqs.GetAt(m, i);
      Seqs.CountsGet(days, m[i].0);
    }
    forall d | d in days ensures exists e :: e in entries && e.date == d {
      Seqs.CountPositive(days, d);
      Seqs.CountsGet(days, d);
      var k := Seqs.IndexOfKey(m, d);
      assert entries[k].date == d;
    }
  }

  /** Sorted by date, the entries keep their counts, have ascending dates and cover every day. */
  lemma SortedDayEntries(days: seq<int>, r: seq<DailyStat>)
    requires r == Sorting.SortDesc(DayEntries(days), LaterFirst)
    ensures forall i, j :: 0 <= i < j < |r| ==> r[i].date < r[j].date
    ensures forall i :: 0 <= i < |r| ==> r[i].count >= 1 && r[i].count == Seqs.Count(days, r[i].date)
    ensures forall d :: d in days ==> exists i :: 0 <= i < |r| && r[i].date == d
  {
    var entries := DayEntries(days);
    DayEntriesCount(days);
    forall a, b | 0 <= a < b < |entries| ensures entries[a].date != entries[b].date {
      assert entries[a].date == Seqs.Counts(days)[a].0;
    }
    SortedAscending(entries, r);
    PermutedCounts(days, entries, r);
    PermutedCover(days, entries, r);
  }

  /** A permutation of entries with distinct dates, sorted with the latest last, has ascending dates. */
  lemma SortedAscending(entries: seq<DailyStat>, r: seq<DailyStat>)
    requires multiset(r) == multiset(entries) && Sorting.SortedDesc(r, LaterFirst)
    requires forall a, b :: 0 <= a < b < |entries| ==> entries[a].date != entries[b].date
    ensures forall i, j :: 0 <= i < j < |r| ==> r[i].date < r[j].date
  {
    Sorting.DistinctUnder(entries, r, DateKey);
    forall i, j | 0 <= i < j < |r| ensures r[i].date < r[j].date {
      assert DateKey(r[i]) != DateKey(r[j]);
      assert LaterFirst(r[i]) >= LaterFirst(r[j]);
    }
  }

  function DateKey(d: DailyStat): int {
    d.date
  }

  /** Every entry of a permutation of counted entries counts its day. */
  lemma PermutedCounts(days: seq<int>, entries: seq<DailyStat>, r: seq<DailyStat>)
    requires multiset(r) == multiset(entries)
    requires forall e :: e in entries ==> e.count >= 1 && e.count == Seqs.Count(days, e.date)
    ensures forall i :: 0 <= i < |r| ==> r[i].count >= 1 && r[i].count == Seqs.Count(days, r[i].date)
  {
    forall i | 0 <= i < |r| ensures r[i] in entries {
      assert r[i] in multiset(r);
    }
  }

  /** A permutation of entries that cover every day covers every day. */
  lemma PermutedCover(days: seq<int>, entries: seq<DailyStat>, r: seq<DailyStat>)
    requires multiset(r) == multiset(entries)
    requires forall d :: d in days ==> exists e :: e in entries && e.date == d
    ensures forall d :: d in days ==> exists i :: 0 <= i < |r| && r[i].date == d
  {
    forall d | d in days ensures exists i :: 0 <= i < |r| && r[i].date == d {
      var e :| e in entries && e.date == d;
      assert e in multiset(r);
    }
  }
}

=== FILE: models.dfy ===
/**
 * The persistent records (one datatype per table) with their column defaults, the store
 * invariants the tables keep, and the one-shot seeding performed at start-up.
 * A table is a sequence of records in row order; timestamps are integers.
 */
module Models {
  import opened Wrappers

  /** One configured provider profile (table `ai_model_configs`). */
  datatype AIModelConfig = AIModelConfig(
    id: int,
    name: string,
    provider: string,
    apiKey: Option<string>,
    apiSecret: Option<string>,
    modelName: Option<string>,
    maxTokens: int,
    temperature: real,
    isActive: bool,
    isDefault: bool,
    usageCount: int,
    totalTokens: int)

  type ConfigStore = seq<AIModelConfig>

  /** The life cycle of a publish record; `Pending` is the column default. */
  datatype PublishStatus = Pending | Scheduled | Succeeded | Failed

  /** One content draft (table `content_drafts`). */
  datatype ContentDraft = ContentDraft(
    id: int,
    title: string,
    content: Option<string>,
    outline: Option<string>,
    tags: Option<string>,
    category: Option<string>,
    platformType: Option<string>,
    status: string,
    version: int,
    aiGenerated: bool,
    wordCount: int)

  /** One publication attempt of a draft on a platform (table `publish_records`). */
  datatype PublishRecord = PublishRecord(
    id: int,
    draftId: int,
    platform: string,
    platformPostId: Option<string>,
    title: string,
    content: Option<string>,
    status: PublishStatus,
    publishTime: Option<int>,
    errorMessage: Option<string>,
    viewCount: int,
    likeCount: int,
    commentCount: int,
    shareCount: int,
    createdAt: int)

  /** The tone `analyze_sentiment` assigns to a topic title. */
  datatype Sentiment = Positive | Negative | Neutral

  /** One trending topic (table `hot_topics`). */
  datatype HotTopic = HotTopic(
    id: int,
    platform: string,
    title: string,
    description: string,
    keywords: string,
    hotScore: real,
    rankPosition: int,
    category: string,
    sentiment: Option<Sentiment>,
    engagementCount: int,
    createdAt: int,
    updatedAt: int)

  /** One publishing account on a platform (table `platform_accounts`). */
  datatype PlatformAccount = PlatformAccount(
    id: int,
    platform: string,
    accountName: string,
    accessToken: Option<string>,
    isActive: bool,
    lastUsed: Option<int>)

  /** A new configuration row, before the caller's keyword arguments are applied. */
  function NewConfig(id: int, name: string, provider: string, apiKey: Option<string>): (c: AIModelConfig)
    ensures c.id == id && c.name == name && c.provider == provider && c.apiKey == apiKey
    ensures c.maxTokens == 2000 && c.temperature == 0.7
    ensures c.isActive && !c.isDefault
    ensures c.usageCount == 0 && c.totalTokens == 0
  {
    AIModelConfig(id, name, provider, apiKey, None, None, 2000, 0.7, true, false, 0, 0)
  }

  /** A new draft row, with the column defaults for status, version and counters. */
  function NewDraft(id: int, title: string, content: Option<string>, outline: Option<string>,
                    tags: Option<string>, category: Option<string>, platformType: Option<string>): (d: ContentDraft)
    ensures d.id == id && d.title == title && d.content == content && d.tags == tags
    ensures d.status == "draft" && d.version == 1 && !d.aiGenerated && d.wordCount == 0
  {
    ContentDraft(id, title, content, outline, tags, category, platformType, "draft", 1, false, 0)
  }

  /** A new publish record: pending, with zero engagement, unless the caller sets a status. */
  function NewPublishRecord(id: int, draftId: int, platform: string, title: string,
                            content: Option<string>, createdAt: int): (r: PublishRecord)
    ensures r.draftId == draftId && r.platform == platform && r.title == title && r.content == content
    ensures r.status == Pending && r.platformPostId.None? && r.errorMessage.None?
    ensures r.viewCount == 0 && r.likeCount == 0 && r.commentCount == 0 && r.shareCount == 0
  {
    PublishRecord(id, draftId, platform, None, title, content, Pending, None, None, 0, 0, 0, 0, createdAt)
  }

  /** Primary keys are unique. */
  predicate UniqueIds(store: ConfigStore) {
    forall i, j :: 0 <= i < j < |store| ==> store[i].id != store[j].id
  }

  /** The `unique=True` constraint on configuration names. */
  predicate UniqueNames(store: ConfigStore) {
    forall i, j :: 0 <= i < j < |store| ==> store[i].name != store[j].name
  }

  predicate NameTaken(store: ConfigStore, name: string) {
    exists i :: 0 <= i < |store| && store[i].name == name
  }

  /** How many configurations carry the default flag. */
  function DefaultCount(store: ConfigStore): nat {
    if |store| == 0 then 0
    else (if store[|store| - 1].isDefault then 1 else 0) + DefaultCount(store[..|store| - 1])
  }

  /** The store invariant the default-switching operations are meant to keep. */
  predicate AtMostOneDefault(store: ConfigStore) {
    DefaultCount(store) <= 1
  }

  /** Exactly the configurations at the given positions are default. */
  lemma {:induction false} DefaultCountOfFlags(store: ConfigStore, k: int)
    requires forall i :: 0 <= i < |store| ==> (store[i].isDefault <==> i == k)
    ensures DefaultCount(store) == if 0 <= k < |store| then 1 else 0
  {
    if |store| > 0 {
      var init := store[..|store| - 1];
      assert forall i :: 0 <= i < |init| ==> init[i] == store[i];
      DefaultCountOfFlags(init, k);
    }
  }

  /** With one default at position `k`, no other configuration is default. */
  lemma {:induction false} SoleDefault(store: ConfigStore, k: int)
    requires 0 <= k < |store| && store[k].isDefault && AtMostOneDefault(store)
    ensures forall i :: 0 <= i < |store| && i != k ==> !store[i].isDefault
  {
    forall i | 0 <= i < |store| && i != k && store[i].isDefault ensures false {
      TwoDefaults(store, i, k);
    }
  }

  lemma {:induction false} TwoDefaults(store: ConfigStore, i: int, k: int)
    requires 0 <= i < |store| && 0 <= k < |store| && i != k
    requires store[i].isDefault && store[k].isDefault
    ensures DefaultCount(store) >= 2
  {
    var n := |store| - 1;
    var init := store[..n];
    assert forall j :: 0 <= j < |init| ==> init[j] == store[j];
    if i == n {
      OneDefault(init, k);
    } else if k == n {
      OneDefault(init, i);
    } else {
      TwoDefaults(init, i, k);
    }
  }

  lemma {:induction false} OneDefault(store: ConfigStore, i: int)
    requires 0 <= i < |store| && store[i].isDefault
    ensures DefaultCount(store) >= 1
  {
    var n := |store| - 1;
    var init := store[..n];
    assert forall j :: 0 <= j < |init| ==> init[j] == store[j];
    if i < n {
      OneDefault(init, i);
    }
  }

  /** Clearing default flags never raises the number of defaults. */
  lemma {:induction false} DefaultCountMono(store: ConfigStore, r: ConfigStore)
    requires |r| == |store|
    requires forall i :: 0 <= i < |r| && r[i].isDefault ==> store[i].isDefault
    ensures DefaultCount(r) <= DefaultCount(store)
  {
    if |r| > 0 {
      var n := |r| - 1;
      assert forall i :: 0 <= i < n ==> r[..n][i] == r[i] && store[..n][i] == store[i];
      DefaultCountMono(store[..n], r[..n]);
    }
  }

  /** The `id` sqlite assigns to a new row of a table holding `ids`: one more than the largest present. */
  function NextId(ids: seq<int>): (id: int)
    ensures id >= 1
    ensures forall i :: 0 <= i < |ids| ==> ids[i] < id
  {
    if |ids| == 0 then 1
    else
      var rest := NextId(ids[..|ids| - 1]);
      var last := ids[|ids| - 1];
      assert forall i :: 0 <= i < |ids| - 1 ==> ids[..|ids| - 1][i] == ids[i];
      if last + 1 > rest then last + 1 else rest
  }

  /** The ids of the configuration rows, in row order. */
  function ConfigIds(store: ConfigStore): seq<int> {
    seq(|store|, i requires 0 <= i < |store| => store[i].id)
  }

  /**
   * Clears the default flag of every configuration whose id is not `keep`: the rows keep
   * every other column, and a row stays default only if it was and has the kept id.
   */
  function ClearDefaults(store: ConfigStore, keep: Option<int>): (r: ConfigStore)
    ensures |r| == |store|
    ensures forall i :: 0 <= i < |r| ==> r[i].(isDefault := store[i].isDefault) == store[i]
    ensures forall i :: 0 <= i < |r| && r[i].isDefault ==> store[i].isDefault && keep == Some(store[i].id)
    ensures forall i :: 0 <= i < |r| && store[i].isDefault && keep == Some(store[i].id) ==> r[i].isDefault
  {
    seq(|store|, i requires 0 <= i < |store| =>
      store[i].(isDefault := store[i].isDefault && keep.Some? && store[i].id == keep.value))
  }

  /**
   * With unique ids, clearing the defaults leaves at most one default (the kept row, if it was
   * default), and none when nothing is kept.
   */
  lemma {:induction false} ClearDefaultsAtMostOne(store: ConfigStore, keep: Option<int>)
    requires UniqueIds(store)
    ensures AtMostOneDefault(ClearDefaults(store, keep))
    ensures keep.None? ==> DefaultCount(ClearDefaults(store, keep)) == 0
  {
    var r := ClearDefaults(store, keep);
    if k :| 0 <= k < |r| && r[k].isDefault {
      assert forall i :: 0 <= i < |r| ==> (r[i].isDefault <==> i == k) by {
        forall i | 0 <= i < |r| && r[i].isDefault ensures i == k {
          assert store[i].id == keep.value == store[k].id;
        }
      }
      DefaultCountOfFlags(r, k);
    } else {
      DefaultCountOfFlags(r, -1);
    }
  }

  /** The configuration `init_db` creates in an empty table: the first row, with no key. */
  function SeedConfig(): (c: AIModelConfig)
    ensures c.id == NextId([])
    ensures c.name == "默认DeepSeek模型" && c.provider == "deepseek" && c.apiKey.None? && c.apiSecret.None?
    ensures c.modelName == Some("deepseek-chat") && c.maxTokens == 4000 && c.temperature == 0.7
    ensures c.isDefault && c.isActive
    ensures c.usageCount == 0 && c.totalTokens == 0
  {
    NewConfig(1, "默认DeepSeek模型", "deepseek", None)
      .(modelName := Some("deepseek-chat"), maxTokens := 4000, temperature := 0.7, isDefault := true)
  }

  /** `init_db`: seeds one default deepseek configuration iff the table is empty. */
  function InitDb(store: ConfigStore): (r: ConfigStore)
    ensures |store| == 0 ==> r == [SeedConfig()] && DefaultCount(r) == 1
    ensures |store| > 0 ==> r == store
    ensures AtMostOneDefault(store) ==> AtMostOneDefault(r)
  {
    if |store| == 0 then
      DefaultCountOfFlags([SeedConfig()], 0);
      [SeedConfig()]
    else
      store
  }
}

=== FILE: providers.dfy ===
/**
 * The four provider clients. Each turns a vendor reply (given as input: the network is not
 * modelled) into the provider-neutral `GenerationResult` for a blocking call and into a
 * chunk sequence for a streaming call.
 *  - OpenAI-compatible and DeepSeek stream genuinely: one delta per received fragment.
 *  - Baidu and DashScope simulate streaming: one blocking call, then one delta per character.
 */
module Providers {
  import opened Wrappers
  import opened Streams
  import Text

  /** A vendor call either raises (transport, authentication or decoding failure) or replies. */
  datatype Reply<T> = Raised(message: string) | Replied(body: T)

  /** Python's `value or default` for an optional string: `None` and `""` are both falsy. */
  function OrDefault(o: Option<string>, default: string): (r: string)
    ensures o.Some? && o.value != "" ==> r == o.value
    ensures o.None? || o.value == "" ==> r == default
  {
    if o.Some? && o.value != "" then o.value else default
  }

  /** `HTTP <status>: <body>`, the error text of a non-200 DeepSeek reply. */
  function HttpError(status: nat, text: string): string {
    "HTTP " + Text.NatToString(status) + ": " + text
  }

  // ---------------------------------------------------------------- OpenAI-compatible

  datatype OpenAIResponse = OpenAIResponse(
    content: string, promptTokens: int, completionTokens: int, totalTokens: int, model: string)

  /** `OpenAIModel.generate_text`: any raised exception becomes a failure with its text. */
  function OpenAIGenerate(reply: Reply<OpenAIResponse>): (r: GenerationResult)
    ensures r.Failed? <==> reply.Raised?
    ensures r.Failed? ==> r.error == reply.message
    ensures r.Generated? ==> r.content == reply.body.content && r.usage.totalTokens == Some(reply.body.totalTokens)
  {
    match reply
    case Raised(e) => Failed(e)
    case Replied(b) =>
      Generated(b.content, Usage(Some(b.promptTokens), Some(b.completionTokens), Some(b.totalTokens)), Some(b.model))
  }

  /**
   * The SDK's streamed events: each event's `delta.content` ("" when the event has no
   * choices or no content), and the exception, if any, that interrupted the iteration.
   */
  datatype OpenAIStreamReply = OpenAIStreamReply(fragments: seq<string>, interruption: Option<string>)

  /** The chunks for the remaining events, `acc` being the text accumulated so far. */
  function OpenAIChunks(fragments: seq<string>, acc: string, interruption: Option<string>): (r: seq<Chunk>)
    ensures WellShaped(r) && AccumulatingFrom(r, acc)
    ensures |r| <= |fragments| + 1
  {
    if |fragments| == 0 then
      match interruption
      case Some(e) => [Error(e)]
      case None => [Finished(acc, None)]
    else if fragments[0] == "" then
      OpenAIChunks(fragments[1..], acc, interruption)
    else
      var c := fragments[0];
      var rest := OpenAIChunks(fragments[1..], acc + c, interruption);
      PrependDelta(c, acc, rest);
      [Delta(c, acc + c)] + rest
  }

  /**
   * Empty fragments produce no chunk, and the stream ends with the usage-free terminal
   * chunk unless the iteration was interrupted, in which case it ends with that error.
   */
  lemma {:induction false} OpenAIChunksEnd(fragments: seq<string>, acc: string, interruption: Option<string>)
    ensures var r := OpenAIChunks(fragments, acc, interruption);
      && (interruption.None? ==> r[|r| - 1].Finished? && r[|r| - 1].usage.None?)
      && (interruption.Some? ==> r[|r| - 1] == Error(interruption.value))
      && (forall i :: 0 <= i < |r| - 1 ==> r[i].Delta? && r[i].content != "")
  {
    if |fragments| > 0 {
      var c := fragments[0];
      if c == "" {
        OpenAIChunksEnd(fragments[1..], acc, interruption);
      } else {
        OpenAIChunksEnd(fragments[1..], acc + c, interruption);
        var rest := OpenAIChunks(fragments[1..], acc + c, interruption);
        var r := OpenAIChunks(fragments, acc, interruption);
        assert r == [Delta(c, acc + c)] + rest;
        assert forall i :: 1 <= i < |r| ==> r[i] == rest[i - 1];
      }
    }
  }

  /** `OpenAIModel.generate_text_stream`. */
  function OpenAIStream(reply: Reply<OpenAIStreamReply>): (r: seq<Chunk>)
    ensures WellShaped(r) && Accumulating(r)
    ensures reply.Raised? ==> r == [Error(reply.message)]
  {
    match reply
    case Raised(e) => [Error(e)]
    case Replied(b) => OpenAIChunks(b.fragments, "", b.interruption)
  }

  // ---------------------------------------------------------------- simulated streaming

  /** One delta per character of `rest`, then the terminal chunk with the call's usage. */
  function CharChunks(rest: string, acc: string, usage: Usage): (r: seq<Chunk>)
    ensures |r| == |rest| + 1
    ensures WellShaped(r) && AccumulatingFrom(r, acc)
  {
    if |rest| == 0 then
      [Finished(acc, Some(usage))]
    else
      var tail := CharChunks(rest[1..], acc + [rest[0]], usage);
      PrependDelta([rest[0]], acc, tail);
      [Delta([rest[0]], acc + [rest[0]])] + tail
  }

  /** Chunk `i` carries character `rest[i]` and the text up to it; the last one the usage. */
  lemma CharChunksAt(rest: string, acc: string, usage: Usage)
    ensures var r := CharChunks(rest, acc, usage);
      && (forall i :: 0 <= i < |rest| ==> r[i] == Delta([rest[i]], acc + rest[..i + 1]))
      && r[|rest|] == Finished(acc + rest, Some(usage))
  {
    forall i | 0 <= i < |rest| ensures CharChunks(rest, acc, usage)[i] == Delta([rest[i]], acc + rest[..i + 1]) {
      CharChunkAt(rest, acc, usage, i);
    }
    CharChunksLast(rest, acc, usage);
  }

  lemma {:induction false} CharChunkAt(rest: string, acc: string, usage: Usage, i: nat)
    requires i < |rest|
    ensures CharChunks(rest, acc, usage)[i] == Delta([rest[i]], acc + rest[..i + 1])
  {
    var cur := acc + [rest[0]];
    var tail := CharChunks(rest[1..], cur, usage);
    assert CharChunks(rest, acc, usage) == [Delta([rest[0]], cur)] + tail;
    if i > 0 {
      CharChunkAt(rest[1..], cur, usage, i - 1);
      assert rest[1..][i - 1] == rest[i];
      assert rest[..i + 1] == [rest[0]] + rest[1..][..i];
      assert acc + rest[..i + 1] == cur + rest[1..][..i];
    } else {
      assert rest[..1] == [rest[0]];
    }
  }

  lemma {:induction false} CharChunksLast(rest: string, acc: string, usage: Usage)
    ensures CharChunks(rest, acc, usage)[|rest|] == Finished(acc + rest, Some(usage))
  {
    if |rest| > 0 {
      var cur := acc + [rest[0]];
      CharChunksLast(rest[1..], cur, usage);
      var tail := CharChunks(rest[1..], cur, usage);
      assert CharChunks(rest, acc, usage) == [Delta([rest[0]], cur)] + tail;
      assert rest == [rest[0]] + rest[1..];
      assert acc + rest == cur + rest[1..];
    }
  }

  /**
   * The Baidu and DashScope `generate_text_stream`: a failed blocking call becomes its single
   * error chunk; a successful one is replayed one character at a time.
   */
  function SimulatedStream(g: GenerationResult): (r: seq<Chunk>)
    ensures WellShaped(r) && Accumulating(r)
    ensures g.Failed? ==> r == [Error(g.error)]
  {
    match g
    case Failed(e) => [Error(e)]
    case Generated(c, u, _) => CharChunks(c, "", u)
  }

  /**
   * Simulated streaming of a successful text `c` yields exactly |c| deltas, chunk `i` carrying
   * character `c[i]` and the prefix `c[..i+1]`, then one terminal chunk with the full text
   * and the call's usage.
   */
  lemma SimulatedStreamShape(c: string, u: Usage, model: Option<string>)
    ensures var r := SimulatedStream(Generated(c, u, model));
      && |r| == |c| + 1
      && (forall i :: 0 <= i < |c| ==> r[i] == Delta([c[i]], c[..i + 1]))
      && r[|c|] == Finished(c, Some(u))
  {
    var r := SimulatedStream(Generated(c, u, model));
    CharChunksAt(c, "", u);
    forall i | 0 <= i < |c| ensures r[i] == Delta([c[i]], c[..i + 1]) {
      assert "" + c[..i + 1] == c[..i + 1];
    }
    assert "" + c == c;
  }

  // ---------------------------------------------------------------- Baidu

  /** The Baidu chat reply: `result` on success, otherwise perhaps `error_msg`. */
  datatype BaiduBody = BaiduBody(result: Option<string>, usage: Option<Usage>, errorMsg: Option<string>)

  /** The access token obtained at construction; a failed exchange leaves it unset. */
  function BaiduAccessToken(exchange: Reply<Option<string>>): Option<string> {
    match exchange
    case Raised(_) => None
    case Replied(token) => token
  }

  /** `BaiduModel.generate_text`. */
  function BaiduGenerate(token: Option<string>, modelName: Option<string>, reply: Reply<BaiduBody>): (r: GenerationResult)
    ensures token.None? || token.value == "" ==> r == Failed("未获取到访问令牌")
    ensures r.Generated? <==> token.Some? && token.value != "" && reply.Replied? && reply.body.result.Some?
    ensures r.Generated? && (modelName.None? || modelName == Some("")) ==> r.model == Some("ernie-bot-turbo")
    ensures r.Generated? && modelName.Some? && modelName.value != "" ==> r.model == modelName
    ensures r.Failed? && token.Some? && token.value != "" && reply.Replied? ==> r.error == reply.body.errorMsg.GetOr("未知错误")
  {
    if token.None? || token.value == "" then
      Failed("未获取到访问令牌")
    else
      match reply
      case Raised(e) => Failed(e)
      case Replied(b) =>
        match b.result
        case Some(text) => Generated(text, b.usage.GetOr(NoUsage), Some(OrDefault(modelName, "ernie-bot-turbo")))
        case None => Failed(b.errorMsg.GetOr("未知错误"))
  }

  /** `BaiduModel.generate_text_stream`. */
  function BaiduStream(token: Option<string>, modelName: Option<string>, reply: Reply<BaiduBody>): (r: seq<Chunk>)
    ensures WellShaped(r) && Accumulating(r)
    ensures token.None? || token.value == "" ==> r == [Error("未获取到访问令牌")]
  {
    SimulatedStream(BaiduGenerate(token, modelName, reply))
  }

  /**
   * Without an access token every Baidu call fails fast, whatever the vendor would have
   * answered, so the connection test (a generation of "测试") reports false.
   */
  lemma BaiduWithoutTokenFails(exchange: Reply<Option<string>>, modelName: Option<string>, reply: Reply<BaiduBody>)
    requires exchange.Raised? || exchange.body.None?
    ensures !TestConnection(BaiduGenerate(BaiduAccessToken(exchange), modelName, reply))
    ensures BaiduStream(BaiduAccessToken(exchange), modelName, reply) == [Error("未获取到访问令牌")]
  {
  }

  // ---------------------------------------------------------------- DashScope

  datatype DashScopeResponse = DashScopeResponse(statusCode: int, text: string, usage: Usage, message: string)

  /** `DashScopeModel.generate_text`: only status 200 is a success. */
  function DashScopeGenerate(modelName: Option<string>, reply: Reply<DashScopeResponse>): (r: GenerationResult)
    ensures r.Generated? <==> reply.Replied? && reply.body.statusCode == 200
    ensures r.Generated? ==> r.content == reply.body.text && r.usage == reply.body.usage && r.model == modelName
    ensures reply.Replied? && reply.body.statusCode != 200 ==> r == Failed(reply.body.message)
  {
    match reply
    case Raised(e) => Failed(e)
    case Replied(resp) =>
      if resp.statusCode == 200 then Generated(resp.text, resp.usage, modelName)
      else Failed(resp.message)
  }

  /** `DashScopeModel.generate_text_stream`. */
  function DashScopeStream(modelName: Option<string>, reply: Reply<DashScopeResponse>): (r: seq<Chunk>)
    ensures WellShaped(r) && Accumulating(r)
    ensures reply.Replied? && reply.body.statusCode != 200 ==> r == [Error(reply.body.message)]
  {
    SimulatedStream(DashScopeGenerate(modelName, reply))
  }

  // ---------------------------------------------------------------- DeepSeek

  /** The decoded body of a 200 reply; missing usage figures read as absent. */
  datatype DeepSeekBody = DeepSeekBody(
    content: string, promptTokens: Option<int>, completionTokens: Option<int>, totalTokens: Option<int>,
    model: Option<string>)

  /** An HTTP reply; `body` is `Raised` when the JSON or its `choices` cannot be read. */
  datatype DeepSeekResponse = DeepSeekResponse(status: nat, text: string, body: Reply<DeepSeekBody>)

  /** `DeepSeekModel.generate_text`: absent usage figures are reported as 0. */
  function DeepSeekGenerate(modelName: Option<string>, reply: Reply<DeepSeekResponse>): (r: GenerationResult)
    ensures r.Generated? <==> reply.Replied? && reply.body.status == 200 && reply.body.body.Replied?
    ensures r.Generated? ==> r.usage.totalTokens == Some(reply.body.body.body.totalTokens.GetOr(0))
    ensures reply.Replied? && reply.body.status != 200 ==> r == Failed(HttpError(reply.body.status, reply.body.text))
  {
    match reply
    case Raised(e) => Failed(e)
    case Replied(resp) =>
      if resp.status != 200 then Failed(HttpError(resp.status, resp.text))
      else match resp.body
        case Raised(e) => Failed(e)
        case Replied(b) =>
          Generated(b.content,
                    Usage(Some(b.promptTokens.GetOr(0)), Some(b.completionTokens.GetOr(0)), Some(b.totalTokens.GetOr(0))),
                    if b.model.Some? then b.model else modelName)
  }

  /**
   * What `json.loads` and the `choices[0].delta` lookup make of one `data: ` payload:
   * undecodable JSON, no `content` key, a string content, or a non-string content (whose
   * concatenation raises a TypeError naming its type).
   */
  datatype Payload = Undecodable | NoContent | Content(text: string) | NonText(typeName: string)

  /** The message of the TypeError `content += x` raises for a non-string `x`. */
  function ConcatTypeError(typeName: string): string {
    "can only concatenate str (not \"" + typeName + "\") to str"
  }

  const DataPrefix := "data: "

  /** A line the reader passes over: empty, or not starting with `data: `. */
  predicate Ignored(line: string) {
    line == "" || !Text.StartsWith(line, DataPrefix)
  }

  /** A `data: ` line whose stripped payload is `[DONE]`. */
  predicate IsDone(line: string) {
    !Ignored(line) && Text.Strip(line[|DataPrefix|..]) == "[DONE]"
  }

  /** What the reader does with one line. */
  datatype LineKind = Skip | Stop | Append(text: string) | Fail(typeName: string)

  function Kind(line: string, decode: string -> Payload): LineKind {
    if Ignored(line) then Skip
    else if IsDone(line) then Stop
    else match decode(line[|DataPrefix|..])
      case Undecodable => Skip
      case NoContent => Skip
      case NonText(t) => Fail(t)
      case Content(c) => Append(c)
  }

  /** The kinds of a sequence of lines. */
  function Kinds(lines: seq<string>, decode: string -> Payload): (r: seq<LineKind>)
    ensures |r| == |lines| && forall i :: 0 <= i < |r| ==> r[i] == Kind(lines[i], decode)
  {
    seq(|lines|, i requires 0 <= i < |lines| => Kind(lines[i], decode))
  }

  lemma KindsConcat(a: seq<string>, b: seq<string>, decode: string -> Payload)
    ensures Kinds(a + b, decode) == Kinds(a, decode) + Kinds(b, decode)
  {
  }

  /**
   * The chunks for the remaining classified lines of a 200 reply, `acc` being the text so far:
   * the end of the lines gives the terminal chunk, or the error that interrupted the reading.
   */
  function ReadKinds(kinds: seq<LineKind>, acc: string, interruption: Option<string>): (r: seq<Chunk>)
    ensures 1 <= |r| <= |kinds| + 1
    ensures r[|r| - 1].Finished? ==> r[|r| - 1].usage.None?
  {
    if |kinds| == 0 then
      match interruption
      case Some(e) => [Error(e)]
      case None => [Finished(acc, None)]
    else match kinds[0]
      case Skip => ReadKinds(kinds[1..], acc, interruption)
      case Stop => [Finished(acc, None)]
      case Fail(t) => [Error(ConcatTypeError(t))]
      case Append(c) => [Delta(c, acc + c)] + ReadKinds(kinds[1..], acc + c, interruption)
  }

  /** The chunks for the remaining SSE lines of a 200 reply. */
  function DeepSeekChunks(lines: seq<string>, acc: string, decode: string -> Payload, interruption: Option<string>): seq<Chunk> {
    ReadKinds(Kinds(lines, decode), acc, interruption)
  }

  /** The chunks read are a well-shaped stream accumulating from the text so far. */
  lemma {:induction false} ReadKindsShape(kinds: seq<LineKind>, acc: string, interruption: Option<string>)
    ensures var r := ReadKinds(kinds, acc, interruption);
      WellShaped(r) && AccumulatingFrom(r, acc)
  {
    if |kinds| > 0 {
      match kinds[0]
      case Skip => ReadKindsShape(kinds[1..], acc, interruption);
      case Stop =>
      case Fail(_) =>
      case Append(c) =>
        ReadKindsShape(kinds[1..], acc + c, interruption);
        PrependDelta(c, acc, ReadKinds(kinds[1..], acc + c, interruption));
    }
  }

  /** A skipped line anywhere changes nothing. */
  lemma {:induction false} ReadKindsDropsSkip(pre: seq<LineKind>, post: seq<LineKind>, acc: string, interruption: Option<string>)
    ensures ReadKinds(pre + [Skip] + post, acc, interruption) == ReadKinds(pre + post, acc, interruption)
  {
    if |pre| == 0 {
      assert (pre + [Skip] + post)[1..] == pre + post;
    } else {
      assert (pre + [Skip] + post)[1..] == pre[1..] + [Skip] + post;
      assert (pre + post)[1..] == pre[1..] + post;
      match pre[0]
      case Skip => ReadKindsDropsSkip(pre[1..], post, acc, interruption);
      case Stop =>
      case Fail(_) =>
      case Append(c) => ReadKindsDropsSkip(pre[1..], post, acc + c, interruption);
    }
  }

  /** Nothing after a stop is read, not even the interruption. */
  lemma {:induction false} ReadKindsStops(pre: seq<LineKind>, post: seq<LineKind>, acc: string, interruption: Option<string>)
    ensures ReadKinds(pre + [Stop] + post, acc, interruption) == ReadKinds(pre + [Stop], acc, None)
  {
    if |pre| > 0 {
      assert (pre + [Stop] + post)[1..] == pre[1..] + [Stop] + post;
      assert (pre + [Stop])[1..] == pre[1..] + [Stop];
      match pre[0]
      case Skip => ReadKindsStops(pre[1..], post, acc, interruption);
      case Stop =>
      case Fail(_) =>
      case Append(c) => ReadKindsStops(pre[1..], post, acc + c, interruption);
    }
  }

  /** Without failures and interruption, the reading ends with the usage-free terminal chunk. */
  lemma {:induction false} ReadKindsFinishes(kinds: seq<LineKind>, acc: string)
    requires forall i :: 0 <= i < |kinds| ==> !kinds[i].Fail?
    ensures var r := ReadKinds(kinds, acc, None);
      r[|r| - 1].Finished? && r[|r| - 1].usage.None?
  {
    if |kinds| > 0 {
      assert forall i :: 0 <= i < |kinds[1..]| ==> kinds[1..][i] == kinds[i + 1];
      match kinds[0]
      case Skip => ReadKindsFinishes(kinds[1..], acc);
      case Stop =>
      case Fail(_) =>
      case Append(c) =>
        ReadKindsFinishes(kinds[1..], acc + c);
        var rest := ReadKinds(kinds[1..], acc + c, None);
        assert ReadKinds(kinds, acc, None) == [Delta(c, acc + c)] + rest;
    }
  }

  /** The streamed HTTP reply: status, body text for errors, and the received lines. */
  datatype DeepSeekStreamResponse = DeepSeekStreamResponse(
    status: nat, text: string, lines: seq<string>, interruption: Option<string>)

  /** `DeepSeekModel.generate_text_stream`. */
  function DeepSeekStream(reply: Reply<DeepSeekStreamResponse>, decode: string -> Payload): (r: seq<Chunk>)
    ensures WellShaped(r) && Accumulating(r)
    ensures reply.Replied? && reply.body.status != 200 ==> r == [Error(HttpError(reply.body.status, reply.body.text))]
  {
    match reply
    case Raised(e) => [Error(e)]
    case Replied(resp) =>
      if resp.status != 200 then [Error(HttpError(resp.status, resp.text))]
      else
        ReadKindsShape(Kinds(resp.lines, decode), "", resp.interruption);
        DeepSeekChunks(resp.lines, "", decode, resp.interruption)
  }

  /** Lines that do not start with `data: ` (and empty keep-alive lines) change nothing. */
  lemma DeepSeekIgnoresOtherLines(
    pre: seq<string>, line: string, post: seq<string>, acc: string, decode: string -> Payload, interruption: Option<string>)
    requires Ignored(line)
    ensures DeepSeekChunks(pre + [line] + post, acc, decode, interruption)
         == DeepSeekChunks(pre + post, acc, decode, interruption)
  {
    DeepSeekDropsSkipped(pre, line, post, acc, decode, interruption);
  }

  /** A payload that does not decode, or has no `content`, is skipped. */
  lemma DeepSeekSkipsUndecodable(
    pre: seq<string>, line: string, post: seq<string>, acc: string, decode: string -> Payload, interruption: Option<string>)
    requires !Ignored(line) && !IsDone(line)
    requires decode(line[|DataPrefix|..]) == Undecodable || decode(line[|DataPrefix|..]) == NoContent
    ensures DeepSeekChunks(pre + [line] + post, acc, decode, interruption)
         == DeepSeekChunks(pre + post, acc, decode, interruption)
  {
    DeepSeekDropsSkipped(pre, line, post, acc, decode, interruption);
  }

  lemma DeepSeekDropsSkipped(
    pre: seq<string>, line: string, post: seq<string>, acc: string, decode: string -> Payload, interruption: Option<string>)
    requires Kind(line, decode) == Skip
    ensures DeepSeekChunks(pre + [line] + post, acc, decode, interruption)
         == DeepSeekChunks(pre + post, acc, decode, interruption)
  {
    KindsConcat(pre + [line], post, decode);
    KindsConcat(pre, [line], decode);
    KindsConcat(pre, post, decode);
    assert Kinds([line], decode) == [Skip];
    ReadKindsDropsSkip(Kinds(pre, decode), Kinds(post, decode), acc, interruption);
  }

  /**
   * `[DONE]` ends the reading: nothing after it, not even a later interruption, reaches the
   * output, and the stream ends with the usage-free terminal chunk.
   */
  lemma DeepSeekStopsAtDone(
    pre: seq<string>, done: string, post: seq<string>, acc: string, decode: string -> Payload, interruption: Option<string>)
    requires IsDone(done)
    ensures DeepSeekChunks(pre + [done] + post, acc, decode, interruption)
         == DeepSeekChunks(pre + [done], acc, decode, None)
  {
    KindsConcat(pre + [done], post, decode);
    KindsConcat(pre, [done], decode);
    assert Kinds([done], decode) == [Stop];
    ReadKindsStops(Kinds(pre, decode), Kinds(post, decode), acc, interruption);
  }

  /** With no interruption and no non-text content, a 200 DeepSeek stream always finishes. */
  lemma DeepSeekFinishes(lines: seq<string>, acc: string, decode: string -> Payload)
    requires forall i :: 0 <= i < |lines| ==> Ignored(lines[i]) || !decode(lines[i][|DataPrefix|..]).NonText?
    ensures var r := DeepSeekChunks(lines, acc, decode, None);
      r[|r| - 1].Finished? && r[|r| - 1].usage.None?
  {
    var kinds := Kinds(lines, decode);
    forall i | 0 <= i < |kinds| ensures !kinds[i].Fail? {
      assert kinds[i] == Kind(lines[i], decode);
    }
    ReadKindsFinishes(kinds, acc);
  }

  // ---------------------------------------------------------------- connection test

  /** `test_connection` of the Baidu, DashScope and DeepSeek clients: did a tiny call succeed? */
  function TestConnection(probe: GenerationResult): (ok: bool)
    ensures ok <==> probe.Generated?
  {
    probe.Generated?
  }

  /** The OpenAI probe passes exactly when the vendor call does not raise. */
  lemma OpenAIConnectionTest(reply: Reply<OpenAIResponse>)
    ensures TestConnection(OpenAIGenerate(reply)) <==> reply.Replied?
  {
  }

  /** The Baidu probe passes exactly when a non-empty token was obtained and the reply has a result. */
  lemma BaiduConnectionTest(exchange: Reply<Option<string>>, modelName: Option<string>, reply: Reply<BaiduBody>)
    ensures TestConnection(BaiduGenerate(BaiduAccessToken(exchange), modelName, reply)) <==>
      exchange.Replied? && exchange.body.Some? && exchange.body.value != "" &&
      reply.Replied? && reply.body.result.Some?
  {
  }

  /** The DashScope probe passes exactly when the vendor answers with status 200. */
  lemma DashScopeConnectionTest(modelName: Option<string>, reply: Reply<DashScopeResponse>)
    ensures TestConnection(DashScopeGenerate(modelName, reply)) <==> reply.Replied? && reply.body.statusCode == 200
  {
  }

  /** The DeepSeek probe passes exactly when the reply has status 200 and a decodable body. */
  lemma DeepSeekConnectionTest(modelName: Option<string>, reply: Reply<DeepSeekResponse>)
    ensures TestConnection(DeepSeekGenerate(modelName, reply)) <==>
      reply.Replied? && reply.body.status == 200 && reply.body.body.Replied?
  {
  }
}

=== FILE: publisher.dfy ===
/**
 * Multi-platform publishing: formatting to a platform's length limit, the Weibo and WeChat
 * content checks, the simulated publish calls, the per-platform orchestration of a draft
 * publication, and the adaptation suggestions.
 *
 * Time is an integer number of seconds (`now`); the simulated post ids are derived from it.
 */
module Publisher {
  import opened Wrappers
  import opened Models
  import Text
  import Config
  import Seqs

  /** The publishers of the registry. */
  datatype Kind = WeiboKind | WeChatKind

  /** The registry: only `weibo` and `wechat` have a publisher. */
  function PublisherFor(platform: string): (k: Option<Kind>)
    ensures k == Some(WeiboKind) <==> platform == "weibo"
    ensures k == Some(WeChatKind) <==> platform == "wechat"
    ensures k.None? <==> platform != "weibo" && platform != "wechat"
  {
    if platform == "weibo" then Some(WeiboKind)
    else if platform == "wechat" then Some(WeChatKind)
    else None
  }

  /** The platform key a publisher reads its configuration under. */
  function KeyOf(k: Kind): (p: string)
    ensures PublisherFor(p) == Some(k)
  {
    match k
    case WeiboKind => "weibo"
    case WeChatKind => "wechat"
  }

  /** The message of the TypeError `len(None)` raises for a draft without content. */
  const NoneLenError := "object of type 'NoneType' has no len()"

  // ---------------------------------------------------------------- formatting

  /** `text[:max_length-3] + "..."` when the text is longer than the limit. */
  function Truncate(text: string, maxLength: nat): (r: string)
    ensures |text| <= maxLength ==> r == text
    ensures |text| > maxLength && maxLength >= 3 ==> |r| == maxLength && r == text[..maxLength - 3] + "..."
    ensures |text| > maxLength ==> |r| >= 3 && r[|r| - 3..] == "..."
  {
    if |text| > maxLength then Text.PrefixTo(text, maxLength - 3) + "..." else text
  }

  /** With a limit of at least 3, a truncated text fits the limit. */
  lemma TruncateFits(text: string, maxLength: nat)
    requires maxLength >= 3
    ensures |Truncate(text, maxLength)| <= maxLength
  {
  }

  /** Truncating twice is truncating once. */
  lemma TruncateIdempotent(text: string, maxLength: nat)
    requires maxLength >= 3
    ensures Truncate(Truncate(text, maxLength), maxLength) == Truncate(text, maxLength)
  {
    TruncateFits(text, maxLength);
  }

  datatype Formatted = Formatted(title: string, text: string)

  /**
   * `format_content` for a platform: the text cut to the platform's `max_length` (1000 when
   * unconfigured). A draft without content raises, since `len(None)` is a TypeError.
   */
  function FormatContent(platform: string, title: string, content: Option<string>): (r: Result<Formatted>)
    ensures content.None? <==> r.Raises?
    ensures r.Raises? ==> r.message == NoneLenError
    ensures r.Ok? ==> r.value.title == title && r.value.text == Truncate(content.value, Config.MaxLengthOf(platform))
    ensures r.Ok? ==> |r.value.text| <= Config.MaxLengthOf(platform)
    ensures r.Ok? && |content.value| <= Config.MaxLengthOf(platform) ==> r.value.text == content.value
  {
    match content
    case None => Raises(NoneLenError)
    case Some(text) =>
      TruncateFits(text, Config.MaxLengthOf(platform));
      Ok(Formatted(title, Truncate(text, Config.MaxLengthOf(platform))))
  }

  // ---------------------------------------------------------------- content checks

  const WeiboLimit: nat := 140
  const SensitiveWords: seq<string> := ["违法", "政治", "色情"]

  /** The first word of `words`, in list order, that occurs in `text`. */
  function FirstContained(text: string, words: seq<string>): (r: Option<nat>)
    ensures r.Some? ==> r.value < |words| && Text.Contains(text, words[r.value])
    ensures r.Some? ==> forall j :: 0 <= j < r.value ==> !Text.Contains(text, words[j])
    ensures r.None? <==> forall j :: 0 <= j < |words| ==> !Text.Contains(text, words[j])
  {
    if |words| == 0 then None
    else if Text.Contains(text, words[0]) then Some(0)
    else
      var r := FirstContained(text, words[1..]);
      assert forall j :: 1 <= j < |words| ==> words[1..][j - 1] == words[j];
      if r.None? then None else Some(r.value + 1)
  }

  function OverLimitError(length: nat): string {
    "内容超过140字限制，当前" + Text.NatToString(length) + "字"
  }

  function SensitiveError(word: string): string {
    "内容包含敏感词：" + word
  }

  /** Weibo's `check_content`: `None` when valid, else the first error in rule order. */
  function WeiboCheck(text: string): (r: Option<string>)
    ensures r.None? <==> |text| <= WeiboLimit && forall j :: 0 <= j < |SensitiveWords| ==> !Text.Contains(text, SensitiveWords[j])
    ensures |text| > WeiboLimit ==> r == Some(OverLimitError(|text|))
    ensures |text| <= WeiboLimit && r.Some? ==>
      exists j :: 0 <= j < |SensitiveWords| && Text.Contains(text, SensitiveWords[j]) && r.value == SensitiveError(SensitiveWords[j])
        && forall i :: 0 <= i < j ==> !Text.Contains(text, SensitiveWords[i])
  {
    if |text| > WeiboLimit then Some(OverLimitError(|text|))
    else match FirstContained(text, SensitiveWords)
      case Some(j) => Some(SensitiveError(SensitiveWords[j]))
      case None => None
  }

  /** WeChat's `check_content`: empty title, title over 50, text under 100, in that order. */
  function WeChatCheck(title: string, text: string): (r: Option<string>)
    ensures r.None? <==> title != "" && |title| <= 50 && |text| >= 100
    ensures title == "" ==> r == Some("标题不能为空")
    ensures title != "" && |title| > 50 ==> r == Some("标题不能超过50字")
    ensures title != "" && |title| <= 50 && |text| < 100 ==> r == Some("内容不能少于100字")
  {
    if title == "" then Some("标题不能为空")
    else if |title| > 50 then Some("标题不能超过50字")
    else if |text| < 100 then Some("内容不能少于100字")
    else None
  }

  function Check(k: Kind, title: string, text: string): Option<string> {
    match k
    case WeiboKind => WeiboCheck(text)
    case WeChatKind => WeChatCheck(title, text)
  }

  // ---------------------------------------------------------------- publishing

  /**
   * The outcome for one platform:
   *  - `Refused`: no active account, or no publisher;
   *  - `Rejected`: the publisher's failure (check failed, or an exception), post id `None`;
   *  - `Published`: the simulated post;
   *  - `Queued`: a scheduled publication.
   */
  datatype PlatformResult =
    | Refused(error: string)
    | Rejected(error: string)
    | Published(postId: string, url: string)
    | Queued(message: string, time: int)
  {
    predicate Succeeded() { Published? || Queued? }

    /** `result.get('platform_post_id')`. */
    function PostId(): Option<string> {
      if Published? then Some(postId) else None
    }

    /** `result.get('error')`. */
    function Error(): Option<string> {
      if Refused? || Rejected? then Some(error) else None
    }
  }

  /** The simulated post id and address. */
  function PostOf(k: Kind, now: nat): (r: PlatformResult)
    ensures r.Published?
  {
    match k
    case WeiboKind =>
      var id := "wb_" + Text.NatToString(now);
      Published(id, "https://weibo.com/" + id)
    case WeChatKind =>
      var id := "wechat_" + Text.NatToString(now);
      Published(id, "https://mp.weixin.qq.com/s/" + id)
  }

  /** A publisher's `publish`: format, then check the formatted content, then post. */
  function Publish(k: Kind, title: string, content: Option<string>, now: nat): (r: PlatformResult)
    ensures !r.Refused? && !r.Queued?
    ensures content.None? ==> r == Rejected(NoneLenError)
    ensures r.Published? <==>
      content.Some? && Check(k, title, Truncate(content.value, Config.MaxLengthOf(KeyOf(k)))).None?
    ensures content.Some? && r.Rejected? ==>
      Check(k, title, Truncate(content.value, Config.MaxLengthOf(KeyOf(k)))) == Some(r.error)
  {
    match FormatContent(KeyOf(k), title, content)
    case Raises(m) => Rejected(m)
    case Ok(f) =>
      match Check(k, f.title, f.text)
      case Some(e) => Rejected(e)
      case None => PostOf(k, now)
  }

  /**
   * Because `publish` formats before it checks, a Weibo publication is never rejected by the
   * 140-character rule: its only rejections are a sensitive word or a missing content.
   */
  lemma WeiboNeverOverLimit(title: string, content: Option<string>, now: nat)
    ensures var r := Publish(WeiboKind, title, content, now);
      r.Rejected? ==>
        r.error == NoneLenError
        || exists j :: 0 <= j < |SensitiveWords| && r.error == SensitiveError(SensitiveWords[j])
  {
    var r := Publish(WeiboKind, title, content, now);
    if content.Some? {
      var f := Truncate(content.value, Config.MaxLengthOf("weibo"));
      assert |f| <= WeiboLimit;
    }
  }

  // ---------------------------------------------------------------- orchestration

  /** The tables `publish_content` reads and writes. */
  datatype PublishState = PublishState(
    drafts: seq<ContentDraft>, accounts: seq<PlatformAccount>, records: seq<PublishRecord>)

  /** The first draft with the id (`.first()`). */
  function FindDraft(drafts: seq<ContentDraft>, id: int): (r: Option<nat>)
    ensures r.Some? ==> r.value < |drafts| && drafts[r.value].id == id
    ensures r.None? <==> forall j :: 0 <= j < |drafts| ==> drafts[j].id != id
  {
    if |drafts| == 0 then None
    else if drafts[0].id == id then Some(0)
    else
      var r := FindDraft(drafts[1..], id);
      if r.None? then None else Some(r.value + 1)
  }

  /** An account that may publish on the platform. */
  predicate Usable(a: PlatformAccount, platform: string) {
    a.platform == platform && a.isActive
  }

  /** The first active account of the platform (`.first()`). */
  function FindAccount(accounts: seq<PlatformAccount>, platform: string): (r: Option<nat>)
    ensures r.Some? ==> r.value < |accounts| && Usable(accounts[r.value], platform)
    ensures r.Some? ==> forall j :: 0 <= j < r.value ==> !Usable(accounts[j], platform)
    ensures r.None? <==> forall j :: 0 <= j < |accounts| ==> !Usable(accounts[j], platform)
  {
    if |accounts| == 0 then None
    else if Usable(accounts[0], platform) then Some(0)
    else
      var r := FindAccount(accounts[1..], platform);
      assert forall j :: 1 <= j < |accounts| ==> accounts[1..][j - 1] == accounts[j];
      if r.None? then None else Some(r.value + 1)
  }

  /** Two account tables that differ at most in `last_used`. */
  predicate SameAccounts(a: seq<PlatformAccount>, b: seq<PlatformAccount>) {
    |a| == |b| && forall i :: 0 <= i < |a| ==> a[i].(lastUsed := None) == b[i].(lastUsed := None)
  }

  lemma FindAccountSame(a: seq<PlatformAccount>, b: seq<PlatformAccount>, platform: string)
    requires SameAccounts(a, b)
    ensures FindAccount(a, platform) == FindAccount(b, platform)
  {
    assert forall i :: 0 <= i < |a| ==> (Usable(a[i], platform) <==> Usable(b[i], platform)) by {
      forall i | 0 <= i < |a| ensures Usable(a[i], platform) <==> Usable(b[i], platform) {
        assert a[i].(lastUsed := None).platform == a[i].platform;
        assert b[i].(lastUsed := None).isActive == b[i].isActive;
      }
    }
  }

  /** The outcome for a platform does not depend on when accounts were last used. */
  lemma OutcomeSame(a: seq<PlatformAccount>, b: seq<PlatformAccount>, draft: ContentDraft, platform: string,
                    publishTime: Option<int>, now: nat)
    requires SameAccounts(a, b)
    ensures PlatformOutcome(a, draft, platform, publishTime, now) == PlatformOutcome(b, draft, platform, publishTime, now)
  {
    FindAccountSame(a, b, platform);
  }

  /** A publish time strictly in the future schedules instead of publishing. */
  predicate Future(publishTime: Option<int>, now: nat) {
    publishTime.Some? && publishTime.value > now
  }

  /** The result entry for one platform, as a function of the tables before the call. */
  function PlatformOutcome(accounts: seq<PlatformAccount>, draft: ContentDraft, platform: string,
                           publishTime: Option<int>, now: nat): (r: PlatformResult)
    ensures FindAccount(accounts, platform).None? ==> r == Refused("未找到" + platform + "平台的有效账号")
    ensures FindAccount(accounts, platform).Some? && PublisherFor(platform).None? ==> r == Refused("不支持的平台：" + platform)
    ensures r.Queued? <==> FindAccount(accounts, platform).Some? && PublisherFor(platform).Some? && Future(publishTime, now)
    ensures r.Published? || r.Rejected? <==>
      FindAccount(accounts, platform).Some? && PublisherFor(platform).Some? && !Future(publishTime, now)
  {
    if FindAccount(accounts, platform).None? then Refused("未找到" + platform + "平台的有效账号")
    else match PublisherFor(platform)
      case None => Refused("不支持的平台：" + platform)
      case Some(k) =>
        if Future(publishTime, now) then Queued("已安排定时发布到" + platform, publishTime.value)
        else Publish(k, draft.title, draft.content, now)
  }

  /** The ids of the publish records, in row order. */
  function RecordIds(records: seq<PublishRecord>): seq<int> {
    seq(|records|, i requires 0 <= i < |records| => records[i].id)
  }

  /** The record written for a platform that has an account and a publisher. */
  function RecordFor(records: seq<PublishRecord>, draft: ContentDraft, platform: string,
                     result: PlatformResult, publishTime: Option<int>, now: nat): PublishRecord {
    var base := NewPublishRecord(NextId(RecordIds(records)), draft.id, platform, draft.title, draft.content, now);
    if result.Queued? then base.(status := Scheduled, publishTime := publishTime)
    else base.(status := if result.Published? then Succeeded else Failed, publishTime := Some(now),
               platformPostId := result.PostId(), errorMessage := result.Error())
  }

  /**
   * What the record of a platform's attempt holds: the draft's title and content, and either the
   * schedule (no post id, no error) or the publication's time, status, post id and error.
   */
  predicate RecordOf(rec: PublishRecord, draft: ContentDraft, platform: string, result: PlatformResult,
                     publishTime: Option<int>, now: nat) {
    && rec.draftId == draft.id && rec.platform == platform
    && rec.title == draft.title && rec.content == draft.content && rec.createdAt == now
    && (if result.Queued? then
          rec.status == Scheduled && rec.publishTime == publishTime
          && rec.platformPostId.None? && rec.errorMessage.None?
        else
          rec.status == (if result.Published? then Succeeded else Failed) && rec.publishTime == Some(now)
          && rec.platformPostId == result.PostId() && rec.errorMessage == result.Error())
  }

  /** The entries of `platforms` that have an account and a publisher, in request order (repeats kept). */
  function Attempted(accounts: seq<PlatformAccount>, platforms: seq<string>): seq<string> {
    if |platforms| == 0 then []
    else (if FindAccount(accounts, platforms[0]).Some? && PublisherFor(platforms[0]).Some? then [platforms[0]] else [])
         + Attempted(accounts, platforms[1..])
  }

  /** One iteration of the platform loop. */
  function PublishOne(st: PublishState, draft: ContentDraft, platform: string, publishTime: Option<int>, now: nat)
    : (r: (PlatformResult, PublishState))
    ensures r.0 == PlatformOutcome(st.accounts, draft, platform, publishTime, now)
    ensures r.1.drafts == st.drafts && SameAccounts(st.accounts, r.1.accounts)
    ensures r.0.Refused? ==> r.1 == st
    ensures !r.0.Refused? ==> r.1.records == st.records + [RecordFor(st.records, draft, platform, r.0, publishTime, now)]
  {
    var result := PlatformOutcome(st.accounts, draft, platform, publishTime, now);
    if result.Refused? then (result, st)
    else
      var k := FindAccount(st.accounts, platform).value;
      var accounts := st.accounts[k := st.accounts[k].(lastUsed := Some(now))];
      var records := st.records + [RecordFor(st.records, draft, platform, result, publishTime, now)];
      (result, PublishState(st.drafts, accounts, records))
  }

  /** The platform loop: entries are keyed by platform, a repeated platform overwriting its entry. */
  function PublishLoop(st: PublishState, draft: ContentDraft, platforms: seq<string>, publishTime: Option<int>,
                       now: nat, results: seq<(string, PlatformResult)>): (r: (seq<(string, PlatformResult)>, PublishState))
    ensures r.1.drafts == st.drafts && SameAccounts(st.accounts, r.1.accounts)
    ensures |r.1.records| >= |st.records| && r.1.records[..|st.records|] == st.records
    decreases |platforms|
  {
    if |platforms| == 0 then (results, st)
    else
      var one := PublishOne(st, draft, platforms[0], publishTime, now);
      var r := PublishLoop(one.1, draft, platforms[1..], publishTime, now, Seqs.Put(results, platforms[0], one.0));
      assert r.1.records[..|st.records|] == r.1.records[..|one.1.records|][..|st.records|];
      assert SameAccounts(st.accounts, r.1.accounts) by {
        forall i | 0 <= i < |st.accounts| ensures st.accounts[i].(lastUsed := None) == r.1.accounts[i].(lastUsed := None) {
          assert st.accounts[i].(lastUsed := None) == one.1.accounts[i].(lastUsed := None);
        }
      }
      r
  }

  /**
   * The loop's entries: one per distinct platform, requested ones holding the platform's own
   * outcome on the tables before the call, the others as they were.
   */
  lemma PublishLoopResults(st: PublishState, draft: ContentDraft, platforms: seq<string>,
                           publishTime: Option<int>, now: nat, results: seq<(string, PlatformResult)>)
    ensures var r := PublishLoop(st, draft, platforms, publishTime, now, results);
      && Seqs.KeySet(r.0) == Seqs.KeySet(results) + (set p | p in platforms)
      && (Seqs.DistinctKeys(results) ==> Seqs.DistinctKeys(r.0))
      && (forall p :: p in platforms ==> Seqs.Get(r.0, p) == Some(PlatformOutcome(st.accounts, draft, p, publishTime, now)))
      && (forall p :: p !in platforms ==> Seqs.Get(r.0, p) == Seqs.Get(results, p))
  {
    PublishLoopKeys(st, draft, platforms, publishTime, now, results);
    PublishLoopValues(st, draft, platforms, publishTime, now, results);
  }

  /** The loop adds one key per requested platform and keeps the keys distinct. */
  lemma {:induction false} PublishLoopKeys(st: PublishState, draft: ContentDraft, platforms: seq<string>,
                                           publishTime: Option<int>, now: nat, results: seq<(string, PlatformResult)>)
    ensures var r := PublishLoop(st, draft, platforms, publishTime, now, results);
      && Seqs.KeySet(r.0) == Seqs.KeySet(results) + (set p | p in platforms)
      && (Seqs.DistinctKeys(results) ==> Seqs.DistinctKeys(r.0))
    decreases |platforms|
  {
    if |platforms| > 0 {
      var p0 := platforms[0];
      var one := PublishOne(st, draft, p0, publishTime, now);
      var results' := Seqs.Put(results, p0, one.0);
      PublishLoopKeys(one.1, draft, platforms[1..], publishTime, now, results');
      var r := PublishLoop(st, draft, platforms, publishTime, now, results);
      assert r == PublishLoop(one.1, draft, platforms[1..], publishTime, now, results');
      KeysStep(results, platforms, one.0, r.0);
    }
  }

  /** Putting the first platform's entry, then those of the rest, adds the keys of all of them. */
  lemma KeysStep(results: seq<(string, PlatformResult)>, platforms: seq<string>, v: PlatformResult,
                 final: seq<(string, PlatformResult)>)
    requires |platforms| > 0
    requires Seqs.KeySet(final) == Seqs.KeySet(Seqs.Put(results, platforms[0], v)) + (set p | p in platforms[1..])
    requires Seqs.DistinctKeys(Seqs.Put(results, platforms[0], v)) ==> Seqs.DistinctKeys(final)
    ensures Seqs.KeySet(final) == Seqs.KeySet(results) + (set p | p in platforms)
    ensures Seqs.DistinctKeys(results) ==> Seqs.DistinctKeys(final)
  {
    var p0 := platforms[0];
    Seqs.PutKeys(results, p0, v);
    assert (set p | p in platforms) == {p0} + set p | p in platforms[1..] by {
      assert forall p :: p in platforms <==> p == p0 || p in platforms[1..] by {
        assert platforms == [p0] + platforms[1..];
      }
    }
  }

  /** Each requested platform's entry is its own outcome; other entries are untouched. */
  lemma {:induction false} PublishLoopValues(st: PublishState, draft: ContentDraft, platforms: seq<string>,
                                             publishTime: Option<int>, now: nat, results: seq<(string, PlatformResult)>)
    ensures var r := PublishLoop(st, draft, platforms, publishTime, now, results);
      && (forall p :: p in platforms ==> Seqs.Get(r.0, p) == Some(PlatformOutcome(st.accounts, draft, p, publishTime, now)))
      && (forall p :: p !in platforms ==> Seqs.Get(r.0, p) == Seqs.Get(results, p))
    decreases |platforms|
  {
    if |platforms| > 0 {
      var p0 := platforms[0];
      var one := PublishOne(st, draft, p0, publishTime, now);
      var results' := Seqs.Put(results, p0, one.0);
      PublishLoopValues(one.1, draft, platforms[1..], publishTime, now, results');
      var r := PublishLoop(st, draft, platforms, publishTime, now, results);
      assert r == PublishLoop(one.1, draft, platforms[1..], publishTime, now, results');
      forall p | p in platforms ensures Seqs.Get(r.0, p) == Some(PlatformOutcome(st.accounts, draft, p, publishTime, now)) {
        if p in platforms[1..] {
          OutcomeSame(st.accounts, one.1.accounts, draft, p, publishTime, now);
        } else {
          assert p == p0;
          Seqs.PutGet(results, p0, one.0, p);
        }
      }
      forall p | p !in platforms ensures Seqs.Get(r.0, p) == Seqs.Get(results, p) {
        assert p != p0 && p !in platforms[1..];
        Seqs.PutGet(results, p0, one.0, p);
      }
    }
  }

  /**
   * The records from position `from` on are one per attempted platform, in order, each holding
   * that platform's own outcome on the account table `accounts`.
   */
  ghost predicate NewRecords(records: seq<PublishRecord>, from: nat, draft: ContentDraft, accounts: seq<PlatformAccount>,
                             attempted: seq<string>, publishTime: Option<int>, now: nat) {
    Seqs.PairedFrom(records, from, attempted, RecordHolds(draft, accounts, publishTime, now))
  }

  /** `RecordOf` for a platform's own outcome on the account table `accounts`. */
  function RecordHolds(draft: ContentDraft, accounts: seq<PlatformAccount>, publishTime: Option<int>, now: nat)
    : (PublishRecord, string) -> bool
  {
    (rec: PublishRecord, p: string) =>
      RecordOf(rec, draft, p, PlatformOutcome(accounts, draft, p, publishTime, now), publishTime, now)
  }

  /**
   * The loop's records: after the old ones, one record per requested entry with an account and
   * a publisher (repeats included), in request order, each recording that platform's outcome.
   */
  lemma {:induction false} PublishLoopRecords(st: PublishState, draft: ContentDraft, platforms: seq<string>,
                                              publishTime: Option<int>, now: nat, results: seq<(string, PlatformResult)>)
    ensures var r := PublishLoop(st, draft, platforms, publishTime, now, results);
      NewRecords(r.1.records, |st.records|, draft, st.accounts, Attempted(st.accounts, platforms), publishTime, now)
    decreases |platforms|
  {
    var r := PublishLoop(st, draft, platforms, publishTime, now, results);
    if |platforms| > 0 {
      var p0 := platforms[0];
      var one := PublishOne(st, draft, p0, publishTime, now);
      var results' := Seqs.Put(results, p0, one.0);
      PublishLoopRecords(one.1, draft, platforms[1..], publishTime, now, results');
      assert r == PublishLoop(one.1, draft, platforms[1..], publishTime, now, results');
      AttemptedSame(st.accounts, one.1.accounts, platforms[1..]);
      NewRecordsSame(r.1.records, |one.1.records|, draft, st.accounts, one.1.accounts,
                     Attempted(st.accounts, platforms[1..]), publishTime, now);
      PublishOneRecord(st, draft, p0, publishTime, now);
      if !one.0.Refused? {
        assert RecordHolds(draft, st.accounts, publishTime, now)(one.1.records[|st.records|], p0);
      }
      assert r.1.records[..|one.1.records|] == one.1.records;
      AttemptedJoin(r.1.records, one.1.records, |st.records|, st.accounts, platforms, RecordHolds(draft, st.accounts, publishTime, now));
    } else {
      assert r.1 == st;
    }
  }

  /** `NewRecords` depends on the account table only through the outcomes. */
  lemma NewRecordsSame(records: seq<PublishRecord>, from: nat, draft: ContentDraft, a: seq<PlatformAccount>,
                       b: seq<PlatformAccount>, attempted: seq<string>, publishTime: Option<int>, now: nat)
    requires SameAccounts(a, b)
    requires NewRecords(records, from, draft, b, attempted, publishTime, now)
    ensures NewRecords(records, from, draft, a, attempted, publishTime, now)
  {
    forall i | 0 <= i < |attempted|
      ensures RecordHolds(draft, a, publishTime, now)(records[from + i], attempted[i])
    {
      assert RecordHolds(draft, b, publishTime, now)(records[from + i], attempted[i]);
      OutcomeSame(a, b, draft, attempted[i], publishTime, now);
    }
  }

  /**
   * The pairing of the first platform (if attempted) followed by the pairing of the others is
   * the pairing of all attempted platforms, for any pairing `holds`.
   */
  lemma AttemptedJoin(records: seq<PublishRecord>, mid: seq<PublishRecord>, from: nat,
                      accounts: seq<PlatformAccount>, platforms: seq<string>, holds: (PublishRecord, string) -> bool)
    requires |platforms| > 0 && from <= |mid| <= |records| && records[..|mid|] == mid
    requires var p0 := platforms[0];
      if FindAccount(accounts, p0).Some? && PublisherFor(p0).Some? then |mid| == from + 1 && holds(mid[from], p0)
      else |mid| == from
    requires Seqs.PairedFrom(records, |mid|, Attempted(accounts, platforms[1..]), holds)
    ensures Seqs.PairedFrom(records, from, Attempted(accounts, platforms), holds)
  {
    var p0 := platforms[0];
    var head := if FindAccount(accounts, p0).Some? && PublisherFor(p0).Some? then [p0] else [];
    assert Attempted(accounts, platforms) == head + Attempted(accounts, platforms[1..]);
    if |head| == 1 {
      assert records[from] == records[..|mid|][from] == mid[from];
    }
    Seqs.PairedJoin(records, from, head, Attempted(accounts, platforms[1..]), holds);
  }

  /** One iteration writes a record exactly when the platform has an account and a publisher, recording its outcome. */
  lemma PublishOneRecord(st: PublishState, draft: ContentDraft, platform: string, publishTime: Option<int>, now: nat)
    ensures var one := PublishOne(st, draft, platform, publishTime, now);
      && (one.0.Refused? <==> !(FindAccount(st.accounts, platform).Some? && PublisherFor(platform).Some?))
      && (one.0.Refused? ==> one.1.records == st.records)
      && (!one.0.Refused? ==>
            && |one.1.records| == |st.records| + 1
            && RecordOf(one.1.records[|st.records|], draft, platform, PlatformOutcome(st.accounts, draft, platform, publishTime, now),
                        publishTime, now))
  {
  }

  lemma {:induction false} AttemptedSame(a: seq<PlatformAccount>, b: seq<PlatformAccount>, platforms: seq<string>)
    requires SameAccounts(a, b)
    ensures Attempted(a, platforms) == Attempted(b, platforms)
  {
    if |platforms| > 0 {
      FindAccountSame(a, b, platforms[0]);
      AttemptedSame(a, b, platforms[1..]);
    }
  }

  /** How many entries succeeded. */
  function CountSucceeded(results: seq<(string, PlatformResult)>): (n: nat)
    ensures n <= |results|
    ensures n > 0 <==> exists i :: 0 <= i < |results| && results[i].1.Succeeded()
  {
    if |results| == 0 then 0
    else
      var rest := CountSucceeded(results[1..]);
      assert forall i :: 1 <= i < |results| ==> results[1..][i - 1] == results[i];
      (if results[0].1.Succeeded() then 1 else 0) + rest
  }

  datatype PublishOutcome =
    | DraftMissing
    | Report(success: bool, summary: string, results: seq<(string, PlatformResult)>)

  /**
   * `publish_content`: a missing draft is an error and nothing changes; otherwise one entry per
   * distinct requested platform, and overall success iff some entry succeeded.
   */
  function PublishContent(st: PublishState, draftId: int, platforms: seq<string>, publishTime: Option<int>, now: nat)
    : (r: (PublishOutcome, PublishState))
    ensures FindDraft(st.drafts, draftId).None? <==> r.0.DraftMissing?
    ensures r.0.DraftMissing? ==> r.1 == st
    ensures r.0.Report? ==>
      var draft := st.drafts[FindDraft(st.drafts, draftId).value];
      && Seqs.KeySet(r.0.results) == (set p | p in platforms)
      && Seqs.DistinctKeys(r.0.results)
      && (forall p :: p in platforms ==> Seqs.Get(r.0.results, p) == Some(PlatformOutcome(st.accounts, draft, p, publishTime, now)))
      && r.1.drafts == st.drafts && SameAccounts(st.accounts, r.1.accounts)
      && |r.1.records| == |st.records| + |Attempted(st.accounts, platforms)|
      && r.1.records[..|st.records|] == st.records
      && NewRecords(r.1.records, |st.records|, draft, st.accounts, Attempted(st.accounts, platforms), publishTime, now)
  {
    match FindDraft(st.drafts, draftId)
    case None => (DraftMissing, st)
    case Some(d) =>
      var loop := PublishLoop(st, st.drafts[d], platforms, publishTime, now, []);
      PublishLoopResults(st, st.drafts[d], platforms, publishTime, now, []);
      PublishLoopRecords(st, st.drafts[d], platforms, publishTime, now, []);
      assert Seqs.KeySet<string, PlatformResult>([]) == {};
      var n := CountSucceeded(loop.0);
      (Report(n > 0, "成功发布到" + Text.NatToString(n) + "/" + Text.NatToString(|loop.0|) + "个平台", loop.0), loop.1)
  }

  /** Publishing without a publish time writes no scheduled record. */
  lemma PublishNowSchedulesNothing(st: PublishState, draftId: int, platforms: seq<string>, now: nat)
    ensures var r := PublishContent(st, draftId, platforms, None, now);
      && |r.1.records| >= |st.records|
      && forall i :: |st.records| <= i < |r.1.records| ==> r.1.records[i].status != Scheduled
  {
    var r := PublishContent(st, draftId, platforms, None, now);
    if r.0.Report? {
      var draft := st.drafts[FindDraft(st.drafts, draftId).value];
      NewRecordsUnscheduled(r.1.records, |st.records|, draft, st.accounts, Attempted(st.accounts, platforms), now);
    }
  }

  /** Records of attempts without a publish time are never scheduled. */
  lemma NewRecordsUnscheduled(records: seq<PublishRecord>, from: nat, draft: ContentDraft, accounts: seq<PlatformAccount>,
                              attempted: seq<string>, now: nat)
    requires NewRecords(records, from, draft, accounts, attempted, None, now)
    ensures forall i :: from <= i < |records| ==> records[i].status != Scheduled
  {
    forall i | from <= i < |records| ensures records[i].status != Scheduled {
      var k := i - from;
      assert RecordHolds(draft, accounts, None, now)(records[from + k], attempted[k]);
    }
  }

  /** The report's overall flag says some entry succeeded, and its summary counts the successes. */
  lemma PublishReportSummary(st: PublishState, draftId: int, platforms: seq<string>, publishTime: Option<int>, now: nat)
    ensures var r := PublishContent(st, draftId, platforms, publishTime, now);
      r.0.Report? ==>
      && (r.0.success <==> exists i :: 0 <= i < |r.0.results| && r.0.results[i].1.Succeeded())
      && r.0.summary == "成功发布到" + Text.NatToString(CountSucceeded(r.0.results)) + "/" + Text.NatToString(|r.0.results|) + "个平台"
  {
  }

  /** Overall success iff some requested platform's own outcome succeeded. */
  lemma PublishSuccessIffSome(st: PublishState, draftId: int, platforms: seq<string>, publishTime: Option<int>, now: nat)
    requires FindDraft(st.drafts, draftId).Some?
    ensures var r := PublishContent(st, draftId, platforms, publishTime, now);
      var draft := st.drafts[FindDraft(st.drafts, draftId).value];
      r.0.success <==> exists p :: p in platforms && PlatformOutcome(st.accounts, draft, p, publishTime, now).Succeeded()
  {
    var r := PublishContent(st, draftId, platforms, publishTime, now);
    var draft := st.drafts[FindDraft(st.drafts, draftId).value];
    var res := r.0.results;
    PublishReportSummary(st, draftId, platforms, publishTime, now);
    if r.0.success {
      var i :| 0 <= i < |res| && res[i].1.Succeeded();
      var p := res[i].0;
      assert p in Seqs.KeySet(res);
      Seqs.GetAt(res, i);
    }
    if exists p :: p in platforms && PlatformOutcome(st.accounts, draft, p, publishTime, now).Succeeded() {
      var p :| p in platforms && PlatformOutcome(st.accounts, draft, p, publishTime, now).Succeeded();
      var i := Seqs.IndexOfKey(res, p);
      assert res[i].1.Succeeded();
    }
  }


  // ---------------------------------------------------------------- suggestions

  /** `check_platform_content`: the publisher's check, without formatting. */
  function CheckPlatformContent(accounts: seq<PlatformAccount>, platform: string, title: string, text: string): (r: Option<string>)
    ensures FindAccount(accounts, platform).None? ==> r == Some("未配置" + platform + "账号")
    ensures FindAccount(accounts, platform).Some? && PublisherFor(platform).Some? ==>
      r == Check(PublisherFor(platform).value, title, text)
  {
    if FindAccount(accounts, platform).None? then Some("未配置" + platform + "账号")
    else match PublisherFor(platform)
      case None => Some("不支持的平台：" + platform)
      case Some(k) => Check(k, title, text)
  }

  datatype Suggestion = Suggestion(
    platformName: string, valid: bool, error: Option<string>, maxLength: Option<nat>,
    currentLength: nat, supportImages: bool, supportVideo: bool, optimization: string)

  const Fits := "内容符合平台要求"
  const AddContent := "请添加必要的内容"
  const Adjust := "请根据错误提示调整内容"

  function Shorten(maxLength: Option<nat>): string {
    "建议将内容缩短至" + (if maxLength.Some? then Text.NatToString(maxLength.value) else "None") + "字以内"
  }

  /** The optimization advice, in rule order. */
  function Optimization(error: Option<string>, maxLength: Option<nat>): (r: string)
    ensures error.None? || error.value == "" ==> r == Fits
    ensures error.Some? && Text.Contains(error.value, "超过") && Text.Contains(error.value, "字限制") ==> r == Shorten(maxLength)
    ensures error.Some? && error.value != "" && !(Text.Contains(error.value, "超过") && Text.Contains(error.value, "字限制")) ==>
      r == (if Text.Contains(error.value, "不能为空") then AddContent else Adjust)
  {
    if error.Some? && error.value != "" then
      if Text.Contains(error.value, "超过") && Text.Contains(error.value, "字限制") then Shorten(maxLength)
      else if Text.Contains(error.value, "不能为空") then AddContent
      else Adjust
    else Fits
  }

  /** One platform's suggestion. */
  function SuggestionFor(accounts: seq<PlatformAccount>, platform: string, title: string, text: string): (r: Suggestion)
    ensures r.currentLength == |text|
    ensures r.valid <==> CheckPlatformContent(accounts, platform, title, text).None?
  {
    var error := CheckPlatformContent(accounts, platform, title, text);
    var info := Config.GetPlatformConfig(platform);
    Suggestion(
      if info.Some? then info.value.name else platform,
      error.None?,
      error,
      if info.Some? then Some(info.value.maxLength) else None,
      |text|,
      info.Some? && info.value.supportImages,
      info.Some? && info.value.supportVideo,
      Optimization(error, if info.Some? then Some(info.value.maxLength) else None))
  }

  /** `get_platform_suggestions`: one entry per publisher, in registry order. */
  function GetPlatformSuggestions(accounts: seq<PlatformAccount>, title: string, text: string): (r: seq<(string, Suggestion)>)
    ensures |r| == 2 && r[0].0 == "weibo" && r[1].0 == "wechat"
    ensures forall i :: 0 <= i < 2 ==> r[i].1.currentLength == |text|
    ensures forall i :: 0 <= i < 2 ==> (r[i].1.valid <==> CheckPlatformContent(accounts, r[i].0, title, text).None?)
  {
    [("weibo", SuggestionFor(accounts, "weibo", title, text)), ("wechat", SuggestionFor(accounts, "wechat", title, text))]
  }

  /** Valid content, and only valid content, is told it fits. */
  lemma SuggestionFitsIffValid(accounts: seq<PlatformAccount>, title: string, text: string, i: nat)
    requires i < 2
    ensures var s := GetPlatformSuggestions(accounts, title, text)[i].1;
      s.valid <==> s.optimization == Fits
  {
    var platform := if i == 0 then "weibo" else "wechat";
    var e := CheckPlatformContent(accounts, platform, title, text);
    if e.Some? {
      assert e.value != "";
    }
  }

  /** Over-long Weibo text with an account is told to shorten to 140. */
  lemma SuggestShortenWeibo(accounts: seq<PlatformAccount>, title: string, text: string)
    requires FindAccount(accounts, "weibo").Some? && |text| > WeiboLimit
    ensures GetPlatformSuggestions(accounts, title, text)[0].1.optimization == "建议将内容缩短至140字以内"
  {
    var e := OverLimitError(|text|);
    assert CheckPlatformContent(accounts, "weibo", title, text) == Some(e);
    assert Config.GetPlatformConfig("weibo").value.maxLength == 140;
    assert GetPlatformSuggestions(accounts, title, text)[0].1.optimization == Optimization(Some(e), Some(140));
    OverLimitAdvice(|text|);
  }

  /** The advice for an over-limit message is to shorten to the limit. */
  lemma OverLimitAdvice(n: nat)
    ensures Optimization(Some(OverLimitError(n)), Some(140)) == "建议将内容缩短至140字以内"
  {
    OverLimitMentionsLimit(n);
    assert Text.NatToString(140) == "140";
  }

  /** The over-limit message names an exceeded character limit. */
  lemma OverLimitMentionsLimit(n: nat)
    ensures Text.Contains(OverLimitError(n), "超过") && Text.Contains(OverLimitError(n), "字限制")
  {
    var head := "内容超过140字限制，当前";
    var e := OverLimitError(n);
    assert e == head + (Text.NatToString(n) + "字");
    assert e[2..4] == head[2..4] == "超过";
    assert e[7..10] == head[7..10] == "字限制";
    Text.ContainsAt(e, "超过", 2);
    Text.ContainsAt(e, "字限制", 7);
  }

  /** An empty WeChat title with an account is told to add content. */
  lemma SuggestAddContentWeChat(accounts: seq<PlatformAccount>, text: string)
    requires FindAccount(accounts, "wechat").Some?
    ensures GetPlatformSuggestions(accounts, "", text)[1].1.optimization == AddContent
  {
    var e := "标题不能为空";
    assert CheckPlatformContent(accounts, "wechat", "", text) == Some(e);
    var info := Config.GetPlatformConfig("wechat");
    assert GetPlatformSuggestions(accounts, "", text)[1].1.optimization == Optimization(Some(e), Some(info.value.maxLength));
    EmptyTitleAdvice(info.value.maxLength);
  }

  /** The advice for a missing title is to add content. */
  lemma EmptyTitleAdvice(maxLength: nat)
    ensures Optimization(Some("标题不能为空"), Some(maxLength)) == AddContent
  {
    var e := "标题不能为空";
    assert forall k :: 0 <= k < |e| ==> e[k] != "超过"[0];
    Text.NotContainsByFirstChar(e, "超过");
    assert e[2..6] == "不能为空";
    Text.ContainsAt(e, "不能为空", 2);
  }

  /** A platform without an active account gets the generic advice. */
  lemma SuggestAdjustWithoutAccount(accounts: seq<PlatformAccount>, title: string, text: string)
    requires FindAccount(accounts, "weibo").None?
    ensures GetPlatformSuggestions(accounts, title, text)[0].1.optimization == Adjust
  {
    var e := "未配置" + "weibo" + "账号";
    assert CheckPlatformContent(accounts, "weibo", title, text) == Some(e);
    assert e == "未配置weibo账号";
    Text.NotContainsByFirstChar(e, "超过");
    Text.NotContainsByFirstChar(e, "不能为空");
    assert Optimization(Some(e), Some(140)) == Adjust;
    assert SuggestionFor(accounts, "weibo", title, text).optimization == Optimization(Some(e), Some(140));
  }
}

=== FILE: scheduler.dfy ===
/**
 * The scheduled-publication job: every record still `scheduled` whose time has come is
 * published now through the orchestration of module Publisher, for its own platform, and
 * ends `success` or `failed`.
 */
module Scheduler {
  import opened Wrappers
  import opened Models
  import Seqs
  import Publisher

  /** A record the job picks up: scheduled, with a publish time not after `now`. */
  predicate Due(r: PublishRecord, now: nat) {
    r.status == Scheduled && r.publishTime.Some? && r.publishTime.value <= now
  }

  /** The positions of the due records, in row order. */
  function DueIndices(records: seq<PublishRecord>, now: nat, from: nat): (r: seq<nat>)
    requires from <= |records|
    ensures forall j :: 0 <= j < |r| ==> from <= r[j] < |records| && Due(records[r[j]], now)
    ensures forall j, k :: 0 <= j < k < |r| ==> r[j] < r[k]
    ensures forall i :: from <= i < |records| && Due(records[i], now) ==> i in r
    decreases |records| - from
  {
    if from == |records| then []
    else if Due(records[from], now) then [from] + DueIndices(records, now, from + 1)
    else DueIndices(records, now, from + 1)
  }

  /** With no due record from `from` on, there is nothing to handle. */
  lemma {:induction false} NothingDue(records: seq<PublishRecord>, now: nat, from: nat)
    requires from <= |records|
    requires forall i :: from <= i < |records| ==> !Due(records[i], now)
    ensures DueIndices(records, now, from) == []
    decreases |records| - from
  {
    if from < |records| {
      NothingDue(records, now, from + 1);
    }
  }

  const MissingDraft := "草稿不存在"

  /**
   * What the job reaches for record `rec` on the tables `st`: `None` when its draft is missing,
   * otherwise the platform's outcome for that draft, published immediately.
   */
  function OutcomeOf(st: Publisher.PublishState, rec: PublishRecord, now: nat): Option<Publisher.PlatformResult> {
    match Publisher.FindDraft(st.drafts, rec.draftId)
    case None => None
    case Some(d) => Some(Publisher.PlatformOutcome(st.accounts, st.drafts[d], rec.platform, None, now))
  }

  /** `after` is the due record `before` once handled with the given outcome. */
  predicate SettledWith(outcome: Option<Publisher.PlatformResult>, before: PublishRecord, after: PublishRecord) {
    && (after.status == Succeeded || after.status == Failed)
    && after.(status := before.status, platformPostId := before.platformPostId, errorMessage := before.errorMessage) == before
    && (outcome.None? ==>
          after.status == Failed && after.errorMessage == Some(MissingDraft) && after.platformPostId == before.platformPostId)
    && (outcome.Some? ==>
          && (after.status == Succeeded <==> outcome.value.Published?)
          && after.platformPostId == outcome.value.PostId()
          && after.errorMessage == outcome.value.Error())
  }

  /**
   * The final state of a due record `before` once the job has handled it, `after`, given the
   * tables the job started from.
   */
  predicate Settled(st: Publisher.PublishState, before: PublishRecord, after: PublishRecord, now: nat) {
    SettledWith(OutcomeOf(st, before, now), before, after)
  }

  /** Handles the due record at position `i`. */
  function RunOne(st: Publisher.PublishState, i: nat, now: nat): (r: Publisher.PublishState)
    requires i < |st.records|
    ensures r.drafts == st.drafts && Publisher.SameAccounts(st.accounts, r.accounts)
    ensures |r.records| >= |st.records|
    ensures forall j :: 0 <= j < |st.records| && j != i ==> r.records[j] == st.records[j]
    ensures st.records[i].status == Scheduled ==> Settled(st, st.records[i], r.records[i], now)
    ensures forall j :: |st.records| <= j < |r.records| ==> r.records[j].status != Scheduled
  {
    var rec := st.records[i];
    match Publisher.FindDraft(st.drafts, rec.draftId)
    case None =>
      st.(records := st.records[i := rec.(status := Failed, errorMessage := Some(MissingDraft))])
    case Some(d) =>
      var out := Publisher.PublishContent(st, rec.draftId, [rec.platform], None, now);
      Publisher.PublishNowSchedulesNothing(st, rec.draftId, [rec.platform], now);
      assert rec.platform in [rec.platform];
      var result := Seqs.Get(out.0.results, rec.platform).value;
      assert OutcomeOf(st, rec, now) == Some(result);
      var st' := out.1;
      assert st'.records[i] == st'.records[..|st.records|][i] == rec;
      st'.(records := st'.records[i := Finished(rec, result)])
  }

  /** The record once published with `result`: its status, post id and error taken from the result. */
  function Finished(rec: PublishRecord, result: Publisher.PlatformResult): (r: PublishRecord)
    requires !result.Queued?
    ensures SettledWith(Some(result), rec, r)
  {
    rec.(status := if result.Succeeded() then Succeeded else Failed,
         platformPostId := result.PostId(), errorMessage := result.Error())
  }

  /** The records of `orig` at positions not in `handled` are unchanged in `cur`. */
  predicate Untouched(orig: seq<PublishRecord>, cur: seq<PublishRecord>, handled: seq<nat>) {
    |cur| >= |orig| && forall i :: 0 <= i < |orig| && i !in handled ==> cur[i] == orig[i]
  }

  /** The records of `orig` at the positions in `handled` are settled in `cur` with their outcomes. */
  predicate AllSettled(orig: seq<PublishRecord>, cur: seq<PublishRecord>, handled: seq<nat>,
                       outcome: PublishRecord -> Option<Publisher.PlatformResult>) {
    forall j :: 0 <= j < |handled| ==>
      handled[j] < |orig| <= |cur| && SettledWith(outcome(orig[handled[j]]), orig[handled[j]], cur[handled[j]])
  }

  /** No record from position `from` on is scheduled. */
  predicate NoneScheduledFrom(records: seq<PublishRecord>, from: nat) {
    forall i :: from <= i < |records| ==> records[i].status != Scheduled
  }

  /**
   * What holds once the due records at positions `handled` have been handled, starting from
   * `st` and arriving at `cur`; `outcome` gives each record's outcome.
   */
  predicate Progress(st: Publisher.PublishState, cur: Publisher.PublishState, handled: seq<nat>,
                     outcome: PublishRecord -> Option<Publisher.PlatformResult>) {
    && cur.drafts == st.drafts && Publisher.SameAccounts(st.accounts, cur.accounts)
    && Untouched(st.records, cur.records, handled)
    && AllSettled(st.records, cur.records, handled, outcome)
    && NoneScheduledFrom(cur.records, |st.records|)
  }

  /** Handling one more record, with the effect `RunOne` promises, extends the progress. */
  lemma ProgressStep(st: Publisher.PublishState, cur: Publisher.PublishState, next: Publisher.PublishState,
                     handled: seq<nat>, i: nat, outcome: PublishRecord -> Option<Publisher.PlatformResult>)
    requires Progress(st, cur, handled, outcome) && i < |st.records| && i !in handled
    requires next.drafts == cur.drafts && Publisher.SameAccounts(cur.accounts, next.accounts)
    requires |next.records| >= |cur.records|
    requires forall j :: 0 <= j < |cur.records| && j != i ==> next.records[j] == cur.records[j]
    requires SettledWith(outcome(st.records[i]), st.records[i], next.records[i])
    requires NoneScheduledFrom(next.records, |cur.records|)
    ensures Progress(st, next, handled + [i], outcome)
  {
    SameAccountsTrans(st.accounts, cur.accounts, next.accounts);
    UntouchedStep(st.records, cur.records, next.records, handled, i);
    SettledStep(st.records, cur.records, next.records, handled, i, outcome);
  }

  /** Handling a due record not handled yet extends the progress by that record. */
  lemma RunOneProgress(st: Publisher.PublishState, cur: Publisher.PublishState, handled: seq<nat>, i: nat, now: nat,
                       outcome: PublishRecord -> Option<Publisher.PlatformResult>)
    requires Progress(st, cur, handled, outcome) && i < |st.records| && i !in handled && Due(st.records[i], now)
    requires forall rec :: outcome(rec) == OutcomeOf(st, rec, now)
    ensures i < |cur.records| && Progress(st, RunOne(cur, i, now), handled + [i], outcome)
  {
    var next := RunOne(cur, i, now);
    assert cur.records[i] == st.records[i];
    SettledTransfer(st, cur, cur.records[i], next.records[i], now);
    ProgressStep(st, cur, next, handled, i, outcome);
  }

  lemma UntouchedStep(orig: seq<PublishRecord>, cur: seq<PublishRecord>, next: seq<PublishRecord>, handled: seq<nat>, i: nat)
    requires Untouched(orig, cur, handled) && |next| >= |cur|
    requires forall j :: 0 <= j < |cur| && j != i ==> next[j] == cur[j]
    ensures Untouched(orig, next, handled + [i])
  {
    forall j | 0 <= j < |orig| && j !in handled + [i] ensures next[j] == orig[j] {
      assert j !in handled;
    }
  }

  lemma SettledStep(orig: seq<PublishRecord>, cur: seq<PublishRecord>, next: seq<PublishRecord>, handled: seq<nat>, i: nat,
                    outcome: PublishRecord -> Option<Publisher.PlatformResult>)
    requires AllSettled(orig, cur, handled, outcome) && i < |orig| <= |cur| <= |next| && i !in handled
    requires forall j :: 0 <= j < |cur| && j != i ==> next[j] == cur[j]
    requires SettledWith(outcome(orig[i]), orig[i], next[i])
    ensures AllSettled(orig, next, handled + [i], outcome)
  {
    var h := handled + [i];
    forall j | 0 <= j < |h| ensures h[j] < |orig| <= |next| && SettledWith(outcome(orig[h[j]]), orig[h[j]], next[h[j]]) {
      if j < |handled| {
        assert h[j] == handled[j] && handled[j] in handled;
      }
    }
  }

  lemma ProgressDone(st: Publisher.PublishState, cur: Publisher.PublishState, dues: seq<nat>, now: nat,
                     outcome: PublishRecord -> Option<Publisher.PlatformResult>)
    requires dues == DueIndices(st.records, now, 0)
    requires Progress(st, cur, dues, outcome)
    requires forall rec :: outcome(rec) == OutcomeOf(st, rec, now)
    ensures forall i :: 0 <= i < |st.records| && !Due(st.records[i], now) ==> cur.records[i] == st.records[i]
    ensures forall i :: 0 <= i < |st.records| && Due(st.records[i], now) ==> Settled(st, st.records[i], cur.records[i], now)
  {
    forall i | 0 <= i < |st.records| && Due(st.records[i], now)
      ensures Settled(st, st.records[i], cur.records[i], now)
    {
      var j :| 0 <= j < |dues| && dues[j] == i;
      assert outcome(st.records[i]) == OutcomeOf(st, st.records[i], now);
    }
  }

  /**
   * `check_and_execute_scheduled_posts`: handles every due record and returns how many there
   * were; records that were not due are untouched, the records it adds are never scheduled,
   * and so a second run at the same time finds nothing due.
   */
  method CheckAndExecute(st: Publisher.PublishState, now: nat) returns (count: nat, r: Publisher.PublishState)
    ensures count == |DueIndices(st.records, now, 0)|
    ensures r.drafts == st.drafts && Publisher.SameAccounts(st.accounts, r.accounts)
    ensures |r.records| >= |st.records|
    ensures forall i :: 0 <= i < |st.records| && !Due(st.records[i], now) ==> r.records[i] == st.records[i]
    ensures forall i :: 0 <= i < |st.records| && Due(st.records[i], now) ==> Settled(st, st.records[i], r.records[i], now)
    ensures forall i :: |st.records| <= i < |r.records| ==> r.records[i].status != Scheduled
    ensures DueIndices(r.records, now, 0) == []
  {
    var dues := DueIndices(st.records, now, 0);
    var outcome := (rec: PublishRecord) => OutcomeOf(st, rec, now);
    var cur := st;
    var k := 0;
    while k < |dues|
      invariant 0 <= k <= |dues|
      invariant Progress(st, cur, dues[..k], outcome)
    {
      LoopStep(st, cur, dues, k, now, outcome);
      cur := RunOne(cur, dues[k], now);
      k := k + 1;
    }
    count := |dues|;
    r := cur;
    assert dues[..k] == dues;
    LoopDone(st, cur, dues, now, outcome);
  }

  /** The `k`-th due index names a due record not handled in an earlier turn. */
  lemma DueAt(records: seq<PublishRecord>, now: nat, dues: seq<nat>, k: nat)
    requires dues == DueIndices(records, now, 0) && k < |dues|
    ensures dues[k] < |records| && Due(records[dues[k]], now) && dues[k] !in dues[..k]
  {
    forall j | 0 <= j < k ensures dues[..k][j] != dues[k] {
      assert dues[..k][j] == dues[j] < dues[k];
    }
  }

  /** One turn of the job's loop: handling the next due record extends the progress. */
  lemma LoopStep(st: Publisher.PublishState, cur: Publisher.PublishState, dues: seq<nat>, k: nat, now: nat,
                 outcome: PublishRecord -> Option<Publisher.PlatformResult>)
    requires dues == DueIndices(st.records, now, 0) && k < |dues|
    requires Progress(st, cur, dues[..k], outcome)
    requires forall rec :: outcome(rec) == OutcomeOf(st, rec, now)
    ensures dues[k] < |cur.records| && Progress(st, RunOne(cur, dues[k], now), dues[..k + 1], outcome)
  {
    var i := dues[k];
    DueAt(st.records, now, dues, k);
    RunOneProgress(st, cur, dues[..k], i, now, outcome);
    assert dues[..k + 1] == dues[..k] + [i];
  }

  /** After every due record is handled, the job's promises hold. */
  lemma LoopDone(st: Publisher.PublishState, cur: Publisher.PublishState, dues: seq<nat>, now: nat,
                 outcome: PublishRecord -> Option<Publisher.PlatformResult>)
    requires dues == DueIndices(st.records, now, 0)
    requires Progress(st, cur, dues, outcome)
    requires forall rec :: outcome(rec) == OutcomeOf(st, rec, now)
    ensures cur.drafts == st.drafts && Publisher.SameAccounts(st.accounts, cur.accounts)
    ensures |cur.records| >= |st.records|
    ensures forall i :: 0 <= i < |st.records| && !Due(st.records[i], now) ==> cur.records[i] == st.records[i]
    ensures forall i :: 0 <= i < |st.records| && Due(st.records[i], now) ==> Settled(st, st.records[i], cur.records[i], now)
    ensures forall i :: |st.records| <= i < |cur.records| ==> cur.records[i].status != Scheduled
    ensures DueIndices(cur.records, now, 0) == []
  {
    ProgressDone(st, cur, dues, now, outcome);
    NothingDue(cur.records, now, 0);
  }

  /** Settling against tables that differ only in `last_used` is settling against the originals. */
  lemma SettledTransfer(st: Publisher.PublishState, cur: Publisher.PublishState, before: PublishRecord,
                        after: PublishRecord, now: nat)
    requires cur.drafts == st.drafts && Publisher.SameAccounts(st.accounts, cur.accounts)
    requires Settled(cur, before, after, now)
    ensures Settled(st, before, after, now)
  {
    var d := Publisher.FindDraft(st.drafts, before.draftId);
    if d.Some? {
      Publisher.OutcomeSame(st.accounts, cur.accounts, st.drafts[d.value], before.platform, None, now);
    }
  }

  lemma SameAccountsTrans(a: seq<PlatformAccount>, b: seq<PlatformAccount>, c: seq<PlatformAccount>)
    requires Publisher.SameAccounts(a, b) && Publisher.SameAccounts(b, c)
    ensures Publisher.SameAccounts(a, c)
  {
  }
}

=== FILE: seqs.dfy ===
/**
 * Sequence helpers with Python's list semantics: clamped slicing (`xs[:n]`, `xs[a:b]`) and
 * insertion-ordered dictionaries, represented as association lists of (key, value) pairs.
 */
module Seqs {
  import opened Wrappers

  /** Python's `xs[:n]` for a non-negative `n`: slicing past the end is clamped. */
  function Take<T>(xs: seq<T>, n: nat): (r: seq<T>)
    ensures |r| == if n <= |xs| then n else |xs|
    ensures r == xs[..|r|]
  {
    if n <= |xs| then xs[..n] else xs
  }

  /** Python's normalisation of a slice bound: negative counts from the end, then clamped. */
  function Bound(n: nat, a: int): (r: nat)
    ensures r <= n
    ensures 0 <= a <= n ==> r == a
  {
    if a < 0 then (if a + n < 0 then 0 else a + n)
    else if a <= n then a else n
  }

  /** Python's `xs[a:b]`: either bound may be negative or past the end. */
  function Slice<T>(xs: seq<T>, a: int, b: int): (r: seq<T>)
    ensures |r| <= |xs|
    ensures Bound(|xs|, a) <= Bound(|xs|, b) ==> r == xs[Bound(|xs|, a)..Bound(|xs|, b)]
    ensures Bound(|xs|, b) <= Bound(|xs|, a) ==> r == []
  {
    var lo := Bound(|xs|, a);
    var hi := Bound(|xs|, b);
    if lo <= hi then xs[lo..hi] else []
  }

  /** Consecutive pages put together give the page that spans both. */
  lemma SliceConcat<T>(xs: seq<T>, a: nat, b: nat, c: nat)
    requires a <= b <= c
    ensures Slice(xs, a, b) + Slice(xs, b, c) == Slice(xs, a, c)
  {
    var n := |xs|;
    if c <= n {
      assert xs[a..b] + xs[b..c] == xs[a..c];
    } else if b <= n {
      assert xs[a..b] + xs[b..n] == xs[a..n];
    } else if a <= n {
    }
  }

  /** Two consecutive pages of `limit` put together give the page of `2 * limit` from the same start. */
  lemma SlicePages<T>(xs: seq<T>, skip: nat, limit: nat)
    ensures Slice(xs, skip, skip + limit) + Slice(xs, skip + limit, skip + limit + limit) == Slice(xs, skip, skip + 2 * limit)
  {
    var b := skip + limit;
    var c := skip + 2 * limit;
    assert skip + limit + limit == c;
    SliceConcat(xs, skip, b, c);
    assert Slice(xs, skip + limit, skip + limit + limit) == Slice(xs, b, c);
  }

  /** The elements satisfying `p`, in order: a list comprehension with a condition. */
  function Filter<T>(xs: seq<T>, p: T -> bool): (r: seq<T>)
    ensures |r| <= |xs|
    ensures forall i :: 0 <= i < |r| ==> p(r[i]) && r[i] in xs
    ensures forall i :: 0 <= i < |xs| && p(xs[i]) ==> xs[i] in r
  {
    if |xs| == 0 then []
    else
      var rest := Filter(xs[1..], p);
      assert forall i :: 1 <= i < |xs| ==> xs[i] == xs[1..][i - 1];
      (if p(xs[0]) then [xs[0]] else []) + rest
  }

  /** `xs.index(x)`: the position of the first occurrence of `x`. */
  function FirstIndex<T(==)>(xs: seq<T>, x: T): (i: nat)
    requires x in xs
    ensures i < |xs| && xs[i] == x
    ensures forall k :: 0 <= k < i ==> xs[k] != x
  {
    if xs[0] == x then 0
    else
      assert forall k :: 1 <= k < |xs| ==> xs[k] == xs[1..][k - 1];
      1 + FirstIndex(xs[1..], x)
  }

  /** An element of a prefix first occurs at the same place in the whole sequence. */
  lemma FirstIndexPrefix<T>(xs: seq<T>, m: nat, x: T)
    requires m <= |xs| && x in xs[..m]
    ensures FirstIndex(xs, x) == FirstIndex(xs[..m], x)
  {
    var a := FirstIndex(xs, x);
    var b := FirstIndex(xs[..m], x);
    assert xs[b] == xs[..m][b] == x;
    assert a <= b;
    assert xs[..m][a] == xs[a] == x;
  }

  /** From position `from` on, `xs` pairs up with `ys` element by element under `holds`, and ends with it. */
  predicate PairedFrom<A, B>(xs: seq<A>, from: nat, ys: seq<B>, holds: (A, B) -> bool) {
    && from + |ys| == |xs|
    && forall i :: 0 <= i < |ys| ==> holds(xs[from + i], ys[i])
  }

  /** A pairing with `head` followed by a pairing with `rest` is a pairing with `head + rest`. */
  lemma PairedJoin<A, B>(xs: seq<A>, from: nat, head: seq<B>, rest: seq<B>, holds: (A, B) -> bool)
    requires from + |head| <= |xs|
    requires forall i :: 0 <= i < |head| ==> holds(xs[from + i], head[i])
    requires PairedFrom(xs, from + |head|, rest, holds)
    ensures PairedFrom(xs, from, head + rest, holds)
  {
    forall i | 0 <= i < |head + rest| ensures holds(xs[from + i], (head + rest)[i]) {
      if i >= |head| {
        assert xs[from + i] == xs[from + |head| + (i - |head|)];
      }
    }
  }

  /** How many times `k` occurs in `xs`. */
  function Count<K(==)>(xs: seq<K>, k: K): nat {
    if |xs| == 0 then 0
    else Count(xs[..|xs| - 1], k) + (if xs[|xs| - 1] == k then 1 else 0)
  }

  /** An element of the sequence occurs at least once. */
  lemma {:induction false} CountPositive<K>(xs: seq<K>, k: K)
    requires k in xs
    ensures Count(xs, k) > 0
  {
    var n := |xs| - 1;
    if xs[n] != k {
      assert xs == xs[..n] + [xs[n]];
      CountPositive(xs[..n], k);
    }
  }

  /** The keys of an association list, as a set. */
  function KeySet<K, V>(m: seq<(K, V)>): set<K> {
    set i | 0 <= i < |m| :: m[i].0
  }

  /** No key occurs twice: the shape of every association list a Python dict gives. */
  predicate DistinctKeys<K(==), V>(m: seq<(K, V)>) {
    forall i, j :: 0 <= i < j < |m| ==> m[i].0 != m[j].0
  }

  /** Python's `d.get(k)`: the value of the first pair with key `k`. */
  function Get<K(==), V>(m: seq<(K, V)>, k: K): (r: Option<V>)
    ensures r.Some? <==> k in KeySet(m)
  {
    if |m| == 0 then None
    else if m[0].0 == k then Some(m[0].1)
    else
      var r := Get(m[1..], k);
      assert KeySet(m) == {m[0].0} + KeySet(m[1..]) by {
        forall x | x in KeySet(m) ensures x in {m[0].0} + KeySet(m[1..]) {
          var i :| 0 <= i < |m| && m[i].0 == x;
          if i > 0 { assert m[1..][i - 1].0 == x; }
        }
        forall x | x in KeySet(m[1..]) ensures x in KeySet(m) {
          var i :| 0 <= i < |m[1..]| && m[1..][i].0 == x;
          assert m[i + 1].0 == x;
        }
      }
      r
  }

  lemma KeySetCons<K, V>(p: (K, V), m: seq<(K, V)>)
    ensures KeySet([p] + m) == {p.0} + KeySet(m)
  {
    var pm := [p] + m;
    forall x | x in KeySet(pm) ensures x in {p.0} + KeySet(m) {
      var i :| 0 <= i < |pm| && pm[i].0 == x;
      if i > 0 { assert m[i - 1].0 == x; }
    }
    forall x | x in KeySet(m) ensures x in KeySet(pm) {
      var i :| 0 <= i < |m| && m[i].0 == x;
      assert pm[i + 1].0 == x;
    }
    assert pm[0].0 == p.0;
  }

  lemma ConsDistinct<K, V>(p: (K, V), m: seq<(K, V)>)
    requires DistinctKeys(m) && p.0 !in KeySet(m)
    ensures DistinctKeys([p] + m)
  {
    var pm := [p] + m;
    forall i, j | 0 <= i < j < |pm| ensures pm[i].0 != pm[j].0 {
      if i == 0 { assert pm[j].0 == m[j - 1].0; }
    }
  }

  /**
   * Python's `d[k] = v`: an existing key keeps its position and takes the new value,
   * a new key is appended at the end.
   */
  function Put<K(==), V>(m: seq<(K, V)>, k: K, v: V): (r: seq<(K, V)>)
    ensures |r| == if k in KeySet(m) then |m| else |m| + 1
    ensures k !in KeySet(m) ==> r == m + [(k, v)]
  {
    KeySetCons(if |m| == 0 then (k, v) else m[0], if |m| == 0 then [] else m[1..]);
    if |m| == 0 then
      [(k, v)]
    else if m[0].0 == k then
      [(k, v)] + m[1..]
    else
      [m[0]] + Put(m[1..], k, v)
  }

  /** After `d[k] = v`, `k` reads `v` and every other key reads what it read before. */
  lemma {:induction false} PutGet<K, V>(m: seq<(K, V)>, k: K, v: V, k': K)
    ensures Get(Put(m, k, v), k) == Some(v)
    ensures k' != k ==> Get(Put(m, k, v), k') == Get(m, k')
  {
    if |m| > 0 && m[0].0 != k {
      PutGet(m[1..], k, v, k');
    }
  }

  /** `d[k] = v` adds `k` to the keys and keeps them distinct. */
  lemma {:induction false} PutKeys<K, V>(m: seq<(K, V)>, k: K, v: V)
    ensures KeySet(Put(m, k, v)) == KeySet(m) + {k}
    ensures DistinctKeys(m) ==> DistinctKeys(Put(m, k, v))
  {
    if |m| == 0 {
      assert Put(m, k, v) == [(k, v)];
      assert KeySet([(k, v)]) == {k} by { KeySetCons((k, v), []); }
    } else if m[0].0 == k {
      KeySetCons(m[0], m[1..]);
      KeySetCons((k, v), m[1..]);
      assert m == [m[0]] + m[1..];
      if DistinctKeys(m) {
        assert DistinctKeys(m[1..]);
        assert k !in KeySet(m[1..]) by {
          forall i | 0 <= i < |m[1..]| ensures m[1..][i].0 != k { assert m[1..][i] == m[i + 1]; }
        }
        ConsDistinct((k, v), m[1..]);
      }
    } else {
      var rest := Put(m[1..], k, v);
      PutKeys(m[1..], k, v);
      KeySetCons(m[0], m[1..]);
      KeySetCons(m[0], rest);
      assert m == [m[0]] + m[1..];
      if DistinctKeys(m) {
        assert DistinctKeys(m[1..]);
        assert m[0].0 !in KeySet(m[1..]) by {
          forall i | 0 <= i < |m[1..]| ensures m[1..][i].0 != m[0].0 { assert m[1..][i] == m[i + 1]; }
        }
        ConsDistinct(m[0], rest);
      }
    }
  }

  /** In an association list with distinct keys, the entry at `i` is what `Get` finds. */
  lemma {:induction false} GetAt<K, V>(m: seq<(K, V)>, i: nat)
    requires DistinctKeys(m) && i < |m|
    ensures Get(m, m[i].0) == Some(m[i].1)
  {
    if i > 0 {
      assert m[0].0 != m[i].0;
      assert DistinctKeys(m[1..]);
      assert m[1..][i - 1] == m[i];
      GetAt(m[1..], i - 1);
    }
  }

  /** The position of a present key, whose entry is what `Get` finds. */
  lemma {:induction false} IndexOfKey<K, V>(m: seq<(K, V)>, k: K) returns (i: nat)
    requires k in KeySet(m)
    ensures i < |m| && m[i].0 == k && Get(m, k) == Some(m[i].1)
  {
    if m[0].0 == k {
      i := 0;
    } else {
      assert k in KeySet(m[1..]);
      var j := IndexOfKey(m[1..], k);
      i := j + 1;
    }
  }

  /** The sum of the values of an association list. */
  function Sum<K>(m: seq<(K, nat)>): nat {
    if |m| == 0 then 0 else m[0].1 + Sum(m[1..])
  }

  /** `d[k] = v` replaces the value `k` read (if any) by `v` in the sum. */
  lemma {:induction false} PutSum<K>(m: seq<(K, nat)>, k: K, v: nat)
    ensures Sum(Put(m, k, v)) + (if Get(m, k).Some? then Get(m, k).value else 0) == Sum(m) + v
  {
    if |m| > 0 && m[0].0 != k {
      PutSum(m[1..], k, v);
      assert Get(m, k) == Get(m[1..], k);
    }
  }

  /**
   * Python's `Counter`-style tally (`d[k] = d.get(k, 0) + 1` over `xs`): each distinct key
   * once, in order of first occurrence.
   */
  function Counts<K(==)>(xs: seq<K>): (r: seq<(K, nat)>)
    ensures DistinctKeys(r)
  {
    if |xs| == 0 then []
    else
      var m := Counts(xs[..|xs| - 1]);
      var k := xs[|xs| - 1];
      var v := if Get(m, k).Some? then Get(m, k).value + 1 else 1;
      PutKeys(m, k, v);
      Put(m, k, v)
  }

  /** The tally holds, for each key present, its number of occurrences. */
  lemma {:induction false} CountsGet<K>(xs: seq<K>, k: K)
    ensures Get(Counts(xs), k) == if Count(xs, k) == 0 then None else Some(Count(xs, k))
  {
    if |xs| > 0 {
      var init := xs[..|xs| - 1];
      var m := Counts(init);
      var k' := xs[|xs| - 1];
      CountsGet(init, k);
      CountsGet(init, k');
      var v := if Get(m, k').Some? then Get(m, k').value + 1 else 1;
      assert Counts(xs) == Put(m, k', v);
      assert Count(xs, k) == Count(init, k) + (if k' == k then 1 else 0);
      PutGet(m, k', v, k);
    }
  }

  /** Updating a present key leaves every key in its place. */
  lemma {:induction false} PutKeepsKeys<K, V>(m: seq<(K, V)>, k: K, v: V)
    requires k in KeySet(m)
    ensures |Put(m, k, v)| == |m| && forall i :: 0 <= i < |m| ==> Put(m, k, v)[i].0 == m[i].0
  {
    if m[0].0 != k {
      KeySetCons(m[0], m[1..]);
      assert m == [m[0]] + m[1..];
      PutKeepsKeys(m[1..], k, v);
      forall i | 1 <= i < |m| ensures Put(m, k, v)[i].0 == m[i].0 {
        assert Put(m, k, v)[i] == Put(m[1..], k, v)[i - 1];
        assert m[i] == m[1..][i - 1];
      }
    }
  }

  /** Every key of the tally is an element of the tallied sequence. */
  lemma CountsKeyIn<K>(xs: seq<K>, i: nat)
    requires i < |Counts(xs)|
    ensures Counts(xs)[i].0 in xs
  {
    var k := Counts(xs)[i].0;
    GetAt(Counts(xs), i);
    CountsGet(xs, k);
    if k !in xs {
      CountAbsent(xs, k);
    }
  }

  /** An element absent from the sequence occurs zero times. */
  lemma {:induction false} CountAbsent<K>(xs: seq<K>, k: K)
    requires k !in xs
    ensures Count(xs, k) == 0
  {
    if |xs| > 0 {
      assert k !in xs[..|xs| - 1];
      CountAbsent(xs[..|xs| - 1], k);
    }
  }

  /** The tally lists its keys in the order of their first occurrences, as a Python dict does. */
  lemma {:induction false} CountsOrder<K>(xs: seq<K>, i: nat, j: nat)
    requires i < j < |Counts(xs)|
    ensures Counts(xs)[i].0 in xs && Counts(xs)[j].0 in xs
    ensures FirstIndex(xs, Counts(xs)[i].0) < FirstIndex(xs, Counts(xs)[j].0)
  {
    CountsKeyIn(xs, i);
    CountsKeyIn(xs, j);
    var n := |xs| - 1;
    var init := xs[..n];
    var m := Counts(init);
    var x := xs[n];
    var v := if Get(m, x).Some? then Get(m, x).value + 1 else 1;
    var r := Counts(xs);
    assert r == Put(m, x, v);
    assert xs == init + [x];
    if x in KeySet(m) {
      PutKeepsKeys(m, x, v);
      assert r[i].0 == m[i].0 && r[j].0 == m[j].0;
      CountsOrder(init, i, j);
      FirstIndexPrefix(xs, n, m[i].0);
      FirstIndexPrefix(xs, n, m[j].0);
    } else if j < |m| {
      assert r[i] == m[i] && r[j] == m[j];
      CountsOrder(init, i, j);
      FirstIndexPrefix(xs, n, m[i].0);
      FirstIndexPrefix(xs, n, m[j].0);
    } else {
      assert r[i] == m[i] && r[j].0 == x;
      assert x !in init by {
        if x in init {
          CountPositive(init, x);
          CountsGet(init, x);
        }
      }
      CountsKeyIn(init, i);
      FirstIndexPrefix(xs, n, m[i].0);
    }
  }

  /** The tallied numbers add up to the number of elements. */
  lemma {:induction false} CountsSum<K>(xs: seq<K>)
    ensures Sum(Counts(xs)) == |xs|
  {
    if |xs| > 0 {
      var init := xs[..|xs| - 1];
      var m := Counts(init);
      var k := xs[|xs| - 1];
      var v := if Get(m, k).Some? then Get(m, k).value + 1 else 1;
      CountsSum(init);
      PutSum(m, k, v);
    }
  }
}

=== FILE: sorting.dfy ===
/**
 * Python's `sorted(xs, key=key, reverse=True)`: a stable sort by descending key. Elements
 * with equal keys keep their input order, as Python's sort guarantees even with `reverse`.
 */
module Sorting {

  /** Keys never increase along the sequence. */
  ghost predicate SortedDesc<T>(xs: seq<T>, key: T -> real) {
    forall i, j :: 0 <= i < j < |xs| ==> key(xs[i]) >= key(xs[j])
  }

  /** Places `x` before the first element whose key is not greater than its own. */
  function InsertDesc<T(==)>(x: T, ys: seq<T>, key: T -> real): (r: seq<T>)
    ensures multiset(r) == multiset(ys) + multiset{x}
  {
    if |ys| == 0 then [x]
    else if key(x) >= key(ys[0]) then [x] + ys
    else
      assert ys == [ys[0]] + ys[1..];
      [ys[0]] + InsertDesc(x, ys[1..], key)
  }

  /** Inserting into a sorted sequence keeps it sorted. */
  lemma {:induction false} InsertDescSorted<T>(x: T, ys: seq<T>, key: T -> real)
    requires SortedDesc(ys, key)
    ensures SortedDesc(InsertDesc(x, ys, key), key)
    ensures |InsertDesc(x, ys, key)| == |ys| + 1
  {
    if |ys| > 0 && key(x) < key(ys[0]) {
      InsertDescSorted(x, ys[1..], key);
      var rest := InsertDesc(x, ys[1..], key);
      var r := [ys[0]] + rest;
      forall j | 0 < j < |r| ensures key(r[0]) >= key(r[j]) {
        assert r[j] == rest[j - 1];
        assert rest[j - 1] in multiset(rest);
        if rest[j - 1] != x {
          assert rest[j - 1] in multiset(ys[1..]);
          var k :| 0 <= k < |ys[1..]| && ys[1..][k] == rest[j - 1];
          assert ys[k + 1] == rest[j - 1];
        }
      }
    }
  }

  /** Inserting the head into the sorted tail sorts the whole sequence. */
  lemma SortStep<T>(xs: seq<T>, rest: seq<T>, key: T -> real)
    requires |xs| > 0 && multiset(rest) == multiset(xs[1..]) && SortedDesc(rest, key)
    ensures multiset(InsertDesc(xs[0], rest, key)) == multiset(xs)
    ensures |InsertDesc(xs[0], rest, key)| == |xs|
    ensures SortedDesc(InsertDesc(xs[0], rest, key), key)
  {
    InsertDescSorted(xs[0], rest, key);
    assert xs == [xs[0]] + xs[1..];
    assert |rest| == |multiset(rest)|;
  }

  /** The stable descending sort. */
  function SortDesc<T(==)>(xs: seq<T>, key: T -> real): (r: seq<T>)
    ensures multiset(r) == multiset(xs)
    ensures |r| == |xs|
    ensures SortedDesc(r, key)
  {
    if |xs| == 0 then []
    else
      var rest := SortDesc(xs[1..], key);
      SortStep(xs, rest, key);
      InsertDesc(xs[0], rest, key)
  }

  /** The elements of `xs` whose key is `c`, in their order in `xs`. */
  function EqualKeys<T>(xs: seq<T>, key: T -> real, c: real): seq<T> {
    if |xs| == 0 then []
    else (if key(xs[0]) == c then [xs[0]] else []) + EqualKeys(xs[1..], key, c)
  }

  /** Inserting `x` puts it before every element of `ys` with the same key. */
  lemma {:induction false} InsertDescStable<T>(x: T, ys: seq<T>, key: T -> real, c: real)
    ensures EqualKeys(InsertDesc(x, ys, key), key, c) == (if key(x) == c then [x] else []) + EqualKeys(ys, key, c)
  {
    var hx: seq<T> := if key(x) == c then [x] else [];
    if |ys| == 0 {
      assert EqualKeys([x], key, c) == hx + EqualKeys([x][1..], key, c);
    } else if key(x) >= key(ys[0]) {
      assert ([x] + ys)[1..] == ys;
    } else {
      var rest := InsertDesc(x, ys[1..], key);
      var h0: seq<T> := if key(ys[0]) == c then [ys[0]] else [];
      InsertDescStable(x, ys[1..], key, c);
      assert ([ys[0]] + rest)[1..] == rest;
      assert EqualKeys([ys[0]] + rest, key, c) == h0 + (hx + EqualKeys(ys[1..], key, c));
      assert h0 == [] || hx == [];
    }
  }

  /** Elements with equal keys keep their input order, as Python's sort is stable. */
  lemma {:induction false} SortDescStable<T>(xs: seq<T>, key: T -> real, c: real)
    ensures EqualKeys(SortDesc(xs, key), key, c) == EqualKeys(xs, key, c)
  {
    if |xs| > 0 {
      SortDescStable(xs[1..], key, c);
      InsertDescStable(xs[0], SortDesc(xs[1..], key), key, c);
    }
  }

  /** `sorted(xs, key=key, reverse=True)[:n]`: the `n` elements of highest key, highest first. */
  function Top<T(==)>(xs: seq<T>, key: T -> real, n: nat): (r: seq<T>)
    ensures |r| == if n <= |xs| then n else |xs|
    ensures r == SortDesc(xs, key)[..|r|]
    ensures SortedDesc(r, key)
    ensures forall i :: 0 <= i < |r| ==> r[i] in xs
    ensures multiset(r) <= multiset(xs)
  {
    var sorted := SortDesc(xs, key);
    var r := if n <= |sorted| then sorted[..n] else sorted;
    assert sorted == r + sorted[|r|..];
    forall i | 0 <= i < |r| ensures r[i] in xs {
      assert r[i] == sorted[i];
      assert sorted[i] in multiset(sorted);
    }
    r
  }

  /** An element whose image under `f` no other element shares occurs once. */
  lemma OnceUnder<T, K>(xs: seq<T>, f: T -> K, a: nat)
    requires forall x, y :: 0 <= x < y < |xs| ==> f(xs[x]) != f(xs[y])
    requires a < |xs|
    ensures multiset(xs)[xs[a]] == 1
  {
    assert xs == xs[..a] + [xs[a]] + xs[a + 1..];
    assert forall k :: 0 <= k < a ==> xs[..a][k] == xs[k];
    assert forall k :: a < k < |xs| ==> xs[a + 1..][k - a - 1] == xs[k];
    assert xs[a] !in xs[..a];
    assert xs[a] !in xs[a + 1..];
  }

  /** An element found at two positions occurs at least twice. */
  lemma TwiceAt<T>(ys: seq<T>, i: nat, j: nat)
    requires i < j < |ys| && ys[i] == ys[j]
    ensures multiset(ys)[ys[i]] >= 2
  {
    assert ys == ys[..i] + [ys[i]] + ys[i + 1..j] + [ys[j]] + ys[j + 1..];
  }

  /** Part of a sequence whose elements have distinct images under `f` has distinct images too. */
  lemma DistinctUnder<T, K>(xs: seq<T>, ys: seq<T>, f: T -> K)
    requires multiset(ys) <= multiset(xs)
    requires forall a, b :: 0 <= a < b < |xs| ==> f(xs[a]) != f(xs[b])
    ensures forall i, j :: 0 <= i < j < |ys| ==> f(ys[i]) != f(ys[j])
  {
    forall i, j | 0 <= i < j < |ys| ensures f(ys[i]) != f(ys[j]) {
      if f(ys[i]) == f(ys[j]) {
        assert ys[i] in multiset(xs) && ys[j] in multiset(xs);
        var a :| 0 <= a < |xs| && xs[a] == ys[i];
        var b :| 0 <= b < |xs| && xs[b] == ys[j];
        assert a == b;
        OnceUnder(xs, f, a);
        TwiceAt(ys, i, j);
      }
    }
  }

  /** An element left out of `Top` was left out because `n` elements of at least its key were taken. */
  lemma TopHighest<T>(xs: seq<T>, key: T -> real, n: nat, x: T)
    requires x in xs && x !in Top(xs, key, n)
    ensures |Top(xs, key, n)| == n
    ensures forall i :: 0 <= i < n ==> key(Top(xs, key, n)[i]) >= key(x)
  {
    var sorted := SortDesc(xs, key);
    var r := Top(xs, key, n);
    assert x in multiset(sorted);
    var m :| 0 <= m < |sorted| && sorted[m] == x;
    assert m >= |r|;
    forall i | 0 <= i < n ensures key(r[i]) >= key(x) {
      assert r[i] == sorted[i];
    }
  }
}

=== FILE: streams.dfy ===
/**
 * The provider-neutral generation results and stream chunks, the shape every stream must
 * have (deltas, then one terminal or one error chunk), and the reconstruction property:
 * the terminal chunk's full text is the concatenation of the deltas before it.
 */
module Streams {
  import opened Wrappers

  /** Vendor-reported token usage; any figure may be absent from the vendor's reply. */
  datatype Usage = Usage(promptTokens: Option<int>, completionTokens: Option<int>, totalTokens: Option<int>)

  /** Python's `{}` usage dictionary. */
  const NoUsage := Usage(None, None, None)

  /** The outcome of one blocking generation call. */
  datatype GenerationResult =
    | Generated(content: string, usage: Usage, model: Option<string>)
    | Failed(error: string)

  /**
   * One element of a stream:
   *  - `Delta`: `finished` false, the new fragment and the text so far;
   *  - `Finished`: `finished` true, empty fragment, the whole text, and the usage when the
   *    chunk carries a `usage` key (`None` when the key is absent);
   *  - `Error`: the single `{"error": ...}` chunk that ends a failed stream.
   */
  datatype Chunk =
    | Delta(content: string, full: string)
    | Finished(full: string, usage: Option<Usage>)
    | Error(error: string)

  /** Zero or more deltas followed by exactly one terminal or error chunk. */
  predicate WellShaped(s: seq<Chunk>) {
    && |s| >= 1
    && (forall i :: 0 <= i < |s| - 1 ==> s[i].Delta?)
    && !s[|s| - 1].Delta?
  }

  /**
   * The running text before position `i`: the previous chunk's full text, or `start`
   * (the text accumulated before `s` began) at the first position.
   */
  function TextBefore(s: seq<Chunk>, i: nat, start: string): string
    requires i <= |s|
  {
    if i == 0 then start
    else match s[i - 1]
      case Delta(_, full) => full
      case Finished(full, _) => full
      case Error(_) => ""
  }

  /**
   * Every delta's full text is the previous full text plus the delta's fragment, and a
   * terminal chunk repeats the previous full text; `start` is the text before the first chunk.
   */
  predicate AccumulatingFrom(s: seq<Chunk>, start: string) {
    forall i {:trigger TextBefore(s, i, start)} :: 0 <= i < |s| ==>
      match s[i]
      case Delta(c, full) => full == TextBefore(s, i, start) + c
      case Finished(full, _) => full == TextBefore(s, i, start)
      case Error(_) => true
  }

  /** A whole stream accumulates from the empty text. */
  predicate Accumulating(s: seq<Chunk>) {
    AccumulatingFrom(s, "")
  }

  /** Prepending a delta that extends `start` keeps a stream accumulating. */
  lemma ConsDelta(c: string, start: string, rest: seq<Chunk>)
    requires AccumulatingFrom(rest, start + c)
    ensures AccumulatingFrom([Delta(c, start + c)] + rest, start)
  {
    var s := [Delta(c, start + c)] + rest;
    forall i | 0 < i < |s| ensures TextBefore(s, i, start) == TextBefore(rest, i - 1, start + c) {
      assert s[i - 1] == if i == 1 then Delta(c, start + c) else rest[i - 2];
    }
    assert forall i :: 0 < i < |s| ==> s[i] == rest[i - 1];
  }

  /** Prepending a delta to a well-shaped stream keeps it well shaped. */
  lemma ConsDeltaShape(d: Chunk, rest: seq<Chunk>)
    requires d.Delta? && WellShaped(rest)
    ensures WellShaped([d] + rest)
  {
    var s := [d] + rest;
    assert forall i :: 0 < i < |s| ==> s[i] == rest[i - 1];
  }

  /** Prepending a delta that extends `start` to a well-shaped stream accumulating from there. */
  lemma PrependDelta(c: string, start: string, rest: seq<Chunk>)
    requires WellShaped(rest) && AccumulatingFrom(rest, start + c)
    ensures WellShaped([Delta(c, start + c)] + rest) && AccumulatingFrom([Delta(c, start + c)] + rest, start)
  {
    ConsDelta(c, start, rest);
    ConsDeltaShape(Delta(c, start + c), rest);
  }

  /** The concatenation of the fragments of the deltas in `s`. */
  function Concat(s: seq<Chunk>): string {
    if |s| == 0 then ""
    else Concat(s[..|s| - 1]) + (if s[|s| - 1].Delta? then s[|s| - 1].content else "")
  }

  /** The part of an accumulating prefix of deltas: its last full text is the concatenation. */
  lemma {:induction false} DeltaPrefixText(s: seq<Chunk>, n: nat)
    requires n <= |s| && Accumulating(s)
    requires forall i :: 0 <= i < n ==> s[i].Delta?
    ensures TextBefore(s, n, "") == Concat(s[..n])
  {
    if n > 0 {
      DeltaPrefixText(s, n - 1);
      assert s[..n][..n - 1] == s[..n - 1];
      assert s[..n][n - 1] == s[n - 1];
    }
  }

  /**
   * Reconstruction: in a well-shaped accumulating stream that finishes, the terminal full
   * text equals the concatenation of all delta fragments.
   */
  lemma Reconstruction(s: seq<Chunk>)
    requires WellShaped(s) && Accumulating(s) && s[|s| - 1].Finished?
    ensures s[|s| - 1].full == Concat(s)
  {
    var n := |s| - 1;
    DeltaPrefixText(s, n);
    assert s[..|s|][..n] == s[..n];
    assert s[..|s|] == s;
  }
}

=== FILE: text.dfy ===
/**
 * String operations with the semantics of the Python built-ins the system uses:
 * substring test (`w in s`), `startswith`, `strip`, `split`/`join` on one separator,
 * `str(n)` for naturals, `isalnum` and prefix slicing `s[:k]` with a possibly negative `k`.
 */
module Text {

  /** `w` occurs in `s` starting at index `i`. */
  predicate OccursAt(s: string, w: string, i: nat) {
    i + |w| <= |s| && s[i..i + |w|] == w
  }

  /** Python's `w in s` for strings. */
  predicate Contains(s: string, w: string) {
    exists i: nat | i <= |s| :: OccursAt(s, w, i)
  }

  /** Python's `s.startswith(p)`. */
  predicate StartsWith(s: string, p: string) {
    |p| <= |s| && s[..|p|] == p
  }

  /** A witness position proves containment. */
  lemma ContainsAt(s: string, w: string, i: nat)
    requires OccursAt(s, w, i)
    ensures Contains(s, w)
  {
  }

  /** If the first character of `w` never occurs in `s`, then `w` does not occur in `s`. */
  lemma NotContainsByFirstChar(s: string, w: string)
    requires |w| > 0
    requires forall k :: 0 <= k < |s| ==> s[k] != w[0]
    ensures !Contains(s, w)
  {
    forall i: nat | i <= |s| ensures !OccursAt(s, w, i) {
      if i + |w| <= |s| {
        assert s[i..i + |w|][0] == s[i];
      }
    }
  }

  /** The characters Python's `str.isspace` accepts, which is what `strip()` removes. */
  predicate IsSpace(c: char) {
    var n := c as int;
    (9 <= n <= 13) || (28 <= n <= 32) || n == 0x85 || n == 0xA0 || n == 0x1680
    || (0x2000 <= n <= 0x200A) || n == 0x2028 || n == 0x2029 || n == 0x202F
    || n == 0x205F || n == 0x3000
  }

  function TrimLeft(s: string): (r: string)
    ensures |r| <= |s| && r == s[|s| - |r|..]
    ensures |r| > 0 ==> !IsSpace(r[0])
  {
    if |s| > 0 && IsSpace(s[0]) then TrimLeft(s[1..]) else s
  }

  function TrimRight(s: string): (r: string)
    ensures |r| <= |s| && r == s[..|r|]
    ensures |r| > 0 ==> !IsSpace(r[|r| - 1])
  {
    if |s| > 0 && IsSpace(s[|s| - 1]) then TrimRight(s[..|s| - 1]) else s
  }

  /** Python's `s.strip()`. */
  function Strip(s: string): (r: string)
    ensures |r| <= |s|
    ensures |r| > 0 ==> !IsSpace(r[0]) && !IsSpace(r[|r| - 1])
  {
    TrimRight(TrimLeft(s))
  }

  /** Python's `s.split(sep)` for a one-character separator: `"".split(",") == [""]`. */
  function Split(s: string, sep: char): (r: seq<string>)
    ensures |r| >= 1
    decreases |s|
  {
    if |s| == 0 then [""]
    else if s[0] == sep then [""] + Split(s[1..], sep)
    else
      var rest := Split(s[1..], sep);
      [[s[0]] + rest[0]] + rest[1..]
  }

  /** Python's `sep.join(parts)`. */
  function Join(parts: seq<string>, sep: char): string {
    if |parts| == 0 then ""
    else if |parts| == 1 then parts[0]
    else parts[0] + [sep] + Join(parts[1..], sep)
  }

  /** `sep` does not occur in `s`. */
  predicate Free(s: string, sep: char) {
    forall k :: 0 <= k < |s| ==> s[k] != sep
  }

  /** Splitting what was joined gives back the parts, provided no part holds the separator. */
  lemma {:induction false} SplitJoin(parts: seq<string>, sep: char)
    requires |parts| >= 1
    requires forall i :: 0 <= i < |parts| ==> Free(parts[i], sep)
    ensures Split(Join(parts, sep), sep) == parts
  {
    if |parts| == 1 {
      SplitFree(parts[0], sep);
    } else {
      SplitJoin(parts[1..], sep);
      SplitPrefix(parts[0], sep, Join(parts[1..], sep));
      assert parts == [parts[0]] + parts[1..];
    }
  }

  /** A string without the separator splits into itself. */
  lemma {:induction false} SplitFree(s: string, sep: char)
    requires Free(s, sep)
    ensures Split(s, sep) == [s]
    decreases |s|
  {
    if |s| > 0 {
      SplitFree(s[1..], sep);
      assert [s[0]] + s[1..] == s;
    }
  }

  /** A separator-free head followed by the separator becomes the first part. */
  lemma {:induction false} SplitPrefix(head: string, sep: char, tail: string)
    requires Free(head, sep)
    ensures Split(head + [sep] + tail, sep) == [head] + Split(tail, sep)
    decreases |head|
  {
    var s := head + [sep] + tail;
    if |head| == 0 {
      assert s[1..] == tail;
    } else {
      SplitPrefix(head[1..], sep, tail);
      assert s[1..] == head[1..] + [sep] + tail;
      assert [head[0]] + head[1..] == head;
    }
  }

  /** Joining what was split gives back the string: splitting loses nothing. */
  lemma {:induction false} JoinSplit(s: string, sep: char)
    ensures Join(Split(s, sep), sep) == s
    decreases |s|
  {
    if |s| > 0 {
      JoinSplit(s[1..], sep);
      var rest := Split(s[1..], sep);
      if s[0] == sep {
        assert s == [sep] + s[1..];
      } else {
        var parts := [[s[0]] + rest[0]] + rest[1..];
        if |rest| == 1 {
          assert s == [s[0]] + s[1..];
        } else {
          assert rest == [rest[0]] + rest[1..];
          assert Join(rest, sep) == rest[0] + [sep] + Join(rest[1..], sep);
          assert parts[1..] == rest[1..];
          assert s == [s[0]] + s[1..];
        }
      }
    }
  }

  function DigitChar(d: nat): (c: char)
    requires d < 10
    ensures '0' <= c <= '9'
  {
    ['0', '1', '2', '3', '4', '5', '6', '7', '8', '9'][d]
  }

  /** Python's `str(n)` for a natural number: its decimal digits, no leading zero. */
  function NatToString(n: nat): (r: string)
    ensures |r| >= 1
    ensures forall k :: 0 <= k < |r| ==> '0' <= r[k] <= '9'
  {
    if n < 10 then [DigitChar(n)] else NatToString(n / 10) + [DigitChar(n % 10)]
  }

  /**
   * Python's `isalnum` per character, restricted to what the data holds: ASCII letters
   * and digits, and the CJK unified ideographs (which Python counts as letters).
   */
  predicate IsAlnumChar(c: char) {
    ('0' <= c <= '9') || ('a' <= c <= 'z') || ('A' <= c <= 'Z')
    || (0x3400 <= c as int <= 0x4DBF) || (0x4E00 <= c as int <= 0x9FFF)
  }

  /** Python's `s.isalnum()`: non-empty and every character alphanumeric. */
  predicate IsAlnum(s: string) {
    |s| > 0 && forall k :: 0 <= k < |s| ==> IsAlnumChar(s[k])
  }

  /** Python's `s[:k]` where `k` may be negative (counted from the end). */
  function PrefixTo(s: string, k: int): (r: string)
    ensures |r| <= |s| && r == s[..|r|]
    ensures 0 <= k <= |s| ==> |r| == k
    ensures k < 0 && -k <= |s| ==> |r| == |s| + k
  {
    if k >= 0 then (if k <= |s| then s[..k] else s)
    else if |s| + k >= 0 then s[..|s| + k] else []
  }
}

=== FILE: wrappers.dfy ===
/**
 * Optional values, standing for Python's `None` and for a dictionary key that is absent, and
 * results, standing for a computation that may raise.
 */
module Wrappers {

  datatype Option<+T> = None | Some(value: T) {

    /** The value, or `default` when there is none (Python's `d.get(k, default)`). */
    function GetOr(default: T): T {
      match this
      case Some(v) => v
      case None => default
    }
  }

  /** A value, or the message of the exception raised instead. */
  datatype Result<+T> = Ok(value: T) | Raises(message: string)
}
